=== FILE: README.md ===
# Book thickness search, modelled in Dafny

This project models the core of lmartin5/BookThickness, a brute-force search
for book embeddings of simple graphs. A book embedding puts the vertices on a
line, the *spine*, in some order. Each edge goes on one of `n` *pages*, and
no two edges on the same page may interleave along the spine.

The model has six modules:

- `SimpleGraph` (`simple_graph.dfy`): the `SimpleGraph` constructor.
  - It validates the raw edge list against three errors.
  - It orients every edge smaller label first, drops loops and removes repeats.
  - It derives the vertex count and vertex list.
  - It also covers the `complete_graph` and `complete_bipartite_graph` generators.
- `BookEmbedding` (`book_embedding.dfy`): the `BookEmbedding` search state for one spine and one page count.
  - The state holds the placed, remaining and available lists.
  - The construction, removal and query operations each become a pure function.
  - `place_edge` also runs the blocking rule of `add_blocked_edges`.
  - `place_free_edges` places the edges between spine neighbours.
  - `is_graph_placed` is `IsGraphPlaced`, true when no edge remains; its one-line body is all it promises.
- `Search` (`search.dfy`): the searches over spines.
  - `find_n_page_embedding_with_spine` is the level-by-level frontier search. It branches on the first remaining edge.
  - `find_n_page_embedding` is the loop over spines.
  - `find_book_embedding` is the loop over page counts.
- `Permutations` (`permutations.dfy`): the permutation strings.
  - The swap-based generator `generate_perm` and `get_spines`.
  - The label encoding `perm_to_string` and `string_to_perm`, and `toString`.
  - The dictionary deletions `find_and_remove_flip`, `find_and_remove_rotations` and `find_and_remove_dihedrals`.
  - `store_perms_in_dict`.
  - `find_and_remove_identical_element` and `remove_identical_elements`.
- `Symmetries` (`symmetries.dfy`): the reductions and the relations they should respect.
  - The reductions are `remove_flip_elements`, `remove_rotation_elements` and `remove_dihedral_elements`.
  - The relations are "reversal of", "rotation of" and "in the dihedral orbit of".
  - It adds a whole-orbit variant of the dihedral reduction: the corrected behaviour (see Findings).
- `Seqs` (`seqs.dfy`): sequence helpers used throughout.
  - `Filter`, `IndexOf` (`list.index`), `RemoveFirst` (`list.remove`), `NoDup`, `Range`.
  - `KeepFirst`, the first-occurrence de-duplication a Python `dict` or the seen-check loop performs.

A Python `dict` whose values equal its keys is modelled by its keys, in
insertion order and without repetitions. `del d[k]` inside `try`/`except` is
filtering `k` out. Object mutation becomes a function from the old state to
the new one.

The main results are the following.

**Search soundness.** The search keeps an invariant (`Search.SearchInv`):

- no two placed edges on one page cross;
- no available placement crosses a placed edge on its page;
- the placed and remaining edges together are the input edges, as a multiset.

`place_edge` preserves this invariant. This rests on an exact
characterisation of the blocking rule: `add_blocked_edges` removes exactly
the same-page placements that would cross the new edge. Every level of the
search lowers the remaining-edge count by one. So the search terminates, and
any state it returns is a book embedding of the input edges along that spine.

**Generator.** `generate_perm` restores its list. It appends exactly
`(r - l + 1)!` lists. Each one rearranges the input inside `l..r` only, and
for distinct elements they are pairwise distinct.

**Encoding round trips.** `string_to_perm` undoes `perm_to_string` on labels
`0..35`. `perm_to_string` undoes `string_to_perm` on strings over `0-9a-z`.

**Reductions.** Under stated closure hypotheses, each reduction keeps exactly
the first-inserted key of each class, in insertion order. No two kept keys
are related, and every input key is related to a kept one.

## Model

| member | source | states |
|---|---|---|
| SimpleGraph.CheckEdge | BookThickness/SimpleGraph.py:39-50 | Three errors, each with an iff: not a 2-tuple; a 2-tuple with a non-`int` item; two `int`s with one below 1. On success the element is exactly the tuple of two naturals returned. |
| SimpleGraph.OrientedNonLoops | BookThickness/SimpleGraph.py:52-57 | Every kept edge has its smaller label first. The kept edges are exactly the orientations of the input pairs whose labels differ. |
| SimpleGraph.CheckAll | BookThickness/SimpleGraph.py:39-50 | Validation succeeds iff every element passes. The validated pairs correspond element by element. An error is the error of the first failing element. |
| SimpleGraph.VerifyLoop | BookThickness/SimpleGraph.py:39-67 | The loop fails exactly when validation fails, with the same error. Otherwise it appends the oriented non-loop edges not already seen, in input order. |
| SimpleGraph.VerifyEdgeSet | BookThickness/SimpleGraph.py:36-67 | Fails iff some element is malformed, with the error of the first such element. Otherwise the stored edges are the first occurrences of the oriented non-loop edges, in input order. They have no repetitions and satisfy `1 <= x < y`. As a set they are the ordered pairs the input joins in either orientation. |
| SimpleGraph.NormalisedInput | BookThickness/SimpleGraph.py:36-67 | An input that is already ordered, natural and repetition-free is stored unchanged. |
| SimpleGraph.HighestVertex | BookThickness/SimpleGraph.py:26-32 | The result bounds every endpoint. It is 0 or an endpoint of some edge, so it is the largest endpoint. |
| SimpleGraph.MakeGraph | BookThickness/SimpleGraph.py:24-34 | The edge count is the list length. The vertex count bounds every edge, and is 0 exactly when there are no edges or else an endpoint. The vertex list is `1..numVertices`. |
| SimpleGraph.NewGraph | BookThickness/SimpleGraph.py:22-34 | The constructor fails exactly when `verify_edge_set` does, with its error. Otherwise it stores the verified edges, their count, the largest endpoint (0 without edges) and the vertex list `1..numVertices`. |
| SimpleGraph.Product | BookThickness/SimpleGraph.py:98 | `itertools.product`: `len(xs) * len(ys)` pairs, exactly those with first item in `xs` and second in `ys`. |
| SimpleGraph.ProductSorted | BookThickness/SimpleGraph.py:98 | The product of two increasing lists is in lexicographic order. |
| SimpleGraph.PairsFrom | BookThickness/BookThickness.py:84-86 | The inner two loops of the constructor yield exactly the pairs `u <= x < y <= hi`, `Tri` of the range width of them. |
| SimpleGraph.PairsFromSorted | BookThickness/BookThickness.py:84-86 | Those pairs come in lexicographic order. |
| SimpleGraph.TriClosed | BookThickness/BookThickness.py:84-86 | The number of pairs over `k` labels is `k(k-1)/2`. |
| SimpleGraph.CompleteGraph | BookThickness/SimpleGraph.py:95-102 | Never fails. The edges are exactly the pairs `i < j` of `1..n`, `n(n-1)/2` of them, in lexicographic order. The vertex count is `n` when `n >= 2` and 0 otherwise. |
| SimpleGraph.CompleteBipartiteGraph | BookThickness/SimpleGraph.py:104-111 | Never fails. The edges are exactly the pairs from `1..n` to `n+1..n+m`, `n*m` of them, already ordered and in product order. The vertex count is `n + m`, or 0 when a side is empty. |
| Seqs.RemoveFirst | BookThickness/BookThickness.py:68 | `list.remove` removes one occurrence: one element fewer, and the multiset loses one copy. |
| BookEmbedding.PagesFrom | BookThickness/BookThickness.py:83-86 | Pages `p..n` hold exactly the ordered label pairs of `1..verts`, each page in lexicographic order, page-major. |
| BookEmbedding.PagesFromLength | BookThickness/BookThickness.py:83-86 | Pages `p..n` hold `(n - p + 1)` times the pairs of one page, none when `p > n`. |
| BookEmbedding.GenerateAllPossibleEdges | BookThickness/BookThickness.py:82-86 | The available list holds exactly `((u, v), p)` for pages `1..n` and `1 <= u < v <= verts`, `n * verts(verts-1)/2` entries, each once, page-major. |
| BookEmbedding.NewEmbedding | BookThickness/BookThickness.py:15-22 | The new state keeps the page count, spine and edges, and places nothing. Its available list holds every ordered pair of `1..len(spine)` on every page. The state is well formed. |
| BookEmbedding.CopyRemove | BookThickness/BookThickness.py:89-93 | The copy-and-remove-first-occurrence loop computes the filter of the original list: the kept elements, in order. |
| BookEmbedding.RemoveEdgeFromAvailable | BookThickness/BookThickness.py:88-93 | Drops the edge on every page and keeps every other placement, in order. |
| BookEmbedding.RemoveTypedEdge | BookThickness/BookThickness.py:95-106 | Drops only that edge on that page and keeps every other placement, in order. |
| BookEmbedding.IsEdgeAvailable | BookThickness/BookThickness.py:108-112 | True iff the placement is in the available list. |
| BookEmbedding.GetAvailableEdges | BookThickness/BookThickness.py:158-163 | Exactly the available placements of the edge, each as often as in the available list. |
| BookEmbedding.GetAvailableEdgesOrder | BookThickness/BookThickness.py:158-163 | The options keep list order: one placement yields itself iff it is of the edge, and the options of a concatenation are those of the front followed by those of the back. |
| BookEmbedding.RowPairs | BookThickness/BookThickness.py:152-156 | The inner loop removes exactly the pairs of `block` with each exterior label, smaller label first. |
| BookEmbedding.AllPairs | BookThickness/BookThickness.py:151-156 | Both loops remove exactly the pairs of an interior and an exterior label, oriented. |
| BookEmbedding.BlockRow | BookThickness/BookThickness.py:152-156 | The inner loop of `remove_typed_edge` calls equals one filter by the row's pairs on page `p`. |
| BookEmbedding.BlockLoop | BookThickness/BookThickness.py:151-156 | The outer loop equals one filter by all interior/exterior pairs on page `p`. |
| BookEmbedding.AdjacentBlocksNothing | BookThickness/BookThickness.py:141-142 | When the endpoints are spine neighbours, nothing is blocked. |
| BookEmbedding.InteriorExterior | BookThickness/BookThickness.py:144-149 | A label is in the interior list iff it lies strictly inside the edge's span, and in the exterior list iff it lies strictly outside. |
| BookEmbedding.BlockedPairsExact | BookThickness/BookThickness.py:144-156 | On page `p` the loops remove exactly the placements the blocking rule names. |
| BookEmbedding.AddBlockedEdges | BookThickness/BookThickness.py:130-156 | Removes exactly the page-`p` placements with one endpoint strictly inside the edge's spine interval and the other strictly outside. Every other placement is kept, in order, including other pages and pairs touching an endpoint or on one side. |
| BookEmbedding.BlocksIffCrosses | BookThickness/BookThickness.py:130-156 | A placement is blocked iff it is on the same page and interleaves with the placed edge on the spine. |
| BookEmbedding.PlaceEdge | BookThickness/BookThickness.py:114-128 | A page outside `1..numPages` gives `-2`; an unavailable placement gives `-1`; both leave the state unchanged. On success: the placement is appended and one copy of the edge leaves the remaining list. The edge is no longer available on any page. On page `p` exactly the placements it blocks are removed. The state stays well formed. |
| BookEmbedding.PlaceEdgeOrder | BookThickness/BookThickness.py:114-128 | After a placement the available list is the old one, in order, less the placements of the edge and those it blocks. The remaining list loses the first copy of the edge, if any, with the rest in order. |
| BookEmbedding.AdjacentCrossesNothing | BookThickness/BookThickness.py:57-80 | An edge between spine neighbours, or between the first and last label, crosses no edge between spine labels. |
| BookEmbedding.FreeStep | BookThickness/BookThickness.py:66-69 | A present neighbour edge is placed on page 1 and removed from the remaining list and from the available list on every page. An absent one changes nothing. Without repetitions in the remaining list, the edge is gone from it. |
| BookEmbedding.FreeLoop | BookThickness/BookThickness.py:58-69 | The loop over consecutive labels only adds neighbour edges on page 1, taken from the remaining list. Without repetitions, none of the edges it visits remains. |
| BookEmbedding.PlaceFreeEdges | BookThickness/BookThickness.py:57-80 | An empty spine raises IndexError at `self.spine[0]`, modelled as `None`. Otherwise it places on page 1 only edges between consecutive spine labels or between the first and last label, each taken from the remaining list, and removes each placed edge from every page of the available list. When the remaining list has no repetitions, every such edge in it is placed and none is left in it; `list.remove` drops only one copy. Nothing is blocked and nothing else changes. |
| BookEmbedding.PlaceFreeEdgesOrder | BookThickness/BookThickness.py:57-80 | After the free edges are placed, the available list is the old one in order without any placement of them, and the remaining list has lost the first copy of each, in the order they were placed. |
| BookEmbedding.SomePageFrom | BookThickness/BookThickness.py:28-31 | True iff the edge is available on some page in `p..n`. |
| BookEmbedding.AllPlaceableFrom | BookThickness/BookThickness.py:26-34 | True iff every remaining edge from index `i` on is available on some page. |
| BookEmbedding.IsPossibleToEmbed | BookThickness/BookThickness.py:24-35 | False iff some remaining edge has no available placement on any page `1..numPages`. |
| Search.InitialInv | BookThickness/BookThickness.py:233-234 | The constructed state satisfies the search invariant. |
| Search.FreeInv | BookThickness/BookThickness.py:235 | Placing free edges keeps the search invariant. |
| Search.CompatibleAfter | BookThickness/BookThickness.py:128-156 | After blocking, no available placement crosses a placed edge on its page, including the new one. |
| Search.PlaceInv | BookThickness/BookThickness.py:249-252 | Placing an available placement of a remaining edge succeeds, keeps the invariant, and leaves one remaining edge fewer. |
| Search.Children | BookThickness/BookThickness.py:246-252 | Each child places the first remaining edge on some page `1..n`, keeps the invariant, and has one remaining edge fewer. |
| Search.ExpandLevel | BookThickness/BookThickness.py:239-253 | A pass over the frontier returns a frontier state with no remaining edges. Otherwise it returns the next frontier, whose states all keep the invariant and have one remaining edge fewer. |
| Search.SearchFrom | BookThickness/BookThickness.py:238-255 | The `while` loop terminates, because the remaining-edge count drops per level. Any state it returns has no remaining edges and keeps the invariant. |
| Search.FindNPageEmbeddingWithSpine | BookThickness/BookThickness.py:232-255 | A returned state is an `n`-page book embedding along the spine: nothing remaining, and every input edge placed once between spine labels on a page `1..n`, or, for a free edge (spine neighbours or the two spine ends), on page 1. No two same-page edges cross. Free edges go to page 1 whatever `n` is, so for `n <= 0` a graph all of whose edges are free is returned as embedded. |
| Search.ZeroPageEmbedding | BookThickness/BookThickness.py:67-80 | With no pages, the single edge `(1, 2)` along spine `[1, 2]` is still returned as embedded, on page 1, because free edges skip the page check. |
| Search.ZeroPagesOnlyFree | BookThickness/BookThickness.py:67-80 | In an embedding with `n <= 0` pages every edge is a free edge on page 1: only `place_free_edges` places edges without the page check. |
| Search.ZeroPagesRejectsChord | BookThickness/BookThickness.py:67-80 | The chord `(1, 3)` on page 1 along spine `[1, 2, 3, 4]` is not a zero-page embedding, because it is not a free edge. |
| Search.FindNPageEmbedding | BookThickness/BookThickness.py:205-230 | Returns the result of the first spine that succeeds, a book embedding along it. Returns `-1` exactly when every spine fails. |
| Search.FindBookEmbedding | BookThickness/BookThickness.py:169-203 | A returned embedding uses the first page count, from `n` up, for which some spine succeeds. Every smaller count tried fails on all spines. |
| Permutations.EncodeLabel | BookThickness/Permutations.py:141-144 | A label `0..35` is written as one character of `0-9a-z`. |
| Permutations.DecodeChar | BookThickness/Permutations.py:150-153 | A character of `0-9a-z` is read as a label `0..35`. |
| Permutations.PermToString | BookThickness/Permutations.py:138-145 | One code character per label. |
| Permutations.StringToPerm | BookThickness/Permutations.py:147-154 | One label per character, and labels `0..35` for a code string. |
| Permutations.DecodeEncode | BookThickness/Permutations.py:138-154 | `string_to_perm(perm_to_string(p)) == p` for labels `0..35`. |
| Permutations.EncodeDecode | BookThickness/Permutations.py:138-154 | `perm_to_string(string_to_perm(s)) == s` for strings over `0-9a-z`. |
| Permutations.ToString | BookThickness/Permutations.py:79-80 | Joining one-character strings yields their characters, in order. |
| Permutations.JoinChars | BookThickness/Permutations.py:79-80 | Joining the characters of a string gives the string back. |
| Permutations.Swap | BookThickness/Permutations.py:92 | Exchanges two positions and keeps every other position. |
| Permutations.SwapMultiset | BookThickness/Permutations.py:92 | The exchange keeps the elements with their counts. |
| Permutations.GenPerm | BookThickness/Permutations.py:87-94 | On return the list holds its original contents. |
| Permutations.GenLoop | BookThickness/Permutations.py:91-94 | Every iteration swaps back, so the list is restored after the loop. |
| Permutations.GenPermAgrees | BookThickness/Permutations.py:87-94 | Every appended list is a rearrangement of the input that agrees with it outside `l..r`. |
| Permutations.GenLoopAgrees | BookThickness/Permutations.py:91-94 | Every list from iteration `i` on agrees with the input outside `l..r` and holds one of `a[i..r]` at `l`. |
| Permutations.GenPermCount | BookThickness/Permutations.py:87-94 | The number of appended lists is the count fixed by the recursion's shape for the range width. |
| Permutations.ArrangementsIsFact | BookThickness/Permutations.py:87-94 | That count is `w!` for a width `w >= 1`. |
| Permutations.GenPermDistinct | BookThickness/Permutations.py:87-94 | For distinct elements the appended lists are pairwise distinct. |
| Permutations.Labels | BookThickness/Permutations.py:98-103 | The label string of `1..n` has `n` characters, the `i`-th the code of `i + 1`. |
| Permutations.GetSpines | BookThickness/Permutations.py:9-12 | `n!` pairwise distinct strings for `n >= 1` (none otherwise), each a rearrangement of the label string of `1..n`, with no reduction. |
| Permutations.GetSpinesAreSpines | BookThickness/Permutations.py:97-110 | For `1 <= n <= 35`, every string decodes to a spine: the labels `1..n`, each once. |
| Permutations.StorePermsInDict | BookThickness/Permutations.py:156-160 | One key per distinct string, in first-insertion order. |
| Permutations.FindAndRemoveFlip | BookThickness/Permutations.py:14-19 | Deletes the reversed line if present and keeps every other key, in order. The dictionary shrinks by one exactly when the reversal was present. |
| Permutations.RotationsFrom | BookThickness/Permutations.py:24-29 | The loop only deletes keys and keeps the rest in order. |
| Permutations.RotationsSpec | BookThickness/Permutations.py:24-29 | From iteration `i`, the loop deletes exactly the successive rotations up to the first one that is absent. |
| Permutations.FindAndRemoveRotations | BookThickness/Permutations.py:21-29 | Deletes right rotations 1, 2, ... while each is present, stopping at the first absent one. Exactly those are deleted; every other key stays, in order. |
| Permutations.DihedralsFromPairLoop | BookThickness/Permutations.py:35-45 | The loop that recomputes each rotation behaves like the loop over the precomputed rotations and reversed rotations. |
| Permutations.PairLoopSpec | BookThickness/Permutations.py:35-45 | The loop deletes exactly the keys of the iterations it completes, plus the rotation of the iteration that stops it. |
| Permutations.FindAndRemoveDihedrals | BookThickness/Permutations.py:31-45 | Deletes the reversal, then for each rotation `1..len-1` deletes it if present and deletes its reversal, stopping at the first missing reversal. Exactly the keys of those iterations are deleted; every other key stays, in order. |
| Permutations.SwapLabels | BookThickness/Permutations.py:126-132 | The string with labels `a` and `b` exchanged has the same length and the same labels. |
| Permutations.SwapLabelsNoDup | BookThickness/Permutations.py:126-132 | Exchanging two labels of a repetition-free line gives a repetition-free line. |
| Permutations.SwapLabelsTwice | BookThickness/Permutations.py:126-132 | Exchanging the same two labels twice gives the line back. |
| Permutations.FindAndRemoveIdenticalElement | BookThickness/Permutations.py:125-136 | A line lacking `a` or `b` raises ValueError at `ident.index`, modelled as `None`. Otherwise it returns 1 iff the swapped line is in the list, and then removes exactly one copy; else it returns 0 and leaves the list unchanged. |
| Permutations.RemoveIdenticalElements | BookThickness/Permutations.py:117-136 | The list left is a sub-multiset of the input. The removal count makes up the difference in length. Every removed string is some input line with `a` and `b` exchanged. This holds also when a visited line lacks `a` or `b`: the source then raises ValueError after the removals so far. It fails only if some input line lacks a label, and never when every line holds both. |
| Symmetries.RelatedSymmetric | BookThickness/Permutations.py:14-45 | Each relation the reductions aim at is symmetric. |
| Symmetries.RelatedTransitive | BookThickness/Permutations.py:14-45 | Each relation the reductions aim at is transitive. |
| Symmetries.FlipStep | BookThickness/Permutations.py:14-19 | For a line that is not a palindrome, `find_and_remove_flip` deletes exactly its reversal. |
| Symmetries.RotationStep | BookThickness/Permutations.py:21-29 | With all rotations of a repetition-free line present, every rotation except the line itself is deleted, and nothing else. |
| Symmetries.DihedralKeys | BookThickness/Permutations.py:31-45 | A completed dihedral loop deletes exactly the other rotations and reversed rotations of the line. |
| Symmetries.DihedralStep | BookThickness/Permutations.py:31-45 | With its whole orbit present, a repetition-free line of three or more characters keeps itself. All its other `2n - 1` rotations and reversed rotations are deleted, and nothing else. |
| Symmetries.DihedralsDeleteFlip | BookThickness/Permutations.py:33 | The reversed line is always deleted. |
| Symmetries.DihedralsStopEarly | BookThickness/Permutations.py:41-45 | A missing first reversed rotation ends the loop at once. |
| Symmetries.StopsOnPair | BookThickness/Permutations.py:41-45 | On `{"123", "132"}` processing either key deletes nothing. |
| Symmetries.DihedralKeepsRelatedPair | BookThickness/Permutations.py:67-75 | `"132"` is a reversed rotation of `"123"`, yet the reduction of `["123", "132"]` keeps both, because of the early stop. |
| Symmetries.ShortLineDeletesItself | BookThickness/Permutations.py:31-45 | A line of one or two characters is deleted while processing itself. |
| Symmetries.DihedralEmptiesPair | BookThickness/Permutations.py:67-75 | The reduction of `["12", "21"]` is empty. |
| Symmetries.Reduce | BookThickness/Permutations.py:50-53 | Processing one key only deletes keys and keeps the rest in order. |
| Symmetries.ReduceLoop | BookThickness/Permutations.py:50-53 | The loop over the key snapshot only deletes keys and keeps the rest in order. |
| Symmetries.RemoveElements | BookThickness/Permutations.py:47-75 | The result is a repetition-free sub-list of the dictionary, in insertion order, of input strings. |
| Symmetries.ReduceStep | BookThickness/Permutations.py:50-53 | On an admissible dictionary, processing a key whose relatives are present deletes exactly its relatives other than itself. |
| Symmetries.ReduceLoopSpec | BookThickness/Permutations.py:50-53 | On an admissible dictionary without repetitions, the loop from any index on ends with exactly the first-inserted key of each class. |
| Symmetries.RemoveElementsSpec | BookThickness/Permutations.py:47-75 | On an admissible dictionary, each reduction keeps exactly the first-inserted key of every class, in insertion order. |
| Symmetries.KeptApart | BookThickness/Permutations.py:47-75 | On an admissible dictionary, no two kept keys are related. |
| Symmetries.Covered | BookThickness/Permutations.py:47-75 | On an admissible dictionary, every input string is related to a kept key. |
| Symmetries.OrbitKeepsFirst | BookThickness/Permutations.py:67-75 | Deleting whole orbits keeps the first-inserted key of every class for every input. So every input string has a kept relative and a non-empty input keeps something. |
| Symmetries.OrbitKeepsPair | BookThickness/Permutations.py:67-75 | The whole-orbit reduction keeps `"12"` from `["12", "21"]`. |
| Symmetries.OrbitSeparatesPair | BookThickness/Permutations.py:67-75 | The whole-orbit reduction keeps only `"123"` from `["123", "132"]`. |

## Left out

- Printing: the progress messages and warnings, the prints in `generate_permutations` and `remove_identical_elements`, and both `__str__` methods. They are console output only.
- `copy` and `deepcopy`: values are immutable in Dafny, so every state is already a copy.
- The `spines == None` branch of `find_n_page_embedding`. It does nothing and the code then fails on `len(None)`. The model requires a list of spines.
- Search.FindBookEmbedding: the source's `while True` page loop has no bound. The model takes a `fuel` count of page counts to try and says nothing about counts beyond it.
- Search.FindBookEmbedding: it takes the spines as a parameter instead of computing the highest label and calling `get_spines`. The source feeds character lists from `get_spines` into a class that looks up integer labels. The model uses integer spines, and `Permutations.GetSpinesAreSpines` shows that decoding `get_spines` output gives valid spines.
- Search.FindNPageEmbeddingWithSpine: only soundness is proved, that a returned state is a book embedding. Completeness is not proved, although `find_book_embedding` relies on it: it reports the first page count with a success as the book thickness, so it needs `-1` to mean that no `n`-page embedding along the spine exists (for edge lists without repetitions).
- The dynamic type checks of `verify_edge_set` are modelled by the `Value` and `RawEdge` datatypes. Python's `is` comparisons of small integers are modelled as equality.
- `str.isnumeric` is modelled as the ASCII digits `0-9`. Other Unicode numeric characters are not modelled.
- Permutations.EncodeLabel: labels outside `0..35` are excluded. Above 35 the code leaves the `0-9a-z` alphabet, and negative labels print with a minus sign.
- Permutations.GetSpines: it states that there are `n!` distinct rearrangements of the `n` labels. It does not state separately that every ordering occurs, which follows by counting.
- Permutations.RemoveIdenticalElements: it states that the result is a sub-multiset of the input, that the count matches, and that every removed string is an exchanged copy of an input line. It does not say which copies go: the index advances past a removal, so that depends on positions.
- Permutations.FindAndRemoveIdenticalElement, Permutations.RemoveIdenticalElements: lines must be strings over `0-9a-z`. `string_to_perm` also accepts other characters, mapping them to `ord - 87`, but such labels fall outside `0..35` and `perm_to_string` does not map them back to one character each. The program only passes strings of `0-9a-z` labels.
- Search.FindNPageEmbeddingWithSpine, Search.FindNPageEmbedding, Search.FindBookEmbedding: spines must be non-empty. On an empty spine `place_free_edges` raises IndexError, as `BookEmbedding.PlaceFreeEdges` models, and the exception ends the whole search. `get_spines` never produces an empty spine.
- `strings_to_perms` is not modelled. It only maps `string_to_perm` over a list in place, and nothing in the core calls it.
- Symmetries.FlipStep: palindromic lines are excluded; `find_and_remove_flip` deletes such a line itself. `Symmetries.Admissible` excludes them for the flip reduction, as it does lines shorter than three for the dihedral one (see Findings).
- Symmetries.ReduceLoopSpec, Symmetries.RemoveElementsSpec, Symmetries.KeptApart, Symmetries.Covered: stated for admissible dictionaries only (`Symmetries.Admissible`): closed under rotation, and under reversal for the dihedral reduction, with no palindromes for the flip reduction and no line shorter than three for the dihedral one. Without it they fail: `Symmetries.DihedralKeepsRelatedPair` keeps two related keys and `Symmetries.DihedralEmptiesPair` keeps nothing. That the strings joined from `get_spines` output form an admissible dictionary is not proved, because it needs every ordering to occur (see `Permutations.GetSpines`).
- Symmetries.RotationStep, Symmetries.DihedralStep: stated for dictionaries closed under rotation (and reversal). On other input the early returns make the deletion depend on which keys happen to be present. `Symmetries.DihedralsStopEarly` and `Symmetries.StopsOnPair` pin down that behaviour.
- The import-time demo at the end of `Permutations.py` and the `main.py` entry point are demo code.

## Findings

| source | as written | input that shows it | evidently intended | confidence | as-written member | corrected member |
|---|---|---|---|---|---|---|
| BookThickness/Permutations.py:31-45 | For a line of two characters, iteration 0 rotates it to its reversal and then deletes the reversal of that rotation, which is the line itself. For one character, the initial flip deletes the line. So processing the key removes it, and `remove_dihedral_elements` can drop a whole class. | `remove_dihedral_elements(["12", "21"])` returns `[]`, so no spine of the 2-vertex graph is left to try. | Keep one representative of each dihedral class, here `["12"]`. | high, not executed | Symmetries.ShortLineDeletesItself, Symmetries.DihedralEmptiesPair | Symmetries.OrbitKeepsFirst, Symmetries.OrbitKeepsPair |

=== FILE: book_embedding.dfy ===
/** The BookEmbedding class: the search state for one (spine, page count)
    trial and the operations that place edges on pages and block the
    placements that would cross them. */
module BookEmbedding {
  import opened Seqs
  import opened SimpleGraph

  /** An `(edge, page_number)` pair of the placed and available lists. */
  datatype Placement = Placement(edge: Edge, page: int)

  /** The object's fields; `verts` is `|spine|`. */
  datatype Embedding = Embedding(
    numPages: int,
    spine: seq<int>,
    added: seq<Placement>,
    remaining: seq<Edge>,
    available: seq<Placement>)

  /** The three outcomes of `place_edge`: success (the source returns
      `None`), `-2` for a page outside `1..numPages`, `-1` for a placement
      that is not available. */
  datatype Status = Placed | InvalidPage | NotAvailable

  /** A spine the class can work with: the labels `1..|spine|`, each once. */
  predicate ValidSpine(spine: seq<int>)
  {
    NoDup(spine) && forall v :: 1 <= v <= |spine| ==> v in spine
  }

  /** The state the constructor sets up and every operation keeps: the
      spine has no repeated label, and every available placement is an
      ordered pair of spine labels on a page `1..numPages`. */
  predicate WellFormed(st: Embedding)
  {
    && NoDup(st.spine)
    && forall x :: x in st.available ==>
         && x.edge.0 in st.spine && x.edge.1 in st.spine
         && x.edge.0 < x.edge.1
         && 1 <= x.page <= st.numPages
  }

  // ---------------------------------------------------------------------
  // Construction

  /** Strict (page, first, second) order: page-major, then lexicographic. */
  predicate PlacementLess(a: Placement, b: Placement)
  {
    a.page < b.page || (a.page == b.page && LexLess(a.edge, b.edge))
  }

  predicate PageMajor(s: seq<Placement>)
  {
    forall i, j :: 0 <= i < j < |s| ==> PlacementLess(s[i], s[j])
  }

  /** Every pair of `pairs` on page `p`. */
  function OnPage(pairs: seq<Edge>, p: int): (r: seq<Placement>)
    ensures |r| == |pairs|
    ensures forall i :: 0 <= i < |r| ==> r[i] == Placement(pairs[i], p)
  {
    if |pairs| == 0 then [] else [Placement(pairs[0], p)] + OnPage(pairs[1..], p)
  }

  /** One page of sorted pairs followed by later pages stays page-major. */
  lemma PageMajorAppend(pairs: seq<Edge>, p: int, rest: seq<Placement>)
    requires LexSorted(pairs) && PageMajor(rest)
    requires forall x :: x in rest ==> x.page > p
    ensures PageMajor(OnPage(pairs, p) + rest)
  {
    var page := OnPage(pairs, p);
    forall i, j | 0 <= i < j < |page + rest|
      ensures PlacementLess((page + rest)[i], (page + rest)[j])
    {
      if j < |page| {
        assert page[i].edge == pairs[i] && page[j].edge == pairs[j];
      } else if i >= |page| {
        assert (page + rest)[i] == rest[i - |page|];
      } else {
        assert (page + rest)[j] in rest;
      }
    }
  }

  /** Pages `p..n` of the constructor's loop nest. */
  function PagesFrom(p: int, n: int, verts: nat): (r: seq<Placement>)
    ensures forall x :: x in r <==> p <= x.page <= n && 1 <= x.edge.0 < x.edge.1 <= verts
    ensures PageMajor(r)
    decreases n - p
  {
    if p > n then []
    else
      var pairs := PairsFrom(1, verts);
      var page := OnPage(pairs, p);
      var rest := PagesFrom(p + 1, n, verts);
      assert forall x :: x in page <==> x.page == p && x.edge in pairs by {
        forall x | x in page ensures x.page == p && x.edge in pairs {
          var i :| 0 <= i < |page| && page[i] == x;
        }
        forall x: Placement | x.page == p && x.edge in pairs ensures x in page {
          var i :| 0 <= i < |pairs| && pairs[i] == x.edge;
          assert page[i] == x;
        }
      }
      assert PageMajor(page + rest) by {
        PairsFromSorted(1, verts);
        PageMajorAppend(pairs, p, rest);
      }
      page + rest
  }

  /** Each page holds the same `t` pairs. */
  lemma {:induction false} PagesFromLength(p: int, n: int, verts: nat, t: nat)
    requires |PairsFrom(1, verts)| == t
    ensures |PagesFrom(p, n, verts)| == PageCount(p, n) * t
    decreases n - p
  {
    if p <= n {
      var rest := |PagesFrom(p + 1, n, verts)|;
      PageStep(p, n, verts, t);
      PagesFromLength(p + 1, n, verts, t);
      CountStep(PageCount(p, n), PageCount(p + 1, n), t, rest);
    } else {
      assert PagesFrom(p, n, verts) == [];
      assert PageCount(p, n) == 0;
    }
  }

  /** The number of pages in `p..n`. */
  function PageCount(p: int, n: int): nat
  {
    if p <= n then n - p + 1 else 0
  }

  /** Pages `p..n` are page `p` followed by pages `p + 1..n`. */
  lemma PageStep(p: int, n: int, verts: nat, t: nat)
    requires p <= n && |PairsFrom(1, verts)| == t
    ensures |PagesFrom(p, n, verts)| == t + |PagesFrom(p + 1, n, verts)|
    ensures PageCount(p, n) == PageCount(p + 1, n) + 1
  {
    assert |OnPage(PairsFrom(1, verts), p)| == t;
  }

  /** `k + 1` pages of `t` are one page more than `k` pages. */
  lemma CountStep(m: nat, k: nat, t: nat, rest: int)
    requires m == k + 1 && rest == k * t
    ensures t + rest == m * t
  {
    MulSucc(k, t);
  }

  /** `generate_all_possible_edges`: every ordered pair `u < v` of
      `1..verts` on every page `1..n`, each once, page-major, so
      `n * verts(verts-1)/2` placements. */
  function GenerateAllPossibleEdges(n: int, verts: nat): (r: seq<Placement>)
    ensures forall x :: x in r <==> 1 <= x.page <= n && 1 <= x.edge.0 < x.edge.1 <= verts
    ensures |r| == (if n > 0 then n else 0) * (verts * (verts - 1) / 2)
    ensures PageMajor(r)
  {
    TriClosed(verts);
    PagesFromLength(1, n, verts, Tri(verts));
    assert PageCount(1, n) == if n > 0 then n else 0;
    PagesFrom(1, n, verts)
  }

  /** The constructor `BookEmbedding(n, edges, spine)`. */
  function NewEmbedding(n: int, edges: seq<Edge>, spine: seq<int>): (st: Embedding)
    requires ValidSpine(spine)
    ensures WellFormed(st)
    ensures st.numPages == n && st.spine == spine
    ensures st.added == [] && st.remaining == edges
    ensures forall x :: x in st.available <==>
      1 <= x.page <= n && 1 <= x.edge.0 < x.edge.1 <= |spine|
  {
    Embedding(n, spine, [], edges, GenerateAllPossibleEdges(n, |spine|))
  }

  // ---------------------------------------------------------------------
  // Removal from the available list

  /** The source's removal idiom: walk the original list and, for every
      element `drop` selects, remove its first occurrence from a copy. The
      copy always holds the kept part of the visited prefix followed by the
      unvisited suffix. */
  function CopyRemove(orig: seq<Placement>, i: nat, copy: seq<Placement>, keep: Placement -> bool)
    : (r: seq<Placement>)
    requires i <= |orig|
    requires copy == Filter(orig[..i], keep) + orig[i..]
    ensures r == Filter(orig, keep)
    decreases |orig| - i
  {
    if i == |orig| then
      CopyDone(orig, copy, keep);
      copy
    else if keep(orig[i]) then
      KeptStep(orig, i, copy, keep);
      CopyRemove(orig, i + 1, copy, keep)
    else
      DroppedStep(orig, i, copy, keep);
      CopyRemove(orig, i + 1, RemoveFirst(copy, orig[i]), keep)
  }

  lemma CopyDone(orig: seq<Placement>, copy: seq<Placement>, keep: Placement -> bool)
    requires copy == Filter(orig[..|orig|], keep) + orig[|orig|..]
    ensures copy == Filter(orig, keep)
  {
    assert orig[..|orig|] == orig;
    assert orig[|orig|..] == [];
  }

  lemma KeptStep(orig: seq<Placement>, i: nat, copy: seq<Placement>, keep: Placement -> bool)
    requires i < |orig| && keep(orig[i])
    requires copy == Filter(orig[..i], keep) + orig[i..]
    ensures copy == Filter(orig[..i + 1], keep) + orig[i + 1..]
  {
    var kept, x, rest := Filter(orig[..i], keep), orig[i], orig[i + 1..];
    assert Filter(orig[..i + 1], keep) == kept + [x] by {
      assert orig[..i + 1] == orig[..i] + [x];
      FilterAppend(orig[..i], [x], keep);
    }
    assert orig[i..] == [x] + rest;
  }

  /** Removing the first occurrence of a dropped element from the copy
      removes the element at the head of the unvisited suffix. */
  lemma DroppedStep(orig: seq<Placement>, i: nat, copy: seq<Placement>, keep: Placement -> bool)
    requires i < |orig| && !keep(orig[i])
    requires copy == Filter(orig[..i], keep) + orig[i..]
    ensures orig[i] in copy
    ensures RemoveFirst(copy, orig[i]) == Filter(orig[..i + 1], keep) + orig[i + 1..]
  {
    var kept, x, rest := Filter(orig[..i], keep), orig[i], orig[i + 1..];
    assert x !in kept;
    assert Filter(orig[..i + 1], keep) == kept by {
      assert orig[..i + 1] == orig[..i] + [x];
      FilterAppend(orig[..i], [x], keep);
      assert Filter([x], keep) == [];
    }
    assert kept + orig[i..] == kept + [x] + rest by {
      assert orig[i..] == [x] + rest;
    }
    RemoveFirstAt(kept, x, rest);
  }

  /** Keeps the placements whose edge is not `e`. */
  function OtherEdge(e: Edge): Placement -> bool
  {
    (x: Placement) => x.edge != e
  }

  /** Keeps the placements other than edge `e` on page `p`. */
  function OtherPlacement(e: Edge, p: int): Placement -> bool
  {
    (x: Placement) => !(x.edge == e && x.page == p)
  }

  /** `remove_edge_from_available`: drops edge `e` on every page and keeps
      every other placement, in order. */
  function RemoveEdgeFromAvailable(avail: seq<Placement>, e: Edge): (r: seq<Placement>)
    ensures r == Filter(avail, OtherEdge(e))
    ensures forall x :: x in r <==> x in avail && x.edge != e
  {
    CopyRemove(avail, 0, avail, OtherEdge(e))
  }

  /** `remove_typed_edge`: drops edge `e` on page `p` only and keeps every
      other placement, in order. */
  function RemoveTypedEdge(avail: seq<Placement>, e: Edge, p: int): (r: seq<Placement>)
    ensures r == Filter(avail, OtherPlacement(e, p))
    ensures forall x :: x in r <==> x in avail && !(x.edge == e && x.page == p)
  {
    CopyRemove(avail, 0, avail, OtherPlacement(e, p))
  }

  /** `is_edge_available`: a linear scan for the placement. */
  function IsEdgeAvailable(avail: seq<Placement>, x: Placement): (b: bool)
    ensures b <==> x in avail
  {
    if |avail| == 0 then false
    else if avail[0] == x then true
    else
      assert avail == [avail[0]] + avail[1..];
      IsEdgeAvailable(avail[1..], x)
  }

  function SameEdge(e: Edge): Placement -> bool
  {
    (x: Placement) => x.edge == e
  }

  /** `get_available_edges`: the available placements of edge `e`, in the
      order of the available list. */
  function GetAvailableEdges(avail: seq<Placement>, e: Edge): (r: seq<Placement>)
    ensures forall x :: x in r <==> x in avail && x.edge == e
    ensures forall i :: 0 <= i < |r| ==> r[i].edge == e
    ensures forall x :: multiset(r)[x] == if x.edge == e then multiset(avail)[x] else 0
  {
    FilterMultiset(avail, SameEdge(e));
    Filter(avail, SameEdge(e))
  }

  /** The order of the options: a single placement yields itself exactly
      when it is a placement of `e`, and the options of a concatenation are
      those of the front followed by those of the back. Together these fix
      the result, including order and multiplicity, for every list. */
  lemma GetAvailableEdgesOrder(a: seq<Placement>, b: seq<Placement>, x: Placement, e: Edge)
    ensures GetAvailableEdges([x], e) == if x.edge == e then [x] else []
    ensures GetAvailableEdges(a + b, e) == GetAvailableEdges(a, e) + GetAvailableEdges(b, e)
  {
    assert [x][1..] == [];
    FilterAppend(a, b, SameEdge(e));
  }

  // ---------------------------------------------------------------------
  // Blocking

  /** `spine.index(v)`. */
  function Pos(spine: seq<int>, v: int): nat
  {
    IndexOf(spine, v)
  }

  /** The spine positions of the endpoints of `e`, smaller first. */
  function Span(spine: seq<int>, e: Edge): (span: (nat, nat))
    ensures span.0 <= span.1
  {
    var a := Pos(spine, e.0);
    var b := Pos(spine, e.1);
    if a > b then (b, a) else (a, b)
  }

  /** `v` sits on the spine strictly between the endpoints of `e`. */
  predicate Inside(spine: seq<int>, e: Edge, v: int)
  {
    v in spine && Span(spine, e).0 < Pos(spine, v) < Span(spine, e).1
  }

  /** `v` sits on the spine strictly outside the endpoints of `e`. */
  predicate Outside(spine: seq<int>, e: Edge, v: int)
  {
    v in spine && (Pos(spine, v) < Span(spine, e).0 || Pos(spine, v) > Span(spine, e).1)
  }

  /** The blocking rule: placing `e` on page `p` blocks the placement `x`
      when `x` is on page `p` and its ordered edge has one endpoint strictly
      inside the spine interval of `e` and the other strictly outside it. */
  predicate Blocks(spine: seq<int>, e: Edge, p: int, x: Placement)
  {
    && x.page == p
    && x.edge.0 < x.edge.1
    && ((Inside(spine, e, x.edge.0) && Outside(spine, e, x.edge.1))
        || (Outside(spine, e, x.edge.0) && Inside(spine, e, x.edge.1)))
  }

  function NotBlockedBy(spine: seq<int>, e: Edge, p: int): Placement -> bool
  {
    (x: Placement) => !Blocks(spine, e, p, x)
  }

  /** The pairs the inner loop of `add_blocked_edges` removes for one
      interior vertex `block`: `(vert, block)` or `(block, vert)`, smaller
      first, for each exterior `vert`. */
  function RowPairs(block: int, exterior: seq<int>): (r: seq<Edge>)
    ensures forall e :: e in r <==> exists o :: o in exterior && e == Orient(o, block)
  {
    if |exterior| == 0 then []
    else
      assert exterior == [exterior[0]] + exterior[1..];
      [Orient(exterior[0], block)] + RowPairs(block, exterior[1..])
  }

  /** The pairs both loops of `add_blocked_edges` remove. */
  function AllPairs(interior: seq<int>, exterior: seq<int>): (r: seq<Edge>)
    ensures forall e :: e in r <==> exists i, o :: i in interior && o in exterior && e == Orient(o, i)
  {
    if |interior| == 0 then []
    else
      assert interior == [interior[0]] + interior[1..];
      RowPairs(interior[0], exterior) + AllPairs(interior[1..], exterior)
  }

  /** Keeps the placements that are not one of `pairs` on page `p`. */
  function Unblocked(pairs: seq<Edge>, p: int): Placement -> bool
  {
    (x: Placement) => !(x.page == p && x.edge in pairs)
  }

  /** The inner loop: one `remove_typed_edge` per exterior vertex. */
  function BlockRow(avail: seq<Placement>, block: int, exterior: seq<int>, p: int): (r: seq<Placement>)
    ensures r == Filter(avail, Unblocked(RowPairs(block, exterior), p))
    decreases |exterior|
  {
    if |exterior| == 0 then
      FilterAll(avail, Unblocked([], p));
      avail
    else
      var e := Orient(exterior[0], block);
      var once := RemoveTypedEdge(avail, e, p);
      var r := BlockRow(once, block, exterior[1..], p);
      FilterFilter(avail, OtherPlacement(e, p), Unblocked(RowPairs(block, exterior[1..]), p),
        Unblocked(RowPairs(block, exterior), p));
      r
  }

  /** The outer loop: one inner loop per interior vertex. */
  function BlockLoop(avail: seq<Placement>, interior: seq<int>, exterior: seq<int>, p: int)
    : (r: seq<Placement>)
    ensures r == Filter(avail, Unblocked(AllPairs(interior, exterior), p))
    decreases |interior|
  {
    if |interior| == 0 then
      FilterAll(avail, Unblocked([], p));
      avail
    else
      var once := BlockRow(avail, interior[0], exterior, p);
      var r := BlockLoop(once, interior[1..], exterior, p);
      FilterFilter(avail, Unblocked(RowPairs(interior[0], exterior), p),
        Unblocked(AllPairs(interior[1..], exterior), p),
        Unblocked(AllPairs(interior, exterior), p));
      r
  }

  /** Keeps the spine labels that are not in `ignored`. */
  function NotIn(ignored: seq<int>): int -> bool
  {
    (v: int) => v !in ignored
  }

  /** `add_blocked_edges`: on page `p`, removes every placement the newly
      placed edge `e` blocks and keeps every other placement, in order. */
  function AddBlockedEdges(spine: seq<int>, avail: seq<Placement>, e: Edge, p: int): (r: seq<Placement>)
    requires NoDup(spine)
    requires e.0 in spine && e.1 in spine && e.0 != e.1
    ensures r == Filter(avail, NotBlockedBy(spine, e, p))
    ensures forall x :: x in r <==> x in avail && !Blocks(spine, e, p, x)
  {
    var (s, l) := Span(spine, e);
    if l == s + 1 then
      AdjacentBlocksNothing(spine, e, p);
      FilterAll(avail, NotBlockedBy(spine, e, p));
      avail
    else
      DistinctPositions(spine, e);
      var interior := spine[s + 1..l];
      var ignored := [spine[s], spine[l]] + interior;
      var exterior := Filter(spine, NotIn(ignored));
      BlockLoopExact(spine, avail, e, p, interior, exterior);
      BlockLoop(avail, interior, exterior, p)
  }

  /** The nested loops over the interior and exterior lists remove exactly
      the placements that `e` blocks. */
  lemma BlockLoopExact(spine: seq<int>, avail: seq<Placement>, e: Edge, p: int,
                       interior: seq<int>, exterior: seq<int>)
    requires NoDup(spine)
    requires e.0 in spine && e.1 in spine && e.0 != e.1
    requires Span(spine, e).1 != Span(spine, e).0 + 1
    requires interior == spine[Span(spine, e).0 + 1..Span(spine, e).1]
    requires exterior == Filter(spine, NotIn([spine[Span(spine, e).0], spine[Span(spine, e).1]] + interior))
    ensures BlockLoop(avail, interior, exterior, p) == Filter(avail, NotBlockedBy(spine, e, p))
  {
    DistinctPositions(spine, e);
    BlockedPairsExact(spine, e, p);
    FilterCongruent(avail, Unblocked(AllPairs(interior, exterior), p), NotBlockedBy(spine, e, p));
  }

  /** Distinct spine labels sit at distinct positions. */
  lemma DistinctPositions(spine: seq<int>, e: Edge)
    requires e.0 in spine && e.1 in spine && e.0 != e.1
    ensures Span(spine, e).0 < Span(spine, e).1 < |spine|
  {
  }

  /** When the endpoints of `e` are next to each other on the spine nothing
      is strictly between them, so nothing is blocked. */
  lemma AdjacentBlocksNothing(spine: seq<int>, e: Edge, p: int)
    requires Span(spine, e).1 == Span(spine, e).0 + 1
    ensures forall x :: !Blocks(spine, e, p, x)
  {
  }

  /** Membership of a label in the interior and exterior lists that
      `add_blocked_edges` builds, in terms of spine positions. */
  lemma InteriorExterior(spine: seq<int>, e: Edge, v: int)
    requires NoDup(spine)
    requires e.0 in spine && e.1 in spine && e.0 != e.1
    requires Span(spine, e).1 != Span(spine, e).0 + 1
    ensures var (s, l) := Span(spine, e);
      var interior := spine[s + 1..l];
      var exterior := Filter(spine, NotIn([spine[s], spine[l]] + interior));
      && (v in interior <==> Inside(spine, e, v))
      && (v in exterior <==> Outside(spine, e, v))
  {
    DistinctPositions(spine, e);
    var (s, l) := Span(spine, e);
    InteriorPos(spine, s, l, v);
    if v in spine {
      IgnoredPos(spine, s, l, v);
    }
  }

  /** A label is in the spine slice strictly between positions `s` and `l`
      iff its position lies there. */
  lemma InteriorPos(spine: seq<int>, s: nat, l: nat, v: int)
    requires NoDup(spine) && s < l < |spine|
    ensures v in spine[s + 1..l] <==> v in spine && s < Pos(spine, v) < l
  {
    if v in spine[s + 1..l] {
      var k :| s + 1 <= k < l && spine[k] == v;
      PosOfIndex(spine, k);
    }
    if v in spine && s < Pos(spine, v) < l {
      assert spine[s + 1..l][Pos(spine, v) - s - 1] == v;
    }
  }

  /** A spine label is one of the two ends or the slice between them iff
      its position lies in `s..l`. */
  lemma IgnoredPos(spine: seq<int>, s: nat, l: nat, v: int)
    requires NoDup(spine) && s < l < |spine| && v in spine
    ensures v in [spine[s], spine[l]] + spine[s + 1..l] <==> s <= Pos(spine, v) <= l
  {
    var k := Pos(spine, v);
    PosOfIndex(spine, s);
    PosOfIndex(spine, l);
    InteriorPos(spine, s, l, v);
    assert v in [spine[s], spine[l]] + spine[s + 1..l] <==>
      v == spine[s] || v == spine[l] || v in spine[s + 1..l];
  }

  /** The pairs the two loops remove, on page `p`, are exactly the
      placements the blocking rule names. */
  lemma BlockedPairsExact(spine: seq<int>, e: Edge, p: int)
    requires NoDup(spine)
    requires e.0 in spine && e.1 in spine && e.0 != e.1
    requires Span(spine, e).1 != Span(spine, e).0 + 1
    ensures var (s, l) := Span(spine, e);
      var interior := spine[s + 1..l];
      var exterior := Filter(spine, NotIn([spine[s], spine[l]] + interior));
      forall x: Placement :: (x.page == p && x.edge in AllPairs(interior, exterior)) <==> Blocks(spine, e, p, x)
  {
    DistinctPositions(spine, e);
    var (s, l) := Span(spine, e);
    var interior := spine[s + 1..l];
    var exterior := Filter(spine, NotIn([spine[s], spine[l]] + interior));
    Classified(spine, e, interior, exterior);
    forall x: Placement
      ensures (x.page == p && x.edge in AllPairs(interior, exterior)) <==> Blocks(spine, e, p, x)
    {
      if x.page == p && x.edge in AllPairs(interior, exterior) {
        PairBlocks(spine, e, p, x, interior, exterior);
      }
      if Blocks(spine, e, p, x) {
        BlockedPair(spine, e, p, x, interior, exterior);
      }
    }
  }

  /** The interior labels are those inside the span of `e` and the
      exterior ones those outside it. */
  lemma Classified(spine: seq<int>, e: Edge, interior: seq<int>, exterior: seq<int>)
    requires NoDup(spine)
    requires e.0 in spine && e.1 in spine && e.0 != e.1
    requires Span(spine, e).1 != Span(spine, e).0 + 1
    requires var (s, l) := Span(spine, e);
      interior == spine[s + 1..l] && exterior == Filter(spine, NotIn([spine[s], spine[l]] + interior))
    ensures forall v :: (v in interior <==> Inside(spine, e, v)) && (v in exterior <==> Outside(spine, e, v))
  {
    forall v
      ensures (v in interior <==> Inside(spine, e, v)) && (v in exterior <==> Outside(spine, e, v))
    {
      InteriorExterior(spine, e, v);
    }
  }

  /** A pair of an interior and an exterior label is blocked. */
  lemma PairBlocks(spine: seq<int>, e: Edge, p: int, x: Placement, interior: seq<int>, exterior: seq<int>)
    requires forall v :: (v in interior <==> Inside(spine, e, v)) && (v in exterior <==> Outside(spine, e, v))
    requires x.page == p && x.edge in AllPairs(interior, exterior)
    ensures Blocks(spine, e, p, x)
  {
    var i, o :| i in interior && o in exterior && x.edge == Orient(o, i);
    assert Inside(spine, e, i) && Outside(spine, e, o);
    assert i != o;
    if o < i {
      assert x.edge == (o, i);
    } else {
      assert x.edge == (i, o);
    }
  }

  /** A blocked placement joins an interior and an exterior label. */
  lemma BlockedPair(spine: seq<int>, e: Edge, p: int, x: Placement, interior: seq<int>, exterior: seq<int>)
    requires forall v :: (v in interior <==> Inside(spine, e, v)) && (v in exterior <==> Outside(spine, e, v))
    requires Blocks(spine, e, p, x)
    ensures x.edge in AllPairs(interior, exterior)
  {
    var (u, v) := x.edge;
    if Inside(spine, e, u) {
      assert u in interior && v in exterior;
      assert x.edge == Orient(v, u);
    } else {
      assert v in interior && u in exterior;
      assert x.edge == Orient(u, v);
    }
  }

  // ---------------------------------------------------------------------
  // Placing edges

  /** `place_edge(a, b, page_number)`. Both error returns leave the state
      as it was. On success the placement is appended to the placed list,
      one occurrence of the edge leaves the remaining list (if it is there),
      the edge leaves the available list on every page, and on page `p`
      exactly the placements it blocks are removed. */
  function PlaceEdge(st: Embedding, a: int, b: int, p: int): (r: (Status, Embedding))
    requires WellFormed(st)
    ensures r.0 == InvalidPage <==> !(1 <= p <= st.numPages)
    ensures r.0 == NotAvailable <==> 1 <= p <= st.numPages && Placement((a, b), p) !in st.available
    ensures r.0 != Placed ==> r.1 == st
    ensures r.0 == Placed ==> r.1.numPages == st.numPages && r.1.spine == st.spine
    ensures r.0 == Placed ==> r.1.added == st.added + [Placement((a, b), p)]
    ensures r.0 == Placed ==> multiset(r.1.remaining) == multiset(st.remaining) - multiset{(a, b)}
    ensures r.0 == Placed ==> forall x :: x in r.1.available <==>
      x in st.available && x.edge != (a, b) && !Blocks(st.spine, (a, b), p, x)
    ensures r.0 == Placed ==> forall q :: Placement((a, b), q) !in r.1.available
    ensures r.0 == Placed ==> WellFormed(r.1)
  {
    if !(1 <= p <= st.numPages) then (InvalidPage, st)
    else if !IsEdgeAvailable(st.available, Placement((a, b), p)) then (NotAvailable, st)
    else
      var e := (a, b);
      var added := st.added + [Placement(e, p)];
      var remaining := if e in st.remaining then RemoveFirst(st.remaining, e) else st.remaining;
      var avail := RemoveEdgeFromAvailable(st.available, e);
      var blocked := AddBlockedEdges(st.spine, avail, e, p);
      (Placed, st.(added := added, remaining := remaining, available := blocked))
  }

  /** Keeps the placements that survive placing `e` on page `p`: those of
      another edge that `e` does not block. */
  function Survives(spine: seq<int>, e: Edge, p: int): Placement -> bool
  {
    (x: Placement) => x.edge != e && !Blocks(spine, e, p, x)
  }

  /** The order the search relies on after a successful placement: the
      available list is the old one with exactly the removed placements
      filtered out, in order, and the remaining list loses the first
      occurrence of the edge (if any) with the rest in order. */
  lemma PlaceEdgeOrder(st: Embedding, a: int, b: int, p: int)
    requires WellFormed(st)
    requires PlaceEdge(st, a, b, p).0 == Placed
    ensures PlaceEdge(st, a, b, p).1.available == Filter(st.available, Survives(st.spine, (a, b), p))
    ensures var rem := PlaceEdge(st, a, b, p).1.remaining;
      if (a, b) in st.remaining then
        exists i :: 0 <= i < |st.remaining| && st.remaining[i] == (a, b) && (a, b) !in st.remaining[..i]
          && rem == st.remaining[..i] + st.remaining[i + 1..]
      else rem == st.remaining
  {
    var e := (a, b);
    var r := PlaceEdge(st, a, b, p).1;
    assert 1 <= p <= st.numPages && IsEdgeAvailable(st.available, Placement(e, p));
    var avail := RemoveEdgeFromAvailable(st.available, e);
    assert r.available == AddBlockedEdges(st.spine, avail, e, p);
    FilterFilter(st.available, OtherEdge(e), NotBlockedBy(st.spine, e, p), Survives(st.spine, e, p));
    assert r.remaining == if e in st.remaining then RemoveFirst(st.remaining, e) else st.remaining;
    if e in st.remaining {
      RemoveFirstSplit(st.remaining, e);
    }
  }

  /** `list.remove` drops the first occurrence and keeps the rest in order. */
  lemma RemoveFirstSplit(s: seq<Edge>, e: Edge)
    requires e in s
    ensures exists i ::
      0 <= i < |s| && s[i] == e && e !in s[..i] && RemoveFirst(s, e) == s[..i] + s[i + 1..]
  {
    var i := IndexOf(s, e);
    assert s[i] == e && e !in s[..i];
  }

  // ---------------------------------------------------------------------
  // Crossings

  /** Two edges interleave on the spine: one endpoint of `f` lies strictly
      inside the spine interval of `e` and the other strictly outside. */
  predicate Crosses(spine: seq<int>, e: Edge, f: Edge)
  {
    var (a, b) := Span(spine, e);
    var (c, d) := Span(spine, f);
    (a < c < b < d) || (c < a < d < b)
  }

  /** No two placements on one page interleave. */
  predicate NoCrossing(spine: seq<int>, added: seq<Placement>)
  {
    forall i, j :: 0 <= i < j < |added| && added[i].page == added[j].page ==>
      !Crosses(spine, added[i].edge, added[j].edge)
  }

  /** The blocking rule removes exactly the placements on the same page
      that would cross the placed edge. */
  lemma BlocksIffCrosses(spine: seq<int>, e: Edge, p: int, x: Placement)
    requires NoDup(spine)
    requires e.0 in spine && e.1 in spine && e.0 != e.1
    requires x.edge.0 in spine && x.edge.1 in spine && x.edge.0 < x.edge.1
    ensures Blocks(spine, e, p, x) <==> x.page == p && Crosses(spine, e, x.edge)
  {
    DistinctPositions(spine, e);
    DistinctPositions(spine, x.edge);
    var (a, b) := Span(spine, e);
    var u, v := Pos(spine, x.edge.0), Pos(spine, x.edge.1);
    assert Inside(spine, e, x.edge.0) <==> a < u < b;
    assert Outside(spine, e, x.edge.0) <==> u < a || u > b;
    assert Inside(spine, e, x.edge.1) <==> a < v < b;
    assert Outside(spine, e, x.edge.1) <==> v < a || v > b;
    InterleaveIff(a, b, u, v);
  }

  /** On positions: one endpoint strictly inside `a..b` and the other
      strictly outside is the same as the two spans interleaving. */
  lemma InterleaveIff(a: int, b: int, u: int, v: int)
    requires a < b && u != v
    ensures ((a < u < b && (v < a || v > b)) || ((u < a || u > b) && a < v < b))
        <==> (var c := if u > v then v else u;
              var d := if u > v then u else v;
              (a < c < b < d) || (c < a < d < b))
  {
  }

  /** The edges `place_free_edges` looks at: consecutive spine labels, and
      the first and last label. */
  predicate Adjacent(spine: seq<int>, e: Edge)
  {
    || (exists k :: 0 <= k < |spine| - 1 && e == Orient(spine[k], spine[k + 1]))
    || (|spine| > 0 && e == Orient(spine[0], spine[|spine| - 1]))
  }

  lemma PosOfIndex(spine: seq<int>, k: int)
    requires NoDup(spine) && 0 <= k < |spine|
    ensures Pos(spine, spine[k]) == k
  {
  }

  /** An edge between spine neighbours (cyclically) crosses nothing. */
  lemma AdjacentCrossesNothing(spine: seq<int>, e: Edge, f: Edge)
    requires NoDup(spine)
    requires Adjacent(spine, e)
    requires f.0 in spine && f.1 in spine
    ensures !Crosses(spine, e, f) && !Crosses(spine, f, e)
  {
    if k :| 0 <= k < |spine| - 1 && e == Orient(spine[k], spine[k + 1]) {
      SpanOfOrient(spine, k, k + 1);
      NarrowSpanCrossesNothing(spine, e, f);
    } else if |spine| == 1 {
      PosOfIndex(spine, 0);
      NarrowSpanCrossesNothing(spine, e, f);
    } else {
      SpanOfOrient(spine, 0, |spine| - 1);
      FullSpanCrossesNothing(spine, e, f);
    }
  }

  /** Nothing lies strictly inside a span of at most one step. */
  lemma NarrowSpanCrossesNothing(spine: seq<int>, e: Edge, f: Edge)
    requires Span(spine, e).1 <= Span(spine, e).0 + 1
    ensures !Crosses(spine, e, f) && !Crosses(spine, f, e)
  {
  }

  /** Nothing on the spine lies outside the span from its first to its last
      position. */
  lemma FullSpanCrossesNothing(spine: seq<int>, e: Edge, f: Edge)
    requires Span(spine, e) == (0, |spine| - 1)
    requires f.0 in spine && f.1 in spine
    ensures !Crosses(spine, e, f) && !Crosses(spine, f, e)
  {
    assert Span(spine, f).1 < |spine|;
  }

  /** The span of the edge between the labels at positions `i < j`. */
  lemma SpanOfOrient(spine: seq<int>, i: int, j: int)
    requires NoDup(spine) && 0 <= i < j < |spine|
    ensures Span(spine, Orient(spine[i], spine[j])) == (i, j)
  {
    var e := Orient(spine[i], spine[j]);
    PosOfIndex(spine, i);
    PosOfIndex(spine, j);
    if e == (spine[i], spine[j]) {
      assert Pos(spine, e.0) == i && Pos(spine, e.1) == j;
    } else {
      assert Pos(spine, e.0) == j && Pos(spine, e.1) == i;
    }
  }

  // ---------------------------------------------------------------------
  // Free edges

  /** The edges of a list of placements. */
  function EdgesOf(ps: seq<Placement>): (r: seq<Edge>)
    ensures |r| == |ps|
    ensures forall i :: 0 <= i < |ps| ==> r[i] == ps[i].edge
  {
    seq(|ps|, i requires 0 <= i < |ps| => ps[i].edge)
  }

  /** `r` is `st` after some free edges were placed: the same spine and
      pages, the placed list extended by spine-adjacent edges on page 1,
      each taken from the remaining list and removed from the available list
      on every page, and nothing else changed. */
  ghost predicate FreeExtension(st: Embedding, r: Embedding)
  {
    && r.numPages == st.numPages
    && r.spine == st.spine
    && |st.added| <= |r.added|
    && r.added[..|st.added|] == st.added
    && (forall j :: |st.added| <= j < |r.added| ==>
          r.added[j].page == 1 && Adjacent(st.spine, r.added[j].edge))
    && multiset(EdgesOf(r.added[|st.added|..])) + multiset(r.remaining) == multiset(st.remaining)
    && (forall x :: x in r.available <==>
          x in st.available && x.edge !in EdgesOf(r.added[|st.added|..]))
  }

  lemma FreeExtensionRefl(st: Embedding)
    ensures FreeExtension(st, st)
  {
    assert st.added[|st.added|..] == [];
  }

  /** Two nested prefix extensions of placement lists. */
  lemma PrefixSplit(a: seq<Placement>, b: seq<Placement>, c: seq<Placement>)
    requires |a| <= |b| <= |c| && b[..|a|] == a && c[..|b|] == b
    ensures c[..|a|] == a
    ensures c[|a|..] == b[|a|..] + c[|b|..]
    ensures EdgesOf(c[|a|..]) == EdgesOf(b[|a|..]) + EdgesOf(c[|b|..])
    ensures forall j :: |a| <= j < |b| ==> c[j] == b[j]
  {
    assert c[..|a|] == c[..|b|][..|a|];
    assert c == c[..|b|] + c[|b|..];
  }

  lemma FreeExtensionTrans(a: Embedding, b: Embedding, c: Embedding)
    requires FreeExtension(a, b) && FreeExtension(b, c)
    ensures FreeExtension(a, c)
  {
    PrefixSplit(a.added, b.added, c.added);
    var newAB, newBC := EdgesOf(b.added[|a.added|..]), EdgesOf(c.added[|b.added|..]);
    assert multiset(newAB + newBC) == multiset(newAB) + multiset(newBC);
    forall x
      ensures x in c.available <==> x in a.available && x.edge !in newAB + newBC
    {
    }
  }

  /** Placing free edges only shrinks the remaining list. */
  lemma FreeShrinks(a: Embedding, b: Embedding)
    requires FreeExtension(a, b)
    ensures forall e :: e in b.remaining ==> e in a.remaining
  {
    var placed := multiset(EdgesOf(b.added[|a.added|..]));
    forall e | e in b.remaining ensures e in a.remaining {
      assert multiset(b.remaining)[e] > 0;
      assert (placed + multiset(b.remaining))[e] == placed[e] + multiset(b.remaining)[e];
      assert multiset(a.remaining)[e] > 0;
    }
  }

  /** One step of `place_free_edges`: if `e` is a remaining edge, place it
      on page 1 without any check and remove it from the available list. */
  function FreeStep(st: Embedding, e: Edge): (r: Embedding)
    requires Adjacent(st.spine, e)
    ensures FreeExtension(st, r)
    ensures e !in st.remaining ==> r == st
    ensures e in st.remaining ==> r.added == st.added + [Placement(e, 1)]
    ensures NoDup(st.remaining) ==> NoDup(r.remaining) && e !in r.remaining
  {
    if e in st.remaining then
      var r := st.(added := st.added + [Placement(e, 1)],
                   remaining := RemoveFirst(st.remaining, e),
                   available := RemoveEdgeFromAvailable(st.available, e));
      FreeStepExtends(st, e, r);
      RemoveFirstNoDup(st.remaining, e);
      r
    else
      FreeExtensionRefl(st);
      st
  }

  /** Placing a remaining free edge extends the state by that one edge. */
  lemma FreeStepExtends(st: Embedding, e: Edge, r: Embedding)
    requires Adjacent(st.spine, e) && e in st.remaining
    requires r == st.(added := st.added + [Placement(e, 1)],
                      remaining := RemoveFirst(st.remaining, e),
                      available := RemoveEdgeFromAvailable(st.available, e))
    ensures FreeExtension(st, r)
  {
    var extra := r.added[|st.added|..];
    assert r.added[..|st.added|] == st.added;
    assert extra == [Placement(e, 1)];
    assert EdgesOf(extra) == [e];
    assert multiset(EdgesOf(extra)) + multiset(r.remaining) == multiset(st.remaining);
    assert forall x :: x in r.available <==> x in st.available && x.edge !in EdgesOf(extra);
  }

  /** Removing an element from a list without repetitions removes it
      entirely. */
  lemma RemoveFirstNoDup(s: seq<Edge>, x: Edge)
    requires x in s
    ensures NoDup(s) ==> NoDup(RemoveFirst(s, x)) && x !in RemoveFirst(s, x)
  {
    if NoDup(s) {
      var i := IndexOf(s, x);
      var r := RemoveFirst(s, x);
      assert r == s[..i] + s[i + 1..];
      forall a, b | 0 <= a < b < |r| ensures r[a] != r[b] {
        var a' := if a < i then a else a + 1;
        var b' := if b < i then b else b + 1;
        assert r[a] == s[a'] && r[b] == s[b'];
      }
    }
  }

  /** The consecutive-pair loop of `place_free_edges`, from position `k`. */
  function FreeLoop(st: Embedding, k: nat): (r: Embedding)
    requires k <= |st.spine|
    ensures FreeExtension(st, r)
    ensures NoDup(st.remaining) ==> NoDup(r.remaining)
    ensures NoDup(st.remaining) ==>
      forall j :: k <= j < |st.spine| - 1 ==> Orient(st.spine[j], st.spine[j + 1]) !in r.remaining
    decreases |st.spine| - k
  {
    if k + 1 >= |st.spine| then
      FreeExtensionRefl(st);
      st
    else
      var e := Orient(st.spine[k], st.spine[k + 1]);
      var once := FreeStep(st, e);
      var r := FreeLoop(once, k + 1);
      FreeExtensionTrans(st, once, r);
      FreeShrinks(once, r);
      r
  }

  /** `place_free_edges`: places on page 1 every remaining edge between
      consecutive spine labels, and the edge between the first and last
      label, removing each from the remaining list and from every page of
      the available list; it blocks nothing. When the remaining list has no
      repetitions, none of those edges is left in it afterwards. On an empty
      spine `self.spine[0]` raises IndexError, modelled as `None`. */
  function PlaceFreeEdges(st: Embedding): (r: Option<Embedding>)
    ensures r.None? <==> |st.spine| == 0
    ensures r.Some? ==> FreeExtension(st, r.value)
    ensures r.Some? && NoDup(st.remaining) ==> forall j :: 0 <= j < |st.spine| - 1 ==>
      Orient(st.spine[j], st.spine[j + 1]) !in r.value.remaining
    ensures r.Some? && NoDup(st.remaining) ==> Orient(st.spine[0], st.spine[|st.spine| - 1]) !in r.value.remaining
  {
    if |st.spine| == 0 then None
    else
      var looped := FreeLoop(st, 0);
      var r := FreeStep(looped, Orient(st.spine[0], st.spine[|st.spine| - 1]));
      FreeExtensionTrans(st, looped, r);
      FreeShrinks(looped, r);
      Some(r)
  }

  /** Repeated `list.remove` calls: drops the first occurrence of each of
      `es` in turn, skipping one that is no longer present. */
  function RemoveEach(s: seq<Edge>, es: seq<Edge>): seq<Edge>
    decreases |es|
  {
    if |es| == 0 then s
    else
      var p := RemoveEach(s, es[..|es| - 1]);
      var e := es[|es| - 1];
      if e in p then RemoveFirst(p, e) else p
  }

  lemma {:induction false} RemoveEachAppend(s: seq<Edge>, a: seq<Edge>, b: seq<Edge>)
    ensures RemoveEach(RemoveEach(s, a), b) == RemoveEach(s, a + b)
    decreases |b|
  {
    if |b| == 0 {
      assert a + b == a;
    } else {
      var b0 := b[..|b| - 1];
      assert (a + b)[..|a + b| - 1] == a + b0;
      assert (a + b)[|a + b| - 1] == b[|b| - 1];
      RemoveEachAppend(s, a, b0);
    }
  }

  function NotPlacedIn(es: seq<Edge>): Placement -> bool
  {
    (x: Placement) => x.edge !in es
  }

  /** The order of the lists after free edges `es` were placed: the
      available list is the old one, in order, without any placement of
      `es`; the remaining list loses the first copy of each, in turn. */
  predicate FreeOrder(st: Embedding, r: Embedding)
  {
    && |st.added| <= |r.added|
    && var es := EdgesOf(r.added[|st.added|..]);
      && r.available == Filter(st.available, NotPlacedIn(es))
      && r.remaining == RemoveEach(st.remaining, es)
  }

  lemma FreeOrderRefl(st: Embedding)
    ensures FreeOrder(st, st)
  {
    assert EdgesOf(st.added[|st.added|..]) == [];
    FilterAll(st.available, NotPlacedIn([]));
  }

  lemma FreeStepOrder(st: Embedding, e: Edge)
    requires Adjacent(st.spine, e)
    ensures FreeOrder(st, FreeStep(st, e))
  {
    var r := FreeStep(st, e);
    if e in st.remaining {
      var es := EdgesOf(r.added[|st.added|..]);
      assert es == [e];
      assert es[..0] == [];
      FilterCongruent(st.available, OtherEdge(e), NotPlacedIn(es));
    } else {
      FreeOrderRefl(st);
    }
  }

  lemma FreeOrderTrans(a: Embedding, b: Embedding, c: Embedding)
    requires FreeExtension(a, b) && FreeExtension(b, c)
    requires FreeOrder(a, b) && FreeOrder(b, c)
    ensures FreeOrder(a, c)
  {
    PrefixSplit(a.added, b.added, c.added);
    var e1, e2 := EdgesOf(b.added[|a.added|..]), EdgesOf(c.added[|b.added|..]);
    FilterFilter(a.available, NotPlacedIn(e1), NotPlacedIn(e2), NotPlacedIn(e1 + e2));
    RemoveEachAppend(a.remaining, e1, e2);
  }

  lemma {:induction false} FreeLoopOrder(st: Embedding, k: nat)
    requires k <= |st.spine|
    ensures FreeOrder(st, FreeLoop(st, k))
    decreases |st.spine| - k
  {
    if k + 1 >= |st.spine| {
      FreeOrderRefl(st);
    } else {
      var e := Orient(st.spine[k], st.spine[k + 1]);
      assert Adjacent(st.spine, e);
      var once := FreeStep(st, e);
      FreeStepOrder(st, e);
      FreeLoopOrder(once, k + 1);
      FreeOrderTrans(st, once, FreeLoop(once, k + 1));
    }
  }

  /** After `place_free_edges` the available list is the old one in order
      without the placed free edges, and the remaining list has lost the
      first copy of each, in the order they were placed. */
  lemma PlaceFreeEdgesOrder(st: Embedding)
    ensures PlaceFreeEdges(st).Some? ==> FreeOrder(st, PlaceFreeEdges(st).value)
  {
    if |st.spine| > 0 {
      var looped := FreeLoop(st, 0);
      var e := Orient(st.spine[0], st.spine[|st.spine| - 1]);
      assert Adjacent(looped.spine, e);
      FreeLoopOrder(st, 0);
      FreeStepOrder(looped, e);
      FreeOrderTrans(st, looped, FreeStep(looped, e));
    }
  }

  // ---------------------------------------------------------------------
  // Queries

  /** The page loop of `is_possible_to_embedd`: some page in `p..n` still
      has edge `e` available. */
  function SomePageFrom(avail: seq<Placement>, e: Edge, p: int, n: int): (b: bool)
    ensures b <==> exists q :: p <= q <= n && Placement(e, q) in avail
    decreases n - p
  {
    if p > n then false
    else if IsEdgeAvailable(avail, Placement(e, p)) then true
    else SomePageFrom(avail, e, p + 1, n)
  }

  /** Edge `e` is still available on some page `1..numPages`. */
  predicate Placeable(st: Embedding, e: Edge)
  {
    exists q :: 1 <= q <= st.numPages && Placement(e, q) in st.available
  }

  /** The edge loop of `is_possible_to_embedd`, from index `i` on. */
  function AllPlaceableFrom(st: Embedding, i: nat): (b: bool)
    requires i <= |st.remaining|
    ensures b <==> forall j :: i <= j < |st.remaining| ==> Placeable(st, st.remaining[j])
    decreases |st.remaining| - i
  {
    if i == |st.remaining| then true
    else if !SomePageFrom(st.available, st.remaining[i], 1, st.numPages) then false
    else AllPlaceableFrom(st, i + 1)
  }

  /** `is_possible_to_embedd`: false iff some remaining edge has no
      available placement on any page `1..numPages`. */
  function IsPossibleToEmbed(st: Embedding): (b: bool)
    ensures b <==> forall e :: e in st.remaining ==> Placeable(st, e)
  {
    var b := AllPlaceableFrom(st, 0);
    assert b ==> forall e :: e in st.remaining ==> Placeable(st, e) by {
      if b {
        forall e | e in st.remaining ensures Placeable(st, e) {
          var j :| 0 <= j < |st.remaining| && st.remaining[j] == e;
        }
      }
    }
    b
  }

  /** `is_graph_placed`. */
  predicate IsGraphPlaced(st: Embedding)
  {
    |st.remaining| == 0
  }
}

=== FILE: permutations.dfy ===
/** Permutation strings: the swap-based generator, the one-character label
    encoding, and the dictionary-based removal of flipped, rotated and
    dihedral copies of a permutation string. */
module Permutations {
  import opened Seqs
  import opened BookEmbedding

  // ---------------------------------------------------------------------
  // Label encoding

  /** The characters of the encoding: `'0'..'9'` and `'a'..'z'`. */
  predicate IsCode(c: char)
  {
    ('0' <= c <= '9') || ('a' <= c <= 'z')
  }

  /** The character `perm_to_string` writes for a label in `0..35`: the
      decimal digit below 10, and `chr(x + 87)` (so `'a'` for 10) above. */
  function EncodeLabel(x: int): (c: char)
    requires 0 <= x < 36
    ensures IsCode(c)
  {
    if x < 10 then ('0' as int + x) as char else (x + 87) as char
  }

  /** The label `string_to_perm` reads from one character: the digit's
      value for a decimal digit, `ord(c) - 87` otherwise. */
  function DecodeChar(c: char): (x: int)
    ensures IsCode(c) ==> 0 <= x < 36
  {
    if '0' <= c <= '9' then c as int - '0' as int else c as int - 87
  }

  predicate IsLabelSeq(p: seq<int>)
  {
    forall i :: 0 <= i < |p| ==> 0 <= p[i] < 36
  }

  predicate IsCodeString(s: string)
  {
    forall i :: 0 <= i < |s| ==> IsCode(s[i])
  }

  /** `perm_to_string`: one character per label. */
  function PermToString(p: seq<int>): (s: string)
    requires IsLabelSeq(p)
    ensures |s| == |p|
    ensures IsCodeString(s)
  {
    if |p| == 0 then "" else [EncodeLabel(p[0])] + PermToString(p[1..])
  }

  /** `string_to_perm`: one label per character. */
  function StringToPerm(s: string): (p: seq<int>)
    ensures |p| == |s|
    ensures IsCodeString(s) ==> IsLabelSeq(p)
  {
    if |s| == 0 then [] else [DecodeChar(s[0])] + StringToPerm(s[1..])
  }

  /** Decoding undoes encoding for labels `0..35`. */
  lemma {:induction false} DecodeEncode(p: seq<int>)
    requires IsLabelSeq(p)
    ensures StringToPerm(PermToString(p)) == p
  {
    if |p| != 0 {
      DecodeEncode(p[1..]);
      assert PermToString(p)[1..] == PermToString(p[1..]);
    }
  }

  /** Encoding undoes decoding for strings over `'0'..'9', 'a'..'z'`. */
  lemma {:induction false} EncodeDecode(s: string)
    requires IsCodeString(s)
    ensures PermToString(StringToPerm(s)) == s
  {
    if |s| != 0 {
      EncodeDecode(s[1..]);
      assert StringToPerm(s)[1..] == StringToPerm(s[1..]);
    }
  }

  /** The i-th element of the encoded and decoded sequences. */
  lemma {:induction false} PermToStringAt(p: seq<int>, i: int)
    requires IsLabelSeq(p) && 0 <= i < |p|
    ensures PermToString(p)[i] == EncodeLabel(p[i])
  {
    if i > 0 {
      PermToStringAt(p[1..], i - 1);
    }
  }

  lemma {:induction false} StringToPermAt(s: string, i: int)
    requires 0 <= i < |s|
    ensures StringToPerm(s)[i] == DecodeChar(s[i])
  {
    if i > 0 {
      StringToPermAt(s[1..], i - 1);
    }
  }

  /** `toString`: `''.join(parts)`. */
  function ToString(parts: seq<string>): (r: string)
    ensures (forall i :: 0 <= i < |parts| ==> |parts[i]| == 1) ==>
      |r| == |parts| && forall i :: 0 <= i < |parts| ==> r[i] == parts[i][0]
  {
    if |parts| == 0 then "" else parts[0] + ToString(parts[1..])
  }

  /** `list(s)`: the one-character strings of `s`. */
  function Chars(s: string): (parts: seq<string>)
    ensures |parts| == |s|
    ensures forall i :: 0 <= i < |s| ==> parts[i] == [s[i]]
  {
    seq(|s|, i requires 0 <= i < |s| => [s[i]])
  }

  /** Joining the characters of a string gives the string back. */
  lemma {:induction false} JoinChars(s: string)
    ensures ToString(Chars(s)) == s
  {
    if |s| != 0 {
      JoinChars(s[1..]);
      assert Chars(s)[1..] == Chars(s[1..]);
    }
  }

  // ---------------------------------------------------------------------
  // Generating permutations

  function Fact(n: nat): (r: nat)
    ensures r >= 1
  {
    if n == 0 then 1 else n * Fact(n - 1)
  }

  /** `a[i], a[j] = a[j], a[i]`. */
  function Swap<T(==)>(a: seq<T>, i: int, j: int): (r: seq<T>)
    requires 0 <= i < |a| && 0 <= j < |a|
    ensures |r| == |a|
    ensures r[i] == a[j] && r[j] == a[i]
    ensures forall k :: 0 <= k < |a| && k != i && k != j ==> r[k] == a[k]
  {
    a[i := a[j]][j := a[i]]
  }

  /** Exchanging two positions keeps the elements, with their counts. */
  lemma SwapMultiset<T>(a: seq<T>, i: int, j: int)
    requires 0 <= i < |a| && 0 <= j < |a|
    ensures multiset(Swap(a, i, j)) == multiset(a)
  {
    assert Swap(a, i, j) == a[i := a[j]][j := a[i]];
  }

  lemma SwapTwice<T>(a: seq<T>, i: int, j: int)
    requires 0 <= i < |a| && 0 <= j < |a|
    ensures Swap(Swap(a, i, j), i, j) == a
  {
  }

  /** `p` is `a` rearranged inside positions `l..r` only. */
  predicate Agrees<T(==)>(p: seq<T>, a: seq<T>, l: int, r: int)
  {
    && |p| == |a|
    && multiset(p) == multiset(a)
    && forall k :: 0 <= k < |a| && (k < l || k > r) ==> p[k] == a[k]
  }

  function Width(l: int, r: int): nat
  {
    if l <= r then r - l + 1 else 0
  }

  /** `generate_perm(a, l, r, perms)`: the lists it appends to `perms`,
      paired with the contents of `a` on return, which is `a` restored.
      The lemmas below count the lists and show that each rearranges `a`
      inside `l..r` only. */
  function GenPerm<T(==)>(a: seq<T>, l: int, r: int): (res: (seq<seq<T>>, seq<T>))
    requires 0 <= l && r < |a|
    ensures res.1 == a
    decreases Width(l, r), 1, 0
  {
    if l == r then ([a], a)
    else if l > r then ([], a)
    else GenLoop(a, l, r, l)
  }

  /** The `for i in range(l, r + 1)` loop of `generate_perm`, from `i` on:
      swap positions `l` and `i`, recurse on `l + 1`, swap back; `a` is
      restored after every iteration. */
  function GenLoop<T(==)>(a: seq<T>, l: int, r: int, i: int): (res: (seq<seq<T>>, seq<T>))
    requires 0 <= l < r < |a| && l <= i <= r + 1
    ensures res.1 == a
    decreases Width(l, r), 0, r - i + 1
  {
    if i > r then ([], a)
    else
      var b := Swap(a, l, i);
      var (ps, b2) := GenPerm(b, l + 1, r);
      var c := Swap(b2, l, i);
      SwapTwice(a, l, i);
      var (rest, a2) := GenLoop(c, l, r, i + 1);
      (ps + rest, a2)
  }

  /** Every list `generate_perm` appends rearranges `a` inside `l..r` and
      leaves the rest of `a` in place. */
  lemma {:induction false} GenPermAgrees<T>(a: seq<T>, l: int, r: int)
    requires 0 <= l && r < |a|
    ensures forall p :: p in GenPerm(a, l, r).0 ==> Agrees(p, a, l, r)
    decreases Width(l, r), 1, 0
  {
    if l < r {
      assert GenPerm(a, l, r) == GenLoop(a, l, r, l);
      GenLoopAgrees(a, l, r, l);
    }
  }

  /** Every list of the loop from `i` on rearranges `a` inside `l..r`, and
      holds at position `l` one of `a[i..r + 1]`. */
  lemma {:induction false} GenLoopAgrees<T>(a: seq<T>, l: int, r: int, i: int)
    requires 0 <= l < r < |a| && l <= i <= r + 1
    ensures forall p :: p in GenLoop(a, l, r, i).0 ==>
      Agrees(p, a, l, r) && exists j :: i <= j <= r && p[l] == a[j]
    decreases Width(l, r), 0, r - i + 1
  {
    if i <= r {
      GenLoopUnfold(a, l, r, i);
      forall p | p in GenLoop(a, l, r, i).0
        ensures Agrees(p, a, l, r) && exists j :: i <= j <= r && p[l] == a[j]
      {
        if p in GenPerm(Swap(a, l, i), l + 1, r).0 {
          FirstHead(a, l, r, i, p);
        } else {
          GenLoopAgrees(a, l, r, i + 1);
        }
      }
    }
  }

  /** A rearrangement of `Swap(a, l, i)` inside `l + 1..r` rearranges `a`
      inside `l..r` and holds `a[i]` at `l`. */
  lemma SwapAgrees<T>(p: seq<T>, a: seq<T>, l: int, r: int, i: int)
    requires 0 <= l <= i <= r < |a|
    requires Agrees(p, Swap(a, l, i), l + 1, r)
    ensures Agrees(p, a, l, r) && p[l] == a[i]
  {
  }

  /** The number of lists `generate_perm` appends for a range of `w`
      positions, defined by the shape of its recursion: none for an empty
      range, one for a single position, and `w` rounds of the count for
      `w - 1` positions otherwise. */
  function Arrangements(w: int): nat
    decreases w
  {
    if w <= 0 then 0 else if w == 1 then 1 else Repeated(w, Arrangements(w - 1))
  }

  /** `k * f` as `k` additions of `f`. */
  function Repeated(k: int, f: nat): nat
    decreases k
  {
    if k <= 0 then 0 else f + Repeated(k - 1, f)
  }

  lemma {:induction false} GenPermCount<T>(a: seq<T>, l: int, r: int)
    requires 0 <= l && r < |a|
    ensures |GenPerm(a, l, r).0| == Arrangements(Width(l, r))
    decreases Width(l, r), 1, 0
  {
    if l < r {
      var w := r - l + 1;
      assert Width(l, r) == w;
      assert Arrangements(w) == Repeated(w, Arrangements(w - 1));
      assert GenPerm(a, l, r) == GenLoop(a, l, r, l);
      assert Width(l + 1, r) == w - 1;
      GenLoopCount(a, l, r, l, Arrangements(w - 1), w);
    }
  }

  /** Each remaining iteration of the loop contributes `f` lists, the
      count for the `r - l` positions after `l`. */
  lemma {:induction false} GenLoopCount<T>(a: seq<T>, l: int, r: int, i: int, f: nat, k: int)
    requires 0 <= l < r < |a| && l <= i <= r + 1
    requires f == Arrangements(Width(l + 1, r)) && k == r - i + 1
    ensures |GenLoop(a, l, r, i).0| == Repeated(k, f)
    decreases Width(l, r), 0, r - i + 1
  {
    if i <= r {
      var x, y := GenLoopLength(a, l, r, i);
      GenPermCount(Swap(a, l, i), l + 1, r);
      GenLoopCount(a, l, r, i + 1, f, k - 1);
      RepeatedStep(|GenLoop(a, l, r, i).0|, x, y, k, f);
    } else {
      assert GenLoop(a, l, r, i).0 == [];
    }
  }

  /** Iteration `i` contributes the lists of its recursive call, and the
      later iterations the rest. */
  lemma GenLoopLength<T>(a: seq<T>, l: int, r: int, i: int) returns (x: int, y: int)
    requires 0 <= l < r < |a| && l <= i <= r
    ensures x == |GenPerm(Swap(a, l, i), l + 1, r).0| && y == |GenLoop(a, l, r, i + 1).0|
    ensures |GenLoop(a, l, r, i).0| == x + y
  {
    GenLoopUnfold(a, l, r, i);
    x, y := |GenPerm(Swap(a, l, i), l + 1, r).0|, |GenLoop(a, l, r, i + 1).0|;
  }

  /** One more round of `f` lists. */
  lemma RepeatedStep(total: int, x: int, y: int, k: int, f: nat)
    requires k >= 1 && total == x + y && x == f && y == Repeated(k - 1, f)
    ensures total == Repeated(k, f)
  {
  }

  lemma {:induction false} RepeatedIsProduct(k: nat, f: nat)
    ensures Repeated(k, f) == k * f
  {
    if k > 0 {
      RepeatedIsProduct(k - 1, f);
      MulSucc(k - 1, f);
    }
  }

  /** For a non-empty range the count is the factorial of its width:
      `generate_perm` appends `(r - l + 1)!` lists. */
  lemma {:induction false} ArrangementsIsFact(w: nat)
    requires w >= 1
    ensures Arrangements(w) == Fact(w)
  {
    if w > 1 {
      ArrangementsIsFact(w - 1);
      RepeatedIsProduct(w, Fact(w - 1));
    }
  }

  lemma SwapNoDup<T>(a: seq<T>, i: int, j: int)
    requires 0 <= i < |a| && 0 <= j < |a|
    requires NoDup(a)
    ensures NoDup(Swap(a, i, j))
  {
    var b := Swap(a, i, j);
    forall u, v | 0 <= u < v < |b|
      ensures b[u] != b[v]
    {
      var u' := if u == i then j else if u == j then i else u;
      var v' := if v == i then j else if v == j then i else v;
      assert b[u] == a[u'] && b[v] == a[v'];
    }
  }

  lemma NoDupConcat<T>(x: seq<T>, y: seq<T>)
    requires NoDup(x) && NoDup(y)
    requires forall u, v :: u in x && v in y ==> u != v
    ensures NoDup(x + y)
  {
    forall i, j | 0 <= i < j < |x + y|
      ensures (x + y)[i] != (x + y)[j]
    {
      if j >= |x| && i < |x| {
        assert (x + y)[i] in x && (x + y)[j] in y;
      } else if i >= |x| {
        assert (x + y)[i] == y[i - |x|] && (x + y)[j] == y[j - |x|];
      }
    }
  }

  /** When the elements of `a` are distinct, so are the lists
      `generate_perm` appends. */
  lemma {:induction false} GenPermDistinct<T>(a: seq<T>, l: int, r: int)
    requires 0 <= l && r < |a|
    requires NoDup(a)
    ensures NoDup(GenPerm(a, l, r).0)
    decreases Width(l, r), 1, 0
  {
    if l < r {
      GenLoopDistinct(a, l, r, l);
    }
  }

  lemma {:induction false} GenLoopDistinct<T>(a: seq<T>, l: int, r: int, i: int)
    requires 0 <= l < r < |a| && l <= i <= r + 1
    requires NoDup(a)
    ensures NoDup(GenLoop(a, l, r, i).0)
    decreases Width(l, r), 0, r - i + 1
  {
    if i <= r {
      var b := Swap(a, l, i);
      var ps, rest := GenPerm(b, l + 1, r).0, GenLoop(a, l, r, i + 1).0;
      assert NoDup(ps) by {
        SwapNoDup(a, l, i);
        GenPermDistinct(b, l + 1, r);
      }
      assert NoDup(rest) by {
        GenLoopDistinct(a, l, r, i + 1);
      }
      assert forall u, v :: u in ps && v in rest ==> u != v by {
        HeadsApart(a, l, r, i, ps, rest);
      }
      assert GenLoop(a, l, r, i).0 == ps + rest by {
        GenLoopUnfold(a, l, r, i);
      }
      NoDupConcat(ps, rest);
    }
  }

  /** One iteration of the loop: the lists of the recursive call on the
      swapped `a`, then those of the later iterations. */
  lemma GenLoopUnfold<T>(a: seq<T>, l: int, r: int, i: int)
    requires 0 <= l < r < |a| && l <= i <= r
    ensures GenLoop(a, l, r, i).0 == GenPerm(Swap(a, l, i), l + 1, r).0 + GenLoop(a, l, r, i + 1).0
  {
    SwapTwice(a, l, i);
  }

  /** The lists of iteration `i` start with `a[i]`, the later ones with
      some `a[j]`, `j > i`; so no list occurs in both. */
  lemma HeadsApart<T>(a: seq<T>, l: int, r: int, i: int, ps: seq<seq<T>>, rest: seq<seq<T>>)
    requires 0 <= l < r < |a| && l <= i <= r
    requires NoDup(a)
    requires ps == GenPerm(Swap(a, l, i), l + 1, r).0 && rest == GenLoop(a, l, r, i + 1).0
    ensures forall u, v :: u in ps && v in rest ==> u != v
  {
    forall u, v | u in ps && v in rest
      ensures u != v
    {
      FirstHead(a, l, r, i, u);
      var j := LaterHead(a, l, r, i, v);
      HeadsDiffer(a, l, i, j, u, v);
    }
  }

  lemma HeadsDiffer<T>(a: seq<T>, l: int, i: int, j: int, u: seq<T>, v: seq<T>)
    requires NoDup(a) && 0 <= l < |a| && 0 <= i < j < |a|
    requires |u| == |a| && u[l] == a[i]
    requires |v| == |a| && v[l] == a[j]
    ensures u != v
  {
  }

  /** The lists of iteration `i` hold `a[i]` at `l`. */
  lemma FirstHead<T>(a: seq<T>, l: int, r: int, i: int, u: seq<T>)
    requires 0 <= l < r < |a| && l <= i <= r
    requires u in GenPerm(Swap(a, l, i), l + 1, r).0
    ensures Agrees(u, a, l, r) && |u| == |a| && u[l] == a[i]
    decreases Width(l, r), 0, 0
  {
    var b := Swap(a, l, i);
    GenPermAgreesAt(b, l + 1, r, u);
    SwapAgrees(u, a, l, r, i);
  }

  lemma GenPermAgreesAt<T>(b: seq<T>, l: int, r: int, u: seq<T>)
    requires 0 <= l && r < |b| && u in GenPerm(b, l, r).0
    ensures Agrees(u, b, l, r)
    decreases Width(l, r), 2
  {
    GenPermAgrees(b, l, r);
  }

  /** The index `j > i` whose element a list of the later iterations holds
      at `l`. */
  lemma LaterHead<T>(a: seq<T>, l: int, r: int, i: int, v: seq<T>) returns (j: int)
    requires 0 <= l < r < |a| && l <= i <= r
    requires v in GenLoop(a, l, r, i + 1).0
    ensures i + 1 <= j <= r && |v| == |a| && v[l] == a[j]
  {
    GenLoopAgrees(a, l, r, i + 1);
    j :| i + 1 <= j <= r && v[l] == a[j];
  }

  /** The label character `generate_permutations` writes for `i >= 1`:
      the digit below 10, `chr(i + 87)` from 10 on. */
  function LabelChar(i: int): (c: char)
    requires 1 <= i < 0xD800 - 87
    ensures i < 36 ==> c == EncodeLabel(i)
  {
    if i < 10 then ('0' as int + i) as char else (i + 87) as char
  }

  /** The label string `generate_permutations` builds for `1..n`. */
  function Labels(n: int): (s: string)
    requires n < 0xD800 - 87
    ensures |s| == if n > 0 then n else 0
    ensures forall i :: 0 <= i < |s| ==> s[i] == LabelChar(i + 1)
  {
    if n <= 0 then "" else seq(n, i requires 0 <= i < n => LabelChar(i + 1))
  }

  lemma LabelsNoDup(n: int)
    requires n < 0xD800 - 87
    ensures NoDup(Labels(n))
  {
  }

  /** `get_spines(n)`, i.e. `generate_permutations(n, [])`: `n!` distinct
      orderings of the label characters of `1..n` (none at all for
      `n <= 0`, where `generate_perm` is called with `l > r`). */
  function GetSpines(n: int): (r: seq<string>)
    requires n < 0xD800 - 87
    ensures |r| == if n >= 1 then Fact(n) else 0
    ensures forall s :: s in r ==> |s| == |Labels(n)| && multiset(s) == multiset(Labels(n))
    ensures NoDup(r)
  {
    var a := Labels(n);
    LabelsNoDup(n);
    GenPermDistinct(a, 0, |a| - 1);
    GenPermAgrees(a, 0, |a| - 1);
    assert |GenPerm(a, 0, |a| - 1).0| == if n >= 1 then Fact(n) else 0 by {
      GenPermCount(a, 0, |a| - 1);
      if n >= 1 {
        ArrangementsIsFact(n);
      }
    }
    GenPerm(a, 0, |a| - 1).0
  }

  /** Every string `get_spines(n)` returns decodes, for `1 <= n <= 35`, to
      a spine over `1..n`: the labels the embedding search expects. */
  lemma GetSpinesAreSpines(n: int, s: string)
    requires 1 <= n <= 35
    requires s in GetSpines(n)
    ensures ValidSpine(StringToPerm(s))
    ensures |StringToPerm(s)| == n
  {
    var labels := Labels(n);
    assert multiset(s) == multiset(labels) && |s| == n;
    assert NoDup(s) by {
      LabelsNoDup(n);
      PermutedNoDup(labels, s);
    }
    assert IsCodeString(s) by {
      LabelCodes(n, s);
    }
    DecodedDistinct(s);
    DecodedCovers(n, s);
  }

  /** A rearrangement of the labels of `1..n` uses label characters only. */
  lemma LabelCodes(n: int, s: string)
    requires 1 <= n <= 35
    requires multiset(s) == multiset(Labels(n))
    ensures IsCodeString(s)
  {
    forall k | 0 <= k < |s|
      ensures IsCode(s[k])
    {
      assert s[k] in multiset(Labels(n));
    }
  }

  /** Distinct label characters decode to distinct labels. */
  lemma DecodedDistinct(s: string)
    requires NoDup(s) && IsCodeString(s)
    ensures NoDup(StringToPerm(s))
  {
    var p := StringToPerm(s);
    forall i, j | 0 <= i < j < |p|
      ensures p[i] != p[j]
    {
      StringToPermAt(s, i);
      StringToPermAt(s, j);
      EncodeDecodeChar(s[i]);
      EncodeDecodeChar(s[j]);
    }
  }

  /** A rearrangement of the labels of `1..n` decodes to a list that holds
      every label `1..n`. */
  lemma DecodedCovers(n: int, s: string)
    requires 1 <= n <= 35
    requires multiset(s) == multiset(Labels(n)) && |s| == n
    ensures forall v :: 1 <= v <= n ==> v in StringToPerm(s)
  {
    var labels := Labels(n);
    forall v | 1 <= v <= n
      ensures v in StringToPerm(s)
    {
      assert labels[v - 1] == EncodeLabel(v);
      assert labels[v - 1] in multiset(s);
      var k :| 0 <= k < |s| && s[k] == EncodeLabel(v);
      assert StringToPerm(s)[k] == v by {
        StringToPermAt(s, k);
        DecodeEncodeLabel(v);
      }
    }
  }

  lemma DecodeEncodeLabel(x: int)
    requires 0 <= x < 36
    ensures DecodeChar(EncodeLabel(x)) == x
  {
  }

  lemma EncodeDecodeChar(c: char)
    requires IsCode(c)
    ensures EncodeLabel(DecodeChar(c)) == c
  {
  }

  /** A rearrangement of a list without repetitions has none either. */
  lemma PermutedNoDup<T>(x: seq<T>, y: seq<T>)
    requires NoDup(x) && multiset(x) == multiset(y)
    ensures NoDup(y)
  {
    forall i, j | 0 <= i < j < |y|
      ensures y[i] != y[j]
    {
      if y[i] == y[j] {
        assert y == y[..i] + [y[i]] + y[i + 1..j] + [y[j]] + y[j + 1..];
        assert multiset(y)[y[i]] >= 2;
        NoDupCount(x, y[i]);
      }
    }
  }

  lemma {:induction false} NoDupCount<T>(x: seq<T>, v: T)
    requires NoDup(x)
    ensures multiset(x)[v] <= 1
  {
    if |x| != 0 {
      assert x == [x[0]] + x[1..];
      NoDupCount(x[1..], v);
      if x[0] == v {
        assert v !in x[1..];
      }
    }
  }

  // ---------------------------------------------------------------------
  // Dictionaries of permutation strings
  //
  // The functions below use a `dict` whose values equal its keys; it is
  // modelled by its keys in insertion order, without repetitions.
  // `del d[k]` inside `try ... except` removes `k` when present and changes
  // nothing otherwise, which is what filtering `k` out does.

  function NotKey(k: string): string -> bool
  {
    (x: string) => x != k
  }

  function NotAmong(keys: seq<string>): string -> bool
  {
    (x: string) => x !in keys
  }

  function Kept(r: seq<string>): string -> bool
  {
    (x: string) => x in r
  }

  /** `store_perms_in_dict`: one key per distinct string, in the order of
      first insertion. */
  function StorePermsInDict(perms: seq<string>): (d: seq<string>)
    ensures d == KeepFirst(perms)
    ensures forall x :: x in d <==> x in perms
    ensures NoDup(d)
  {
    Dedup(perms)
  }

  /** `r` keeps some of the keys of `d`, in their order in `d`. */
  predicate SubList(r: seq<string>, d: seq<string>)
  {
    r == Filter(d, Kept(r))
  }

  lemma FilterSubList(d: seq<string>, keep: string -> bool)
    ensures SubList(Filter(d, keep), d)
  {
    var r := Filter(d, keep);
    FilterCongruent(d, keep, Kept(r));
  }

  lemma SubListTrans(r2: seq<string>, r1: seq<string>, d: seq<string>)
    requires SubList(r2, r1) && SubList(r1, d)
    ensures SubList(r2, d)
  {
    FilterFilter(d, Kept(r1), Kept(r2), Kept(r2));
  }

  /** Deleting a key present in a dictionary shortens it by one. */
  lemma {:induction false} FilterNotKeyLength(d: seq<string>, k: string)
    ensures NoDup(d) ==> |Filter(d, NotKey(k))| == if k in d then |d| - 1 else |d|
  {
    if |d| != 0 && NoDup(d) {
      FilterNotKeyLength(d[1..], k);
      if d[0] == k {
        assert k !in d[1..];
        FilterAll(d[1..], NotKey(k));
      }
    }
  }

  /** `line[::-1]`. */
  function Reverse(s: string): (r: string)
    ensures |r| == |s|
  {
    seq(|s|, i requires 0 <= i < |s| => s[|s| - 1 - i])
  }

  /** `rotation[-1] + rotation[0:-1]`: one step to the right. */
  function RotR(s: string): (r: string)
    requires |s| >= 1
  {
    [s[|s| - 1]] + s[..|s| - 1]
  }

  /** `s` rotated `j` steps to the right. */
  function Rot(s: string, j: int): (r: string)
    requires 0 <= j <= |s|
    ensures |r| == |s|
  {
    s[|s| - j..] + s[..|s| - j]
  }

  /** Character `k` of `s` rotated `j` steps right comes from `k - j`,
      taken modulo `|s|`. */
  lemma RotAt(s: string, j: int, k: int)
    requires 0 <= j <= |s| && 0 <= k < |s|
    ensures Rot(s, j)[k] == if k >= j then s[k - j] else s[k - j + |s|]
  {
  }

  lemma ReverseAt(s: string, k: int)
    requires 0 <= k < |s|
    ensures Reverse(s)[k] == s[|s| - 1 - k]
  {
  }

  /** One more right step from `j` steps is `j + 1` steps. */
  lemma RotStep(s: string, j: int)
    requires 0 <= j < |s|
    ensures RotR(Rot(s, j)) == Rot(s, j + 1)
  {
  }

  /** The rotations `j` for `a <= j < b`. */
  function Rots(s: string, a: int, b: int): (r: seq<string>)
    requires 0 <= a <= b <= |s| + 1
    ensures |r| == b - a
  {
    if b == a then [] else Rots(s, a, b - 1) + [Rot(s, b - 1)]
  }

  lemma {:induction false} RotsHas(s: string, a: int, b: int, y: string)
    requires 0 <= a <= b <= |s| + 1
    ensures y in Rots(s, a, b) <==> exists j :: a <= j < b && y == Rot(s, j)
    decreases b - a
  {
    if b > a {
      RotsHas(s, a, b - 1, y);
    }
  }

  /** The number of iterations of `for i in range(len(line) - 1)`. */
  function Steps(s: string): nat
  {
    if |s| >= 1 then |s| - 1 else 0
  }

  /** `find_and_remove_flip(line, lines)`: the reversed line is deleted if
      present; every other key stays, in order. */
  function FindAndRemoveFlip(line: string, d: seq<string>): (r: seq<string>)
    ensures forall x :: x in r <==> x in d && x != Reverse(line)
    ensures SubList(r, d)
    ensures NoDup(d) ==> |r| == if Reverse(line) in d then |d| - 1 else |d|
  {
    var r := Filter(d, NotKey(Reverse(line)));
    FilterSubList(d, NotKey(Reverse(line)));
    FilterNotKeyLength(d, Reverse(line));
    r
  }

  lemma SubListRefl(d: seq<string>)
    ensures SubList(d, d)
  {
    FilterAll(d, Kept(d));
  }

  /** The loop of `find_and_remove_rotations` from iteration `i` on, with
      `rot` the rotation computed so far. */
  function RotationsFrom(line: string, rot: string, i: nat, d: seq<string>): (r: seq<string>)
    requires i <= Steps(line) && rot == Rot(line, i)
    ensures SubList(r, d)
    decreases Steps(line) - i
  {
    if i == Steps(line) then
      SubListRefl(d);
      d
    else
      RotStep(line, i);
      var next := RotR(rot);
      if next in d then
        var d1 := Filter(d, NotKey(next));
        FilterSubList(d, NotKey(next));
        var r := RotationsFrom(line, next, i + 1, d1);
        SubListTrans(r, d1, d);
        r
      else
        SubListRefl(d);
        d
  }

  /** The rotations `1..t` are the ones the loop deletes: each was present
      and not deleted before, and the loop stops after `t` because the
      next rotation is missing (or `t` is the last iteration). */
  ghost predicate RotationRun(line: string, d: seq<string>, t: int)
  {
    && 0 <= t <= Steps(line)
    && (forall j :: 1 <= j <= t ==> RotationFound(line, d, j))
    && (t < Steps(line) ==> !RotationFound(line, d, t + 1))
  }

  /** Iteration `j` finds rotation `j`: it was in the dictionary and is not
      one of the rotations deleted before it. */
  ghost predicate RotationFound(line: string, d: seq<string>, j: int)
    requires 1 <= j <= |line|
  {
    Rot(line, j) in d && Rot(line, j) !in Rots(line, 1, j)
  }

  /** `find_and_remove_rotations(line, lines)`: deletes the successive
      right rotations of `line`, stopping at the first one that is absent;
      every other key stays, in order. */
  function FindAndRemoveRotations(line: string, d: seq<string>): (r: seq<string>)
    ensures SubList(r, d)
    ensures exists t :: RotationRun(line, d, t) && r == Filter(d, NotAmong(Rots(line, 1, t + 1)))
  {
    assert Rot(line, 0) == line;
    FilterAll(d, NotAmong(Rots(line, 1, 1)));
    RotationsSpec(line, 0, d, d);
    RotationsFrom(line, line, 0, d)
  }

  lemma {:induction false} RotationsSpec(line: string, i: nat, d0: seq<string>, d: seq<string>)
    requires i <= Steps(line)
    requires d == Filter(d0, NotAmong(Rots(line, 1, i + 1)))
    requires forall j :: 1 <= j <= i ==> RotationFound(line, d0, j)
    ensures exists t :: (RotationRun(line, d0, t)
      && RotationsFrom(line, Rot(line, i), i, d) == Filter(d0, NotAmong(Rots(line, 1, t + 1))))
    decreases Steps(line) - i, 1
  {
    if i < Steps(line) && Rot(line, i + 1) in d {
      RotationsFound(line, i, d0, d);
    } else {
      RotationsStop(line, i, d0, d);
      assert RotationRun(line, d0, i)
        && RotationsFrom(line, Rot(line, i), i, d) == Filter(d0, NotAmong(Rots(line, 1, i + 1)));
    }
  }

  /** Iteration `i` finds the next rotation, deletes it and goes on. */
  lemma {:induction false} RotationsFound(line: string, i: nat, d0: seq<string>, d: seq<string>)
    requires i < Steps(line)
    requires d == Filter(d0, NotAmong(Rots(line, 1, i + 1)))
    requires forall j :: 1 <= j <= i ==> RotationFound(line, d0, j)
    requires Rot(line, i + 1) in d
    ensures exists t :: (RotationRun(line, d0, t)
      && RotationsFrom(line, Rot(line, i), i, d) == Filter(d0, NotAmong(Rots(line, 1, t + 1))))
    decreases Steps(line) - i, 0
  {
    RotStep(line, i);
    var next := Rot(line, i + 1);
    RotationsStep(line, i, d0, d);
    var d1 := Filter(d, NotKey(next));
    assert RotationsFrom(line, Rot(line, i), i, d) == RotationsFrom(line, next, i + 1, d1);
    assert d1 == Filter(d0, NotAmong(Rots(line, 1, i + 2)));
    forall j | 1 <= j <= i + 1
      ensures RotationFound(line, d0, j)
    {
    }
    RotationsSpec(line, i + 1, d0, d1);
  }

  /** The loop ends at iteration `i`: either it was the last one, or the
      next rotation is missing. */
  lemma RotationsStop(line: string, i: nat, d0: seq<string>, d: seq<string>)
    requires i <= Steps(line)
    requires d == Filter(d0, NotAmong(Rots(line, 1, i + 1)))
    requires forall j :: 1 <= j <= i ==> RotationFound(line, d0, j)
    requires i < Steps(line) ==> Rot(line, i + 1) !in d
    ensures RotationRun(line, d0, i)
    ensures RotationsFrom(line, Rot(line, i), i, d) == d
  {
    if i < Steps(line) {
      RotStep(line, i);
      RotationsStep(line, i, d0, d);
      assert !RotationFound(line, d0, i + 1);
    }
  }

  lemma RotationsStep(line: string, i: nat, d0: seq<string>, d: seq<string>)
    requires i < Steps(line)
    requires d == Filter(d0, NotAmong(Rots(line, 1, i + 1)))
    ensures Rot(line, i + 1) in d <==> Rot(line, i + 1) in d0 && Rot(line, i + 1) !in Rots(line, 1, i + 1)
    ensures Filter(d, NotKey(Rot(line, i + 1))) == Filter(d0, NotAmong(Rots(line, 1, i + 2)))
  {
    var next := Rot(line, i + 1);
    assert Rots(line, 1, i + 2) == Rots(line, 1, i + 1) + [next];
    OutsideStep(d0, Rots(line, 1, i + 1), next);
  }

  /** The loop shape of `find_and_remove_dihedrals`, over key lists `a`
      and `b` of equal length: iteration `i` deletes `a[i]` if present,
      then deletes `b[i]` if present and otherwise stops. */
  function PairLoop(a: seq<string>, b: seq<string>, i: nat, d: seq<string>): seq<string>
    requires |a| == |b| && i <= |a|
    decreases |a| - i
  {
    if i == |a| then d
    else
      var d1 := Filter(d, NotKey(a[i]));
      if b[i] in d1 then PairLoop(a, b, i + 1, Filter(d1, NotKey(b[i]))) else d1
  }

  /** The keys deleted by `first` and by `t` completed iterations. */
  function PairKeys(first: string, a: seq<string>, b: seq<string>, t: int): (r: seq<string>)
    requires |a| == |b| && 0 <= t <= |a|
    ensures |r| == 2 * t + 1
  {
    if t == 0 then [first] else PairKeys(first, a, b, t - 1) + [a[t - 1], b[t - 1]]
  }

  lemma {:induction false} PairKeysHas(first: string, a: seq<string>, b: seq<string>, t: int, y: string)
    requires |a| == |b| && 0 <= t <= |a|
    ensures y in PairKeys(first, a, b, t) <==> y == first || exists i :: 0 <= i < t && (y == a[i] || y == b[i])
  {
    if t > 0 {
      PairKeysHas(first, a, b, t - 1, y);
    }
  }

  /** The keys deleted when the loop completes `t` iterations: those of the
      completed iterations, plus `a[t]` of the iteration that stopped. */
  function PairDeleted(first: string, a: seq<string>, b: seq<string>, t: int): seq<string>
    requires |a| == |b| && 0 <= t <= |a|
  {
    PairKeys(first, a, b, t) + if t < |a| then [a[t]] else []
  }

  /** Iteration `j` finds `b[j]`: it was in the dictionary and is none of
      the keys deleted before it. */
  ghost predicate PairFound(first: string, a: seq<string>, b: seq<string>, d: seq<string>, j: int)
    requires |a| == |b| && 0 <= j < |a|
  {
    b[j] in d && b[j] !in PairKeys(first, a, b, j) && b[j] != a[j]
  }

  /** The loop completes exactly `t` iterations on dictionary `d`. */
  ghost predicate PairRun(first: string, a: seq<string>, b: seq<string>, d: seq<string>, t: int)
    requires |a| == |b|
  {
    && 0 <= t <= |a|
    && (forall j :: 0 <= j < t ==> PairFound(first, a, b, d, j))
    && (t < |a| ==> !PairFound(first, a, b, d, t))
  }

  /** The iteration at which the loop, started at `i` on the keys of `d`,
      stops: the first that misses its second key, or `|a|`. */
  ghost function PairStop(first: string, a: seq<string>, b: seq<string>, d: seq<string>, i: nat): (t: nat)
    requires |a| == |b| && i <= |a|
    ensures i <= t <= |a|
    decreases |a| - i
  {
    if i == |a| || !PairFound(first, a, b, d, i) then i else PairStop(first, a, b, d, i + 1)
  }

  /** When every iteration from `i` on finds its second key, the loop runs
      to the end. */
  lemma {:induction false} PairStopFull(first: string, a: seq<string>, b: seq<string>, d: seq<string>, i: nat)
    requires |a| == |b| && i <= |a|
    requires forall j :: i <= j < |a| ==> PairFound(first, a, b, d, j)
    ensures PairStop(first, a, b, d, i) == |a|
    decreases |a| - i
  {
    if i < |a| {
      PairStopNext(first, a, b, d, i);
      PairStopFull(first, a, b, d, i + 1);
    }
  }

  /** An iteration that finds its second key does not stop the loop. */
  lemma PairStopNext(first: string, a: seq<string>, b: seq<string>, d: seq<string>, i: nat)
    requires |a| == |b| && i < |a|
    requires PairFound(first, a, b, d, i)
    ensures PairStop(first, a, b, d, i) == PairStop(first, a, b, d, i + 1)
  {
  }

  /** Started at 0, the loop completes exactly `PairStop` iterations. */
  lemma {:induction false} PairStopRun(first: string, a: seq<string>, b: seq<string>, d: seq<string>, i: nat)
    requires |a| == |b| && i <= |a|
    requires forall j :: 0 <= j < i ==> PairFound(first, a, b, d, j)
    ensures PairRun(first, a, b, d, PairStop(first, a, b, d, i))
    decreases |a| - i
  {
    if i < |a| && PairFound(first, a, b, d, i) {
      assert PairStop(first, a, b, d, i) == PairStop(first, a, b, d, i + 1);
      PairStopRun(first, a, b, d, i + 1);
    } else {
      assert PairStop(first, a, b, d, i) == i;
    }
  }

  /** Started on `d` with the keys of `first` and `i` iterations deleted,
      the loop deletes exactly the keys of the iterations it completes. */
  lemma {:induction false} PairLoopSpec(first: string, a: seq<string>, b: seq<string>,
                                        i: nat, d0: seq<string>, d: seq<string>)
    requires |a| == |b| && i <= |a|
    requires d == Filter(d0, NotAmong(PairKeys(first, a, b, i)))
    ensures PairLoop(a, b, i, d) == Filter(d0, NotAmong(PairDeleted(first, a, b, PairStop(first, a, b, d0, i))))
    decreases |a| - i, 1
  {
    if i == |a| {
      assert PairDeleted(first, a, b, i) == PairKeys(first, a, b, i);
    } else if b[i] in Filter(d, NotKey(a[i])) {
      PairLoopOn(first, a, b, i, d0, d);
    } else {
      PairLoopStops(first, a, b, i, d0, d);
    }
  }

  /** `PairLoopSpec` for an iteration that finds its second key: the loop
      goes on from `i + 1` with one more iteration's keys deleted. */
  lemma {:induction false} PairLoopOn(first: string, a: seq<string>, b: seq<string>,
                                      i: nat, d0: seq<string>, d: seq<string>)
    requires |a| == |b| && i < |a|
    requires d == Filter(d0, NotAmong(PairKeys(first, a, b, i)))
    requires b[i] in Filter(d, NotKey(a[i]))
    ensures PairLoop(a, b, i, d) == Filter(d0, NotAmong(PairDeleted(first, a, b, PairStop(first, a, b, d0, i))))
    decreases |a| - i, 0
  {
    var d2 := Filter(Filter(d, NotKey(a[i])), NotKey(b[i]));
    PairLoopFound(first, a, b, i, d0, d);
    PairLoopSpec(first, a, b, i + 1, d0, d2);
  }

  /** An iteration that finds its second key leaves the dictionary filtered
      by one more iteration's keys. */
  lemma PairLoopFound(first: string, a: seq<string>, b: seq<string>,
                      i: nat, d0: seq<string>, d: seq<string>)
    requires |a| == |b| && i < |a|
    requires d == Filter(d0, NotAmong(PairKeys(first, a, b, i)))
    requires b[i] in Filter(d, NotKey(a[i]))
    ensures Filter(Filter(d, NotKey(a[i])), NotKey(b[i])) == Filter(d0, NotAmong(PairKeys(first, a, b, i + 1)))
    ensures PairFound(first, a, b, d0, i)
  {
    var keys := PairKeys(first, a, b, i);
    var d1 := Filter(d, NotKey(a[i]));
    assert d1 == Filter(d0, NotAmong(keys + [a[i]])) && b[i] in d0 && b[i] !in keys + [a[i]] by {
      OutsideStep(d0, keys, a[i]);
    }
    assert Filter(d1, NotKey(b[i])) == Filter(d0, NotAmong(keys + [a[i]] + [b[i]])) by {
      OutsideStep(d0, keys + [a[i]], b[i]);
    }
    PairKeysStep(first, a, b, i);
  }

  lemma PairKeysStep(first: string, a: seq<string>, b: seq<string>, i: nat)
    requires |a| == |b| && i < |a|
    ensures PairKeys(first, a, b, i + 1) == PairKeys(first, a, b, i) + [a[i]] + [b[i]]
  {
    var keys := PairKeys(first, a, b, i);
    assert keys + [a[i], b[i]] == keys + [a[i]] + [b[i]];
  }

  /** An iteration that misses its second key ends the loop with its first
      key deleted. */
  lemma PairLoopStops(first: string, a: seq<string>, b: seq<string>,
                      i: nat, d0: seq<string>, d: seq<string>)
    requires |a| == |b| && i < |a|
    requires d == Filter(d0, NotAmong(PairKeys(first, a, b, i)))
    requires b[i] !in Filter(d, NotKey(a[i]))
    ensures !PairFound(first, a, b, d0, i)
    ensures PairLoop(a, b, i, d) == Filter(d0, NotAmong(PairDeleted(first, a, b, i)))
  {
    var keys := PairKeys(first, a, b, i);
    OutsideStep(d0, keys, a[i]);
    assert PairDeleted(first, a, b, i) == keys + [a[i]];
  }

  /** The rotations `1..|line| - 1` of `line`, and their reversals: the
      keys the loop of `find_and_remove_dihedrals` tries. */
  function RotList(line: string): (r: seq<string>)
    ensures |r| == Steps(line)
    ensures forall k :: 0 <= k < |r| ==> r[k] == Rot(line, k + 1)
  {
    seq(Steps(line), k requires 0 <= k < Steps(line) => Rot(line, k + 1))
  }

  function FlipList(line: string): (r: seq<string>)
    ensures |r| == Steps(line)
    ensures forall k :: 0 <= k < |r| ==> r[k] == Reverse(Rot(line, k + 1))
  {
    seq(Steps(line), k requires 0 <= k < Steps(line) => Reverse(Rot(line, k + 1)))
  }

  /** The loop of `find_and_remove_dihedrals` from iteration `i` on, with
      `rot` the rotation computed so far. */
  function DihedralsFrom(line: string, rot: string, i: nat, d: seq<string>): seq<string>
    requires i <= Steps(line) && rot == Rot(line, i)
    decreases Steps(line) - i
  {
    if i == Steps(line) then d
    else
      RotStep(line, i);
      var next := RotR(rot);
      var d1 := Filter(d, NotKey(next));
      var flip := Reverse(next);
      if flip in d1 then DihedralsFrom(line, next, i + 1, Filter(d1, NotKey(flip)))
      else d1
  }

  /** The loop, with the rotation recomputed at each step, is the loop over
      the precomputed rotations and reversals. */
  lemma {:induction false} DihedralsFromPairLoop(line: string, i: nat, d: seq<string>)
    requires i <= Steps(line)
    ensures DihedralsFrom(line, Rot(line, i), i, d) == PairLoop(RotList(line), FlipList(line), i, d)
    decreases Steps(line) - i
  {
    if i < Steps(line) {
      RotStep(line, i);
      var next := Rot(line, i + 1);
      var d1 := Filter(d, NotKey(next));
      DihedralsFromPairLoop(line, i + 1, Filter(d1, NotKey(Reverse(next))));
    }
  }

  /** `find_and_remove_dihedrals(line, lines)`: deletes the reversed line,
      then for each rotation `j = 1..|line| - 1` deletes it if present (a
      missing one is skipped) and deletes its reversal, stopping at the
      first missing reversal. Exactly the keys of the completed iterations
      are deleted; every other key stays, in order. */
  function FindAndRemoveDihedrals(line: string, d: seq<string>): (r: seq<string>)
    ensures SubList(r, d)
    ensures PairRun(Reverse(line), RotList(line), FlipList(line), d, PairStop(Reverse(line), RotList(line), FlipList(line), d, 0))
    ensures r == Filter(d, NotAmong(PairDeleted(Reverse(line), RotList(line), FlipList(line),
                                               PairStop(Reverse(line), RotList(line), FlipList(line), d, 0))))
  {
    var first := Reverse(line);
    var d1 := FindAndRemoveFlip(line, d);
    FilterCongruent(d, NotKey(first), NotAmong([first]));
    PairLoopSpec(first, RotList(line), FlipList(line), 0, d, d1);
    PairStopRun(first, RotList(line), FlipList(line), d, 0);
    assert Rot(line, 0) == line;
    DihedralsFromPairLoop(line, 0, d1);
    FilterSubList(d, NotAmong(PairDeleted(first, RotList(line), FlipList(line), PairStop(first, RotList(line), FlipList(line), d, 0))));
    DihedralsFrom(line, line, 0, d1)
  }

  /** Deleting one more key from a dictionary filtered by a key list is
      filtering by the longer list. */
  lemma OutsideStep(d0: seq<string>, keys: seq<string>, k: string)
    ensures var d1 := Filter(Filter(d0, NotAmong(keys)), NotKey(k));
      && d1 == Filter(d0, NotAmong(keys + [k]))
      && (forall x :: x in d1 <==> x in d0 && x !in keys + [k])
  {
    FilterFilter(d0, NotAmong(keys), NotKey(k), NotAmong(keys + [k]));
  }

  // ---------------------------------------------------------------------
  // Removing copies with two labels exchanged

  /** The string `find_and_remove_identical_element` looks for: `line`
      decoded, the first occurrences of labels `a` and `b` exchanged, and
      encoded again. It holds the same labels as `line`. */
  function SwapLabels(a: int, b: int, line: string): (r: string)
    requires IsCodeString(line)
    requires a in StringToPerm(line) && b in StringToPerm(line)
    ensures |r| == |line| && IsCodeString(r)
    ensures multiset(StringToPerm(r)) == multiset(StringToPerm(line))
  {
    var ident := StringToPerm(line);
    var s := Swap(ident, IndexOf(ident, a), IndexOf(ident, b));
    SwapMultiset(ident, IndexOf(ident, a), IndexOf(ident, b));
    assert IsLabelSeq(s);
    DecodeEncode(s);
    PermToString(s)
  }

  /** The character `c` with the codes of `a` and `b` exchanged. */
  function Exchange(a: int, b: int, c: char): char
    requires 0 <= a < 36 && 0 <= b < 36
  {
    if c == EncodeLabel(a) then EncodeLabel(b) else if c == EncodeLabel(b) then EncodeLabel(a) else c
  }

  /** On a line without repeated characters, `SwapLabels` exchanges the
      characters of `a` and `b` wherever they are and keeps the others. */
  lemma SwapLabelsAt(a: int, b: int, line: string, k: int)
    requires IsCodeString(line) && NoDup(line)
    requires a in StringToPerm(line) && b in StringToPerm(line)
    requires 0 <= a < 36 && 0 <= b < 36 && 0 <= k < |line|
    ensures SwapLabels(a, b, line)[k] == Exchange(a, b, line[k])
  {
    var ident := StringToPerm(line);
    var i, j := IndexOf(ident, a), IndexOf(ident, b);
    var s := Swap(ident, i, j);
    assert IsLabelSeq(s);
    PermToStringAt(s, k);
    StringToPermAt(line, i);
    StringToPermAt(line, j);
    StringToPermAt(line, k);
    EncodeDecodeChar(line[i]);
    EncodeDecodeChar(line[j]);
    EncodeDecodeChar(line[k]);
  }

  /** Exchanging two codes is an involution on characters. */
  lemma ExchangeTwice(a: int, b: int, c: char)
    requires 0 <= a < 36 && 0 <= b < 36
    ensures Exchange(a, b, Exchange(a, b, c)) == c
  {
    assert DecodeChar(EncodeLabel(a)) == a && DecodeChar(EncodeLabel(b)) == b;
  }

  /** Exchanging two codes maps distinct characters to distinct ones. */
  lemma ExchangeInjective(a: int, b: int, c: char, e: char)
    requires 0 <= a < 36 && 0 <= b < 36 && c != e
    ensures Exchange(a, b, c) != Exchange(a, b, e)
  {
    ExchangeTwice(a, b, c);
    ExchangeTwice(a, b, e);
  }

  /** The labels of a swapped line are those of the line. */
  lemma SwapLabelsKeeps(a: int, b: int, line: string)
    requires IsCodeString(line)
    requires a in StringToPerm(line) && b in StringToPerm(line)
    ensures var r := SwapLabels(a, b, line);
      a in StringToPerm(r) && b in StringToPerm(r) && 0 <= a < 36 && 0 <= b < 36
  {
    var r := SwapLabels(a, b, line);
    assert a in multiset(StringToPerm(r)) && b in multiset(StringToPerm(r));
    assert IsLabelSeq(StringToPerm(line));
  }

  /** A swapped line without repetitions has none either. */
  lemma {:induction false} SwapLabelsNoDup(a: int, b: int, line: string)
    requires IsCodeString(line) && NoDup(line)
    requires a in StringToPerm(line) && b in StringToPerm(line)
    ensures NoDup(SwapLabels(a, b, line))
  {
    var r := SwapLabels(a, b, line);
    SwapLabelsKeeps(a, b, line);
    forall k1, k2 | 0 <= k1 < k2 < |r|
      ensures r[k1] != r[k2]
    {
      SwapLabelsAt(a, b, line, k1);
      SwapLabelsAt(a, b, line, k2);
      ExchangeInjective(a, b, line[k1], line[k2]);
    }
  }

  /** Exchanging the same two labels twice gives the line back. */
  lemma {:induction false} SwapLabelsTwice(a: int, b: int, line: string)
    requires IsCodeString(line) && NoDup(line)
    requires a in StringToPerm(line) && b in StringToPerm(line)
    ensures var r := SwapLabels(a, b, line);
      a in StringToPerm(r) && b in StringToPerm(r) && NoDup(r) && SwapLabels(a, b, r) == line
  {
    var r := SwapLabels(a, b, line);
    SwapLabelsKeeps(a, b, line);
    SwapLabelsNoDup(a, b, line);
    var back := SwapLabels(a, b, r);
    forall k | 0 <= k < |line|
      ensures back[k] == line[k]
    {
      SwapLabelsAt(a, b, line, k);
      SwapLabelsAt(a, b, r, k);
      ExchangeTwice(a, b, line[k]);
    }
  }

  /** `find_and_remove_identical_element(a, b, line, lines)`. When `line`
      lacks `a` or `b`, `ident.index` raises ValueError, modelled as `None`.
      Otherwise, when the line with `a` and `b` exchanged is in `lines`, one
      occurrence is removed and the count is 1; else the count is 0 and
      `lines` stays. */
  function FindAndRemoveIdenticalElement(a: int, b: int, line: string, lines: seq<string>): (res: Option<(int, seq<string>)>)
    requires IsCodeString(line)
    ensures res.None? <==> !(a in StringToPerm(line) && b in StringToPerm(line))
    ensures res.Some? ==> var swapped := SwapLabels(a, b, line);
      && (res.value.0 == 1 <==> swapped in lines)
      && (res.value.0 == 0 <==> swapped !in lines)
      && |res.value.1| == |lines| - res.value.0
      && multiset(res.value.1) + (if res.value.0 == 1 then multiset{swapped} else multiset{}) == multiset(lines)
      && (res.value.0 == 0 ==> res.value.1 == lines)
  {
    var perm := StringToPerm(line);
    if a !in perm || b !in perm then None
    else
      var ident := SwapLabels(a, b, line);
      if ident in lines then Some((1, RemoveFirst(lines, ident))) else Some((0, lines))
  }

  /** `line` holds the labels `a` and `b`, so they can be exchanged. */
  predicate Swappable(a: int, b: int, line: string)
  {
    IsCodeString(line) && a in StringToPerm(line) && b in StringToPerm(line)
  }

  predicate AllSwappable(a: int, b: int, perms: seq<string>)
  {
    forall s :: s in perms ==> Swappable(a, b, s)
  }

  predicate AllCodeStrings(perms: seq<string>)
  {
    forall s :: s in perms ==> IsCodeString(s)
  }

  /** `y` is some line of `perms` with `a` and `b` exchanged. */
  ghost predicate SwapImage(a: int, b: int, perms: seq<string>, y: string)
  {
    exists x :: x in perms && Swappable(a, b, x) && y == SwapLabels(a, b, x)
  }

  /** One iteration of the removal loop keeps its bookkeeping. */
  lemma RemovalStep(a: int, b: int, perms: seq<string>, lines: seq<string>, gone: seq<string>, index: int)
    requires AllCodeStrings(perms)
    requires multiset(lines) + multiset(gone) == multiset(perms)
    requires 0 <= index < |lines|
    ensures lines[index] in perms && IsCodeString(lines[index])
    ensures var line := lines[index];
      var res := FindAndRemoveIdenticalElement(a, b, line, lines);
      res.Some? ==>
        var g := if res.value.0 == 1 then gone + [SwapLabels(a, b, line)] else gone;
        && |g| == |gone| + res.value.0
        && multiset(res.value.1) + multiset(g) == multiset(perms)
  {
    var line := lines[index];
    assert line in multiset(perms);
    var res := FindAndRemoveIdenticalElement(a, b, line, lines);
    if res.Some? && res.value.0 == 1 {
      var g := gone + [SwapLabels(a, b, line)];
      assert multiset(g) == multiset(gone) + multiset{SwapLabels(a, b, line)};
    }
  }

  /** A removed copy of a line of `perms` is an exchanged copy. */
  lemma ImagesStep(a: int, b: int, perms: seq<string>, gone: seq<string>, line: string)
    requires line in perms && Swappable(a, b, line)
    requires forall y :: y in gone ==> SwapImage(a, b, perms, y)
    ensures forall y :: y in gone + [SwapLabels(a, b, line)] ==> SwapImage(a, b, perms, y)
  {
    assert SwapImage(a, b, perms, SwapLabels(a, b, line));
  }

  /** Bookkeeping of the removal loop: what left `perms` is what `gone`
      holds, so it consists of exchanged copies. */
  lemma RemovedAreImages(a: int, b: int, perms: seq<string>, lines: seq<string>, gone: seq<string>)
    requires multiset(lines) + multiset(gone) == multiset(perms)
    requires forall y :: y in gone ==> SwapImage(a, b, perms, y)
    ensures multiset(lines) <= multiset(perms)
    ensures |lines| + |gone| == |perms|
    ensures forall y :: y in multiset(perms) - multiset(lines) ==> SwapImage(a, b, perms, y)
  {
    assert multiset(perms) - multiset(lines) == multiset(gone);
    assert |multiset(lines)| + |multiset(gone)| == |multiset(perms)|;
  }

  /** `remove_identical_elements(a, b, perms)`: walks the list by index
      and, for each line, removes one copy of the line with `a` and `b`
      exchanged. Returns the list left, the number of removals (the figure
      the source prints) and whether a visited line lacked `a` or `b`, where
      the source raises ValueError with the removals so far already made to
      `perms` in place. Every removed string is an exchanged copy of a line
      of the input; the loop fails only on such a line, and never when every
      line holds both labels. */
  method RemoveIdenticalElements(a: int, b: int, perms: seq<string>) returns (lines: seq<string>, removed: int, failed: bool)
    requires AllCodeStrings(perms)
    ensures multiset(lines) <= multiset(perms)
    ensures |lines| + removed == |perms|
    ensures forall y :: y in multiset(perms) - multiset(lines) ==> SwapImage(a, b, perms, y)
    ensures failed ==> exists s :: s in perms && !Swappable(a, b, s)
    ensures AllSwappable(a, b, perms) ==> !failed
  {
    lines, removed, failed := perms, 0, false;
    var index := 0;
    ghost var gone: seq<string> := [];
    while index < |lines|
      invariant multiset(lines) + multiset(gone) == multiset(perms)
      invariant removed == |gone|
      invariant forall y :: y in gone ==> SwapImage(a, b, perms, y)
      invariant failed ==> exists s :: s in perms && !Swappable(a, b, s)
      decreases |lines| - index
    {
      var line := lines[index];
      RemovalStep(a, b, perms, lines, gone, index);
      var res := FindAndRemoveIdenticalElement(a, b, line, lines);
      if res.None? {
        failed := true;
        break;
      }
      ghost var g := gone;
      if res.value.0 == 1 {
        ImagesStep(a, b, perms, gone, line);
        g := gone + [SwapLabels(a, b, line)];
      }
      lines, removed, index, gone := res.value.1, removed + res.value.0, index + 1, g;
    }
    RemovedAreImages(a, b, perms, lines, gone);
  }
}

=== FILE: search.dfy ===
/** The level-by-level frontier search of `find_n_page_embedding_with_spine`
    and the spine loop of `find_n_page_embedding`. */
module Search {
  import opened Seqs
  import opened SimpleGraph
  import opened BookEmbedding

  /** What one pass over a frontier produces: a complete state, returned at
      once, or the next frontier. */
  datatype LevelOutcome = Found(state: Embedding) | Next(frontier: seq<Embedding>)

  /** What every state of the search keeps, for page count `n`, spine
      `spine` and input edge list `edges`: the state is well formed, placed
      edges are spine labels on pages `1..n` (free edges go to page 1
      whatever `n` is), no two placed edges on one page cross, no available
      placement crosses a placed edge on its page, and the placed and
      remaining edges together are the input edges. */
  ghost predicate SearchInv(st: Embedding, n: int, spine: seq<int>, edges: seq<Edge>)
  {
    && st.numPages == n
    && st.spine == spine
    && WellFormed(st)
    && PlacedOnPages(st.added, n, spine)
    && NoCrossing(spine, st.added)
    && Compatible(spine, st.available, st.added)
    && multiset(EdgesOf(st.added)) + multiset(st.remaining) == multiset(edges)
  }

  /** Every placed edge joins two spine labels and lies on a page `1..n`,
      or is a free edge (spine neighbours or the wrap-around pair) on
      page 1. */
  ghost predicate PlacedOnPages(added: seq<Placement>, n: int, spine: seq<int>)
  {
    forall a :: a in added ==>
      && a.edge.0 in spine && a.edge.1 in spine
      && (1 <= a.page <= n || (a.page == 1 && Adjacent(spine, a.edge)))
  }

  /** No available placement crosses a placed edge on its page. */
  ghost predicate Compatible(spine: seq<int>, available: seq<Placement>, added: seq<Placement>)
  {
    forall x, a :: x in available && a in added && x.page == a.page ==>
      !Crosses(spine, a.edge, x.edge)
  }

  lemma InitialInv(n: int, edges: seq<Edge>, spine: seq<int>)
    requires ValidSpine(spine)
    ensures SearchInv(NewEmbedding(n, edges, spine), n, spine, edges)
  {
    assert EdgesOf([]) == [];
  }

  /** Placing free edges keeps the invariant: they cross nothing. */
  lemma FreeInv(st: Embedding, r: Embedding, n: int, spine: seq<int>, edges: seq<Edge>)
    requires SearchInv(st, n, spine, edges)
    requires FreeExtension(st, r)
    ensures SearchInv(r, n, spine, edges)
  {
    var extra := r.added[|st.added|..];
    assert multiset(EdgesOf(r.added)) == multiset(EdgesOf(st.added)) + multiset(EdgesOf(extra)) by {
      assert r.added == st.added + extra;
      assert EdgesOf(r.added) == EdgesOf(st.added) + EdgesOf(extra);
    }
    assert PlacedOnPages(r.added, n, spine) by {
      FreePlaced(st, r, n, spine);
    }
    assert NoCrossing(spine, r.added) by {
      FreeNoCrossing(st, r, n, spine);
    }
    assert Compatible(spine, r.available, r.added) by {
      FreeCompatible(st, r, n, spine);
    }
  }

  lemma FreePlaced(st: Embedding, r: Embedding, n: int, spine: seq<int>)
    requires st.spine == spine
    requires PlacedOnPages(st.added, n, spine)
    requires FreeExtension(st, r)
    ensures PlacedOnPages(r.added, n, spine)
  {
    var k := |st.added|;
    forall a | a in r.added
      ensures a.edge.0 in spine && a.edge.1 in spine
        && (1 <= a.page <= n || (a.page == 1 && Adjacent(spine, a.edge)))
    {
      var j :| 0 <= j < |r.added| && r.added[j] == a;
      if j < k {
        assert st.added[j] == a;
      } else {
        AdjacentInSpine(spine, a.edge);
      }
    }
  }

  lemma FreeNoCrossing(st: Embedding, r: Embedding, n: int, spine: seq<int>)
    requires st.spine == spine && NoDup(spine)
    requires PlacedOnPages(st.added, n, spine)
    requires NoCrossing(spine, st.added)
    requires FreeExtension(st, r)
    ensures NoCrossing(spine, r.added)
  {
    var k := |st.added|;
    FreePlaced(st, r, n, spine);
    forall i, j | 0 <= i < j < |r.added| && r.added[i].page == r.added[j].page
      ensures !Crosses(spine, r.added[i].edge, r.added[j].edge)
    {
      if j < k {
        assert r.added[i] == st.added[i] && r.added[j] == st.added[j];
      } else {
        assert r.added[i] in r.added;
        AdjacentCrossesNothing(spine, r.added[j].edge, r.added[i].edge);
      }
    }
  }

  lemma FreeCompatible(st: Embedding, r: Embedding, n: int, spine: seq<int>)
    requires st.spine == spine && WellFormed(st)
    requires Compatible(spine, st.available, st.added)
    requires FreeExtension(st, r)
    ensures Compatible(spine, r.available, r.added)
  {
    var k := |st.added|;
    forall x, a | x in r.available && a in r.added && x.page == a.page
      ensures !Crosses(spine, a.edge, x.edge)
    {
      var j :| 0 <= j < |r.added| && r.added[j] == a;
      if j < k {
        assert st.added[j] == a;
      } else {
        AdjacentCrossesNothing(spine, a.edge, x.edge);
      }
    }
  }

  lemma AdjacentInSpine(spine: seq<int>, e: Edge)
    requires Adjacent(spine, e)
    ensures e.0 in spine && e.1 in spine
  {
    if k :| 0 <= k < |spine| - 1 && e == Orient(spine[k], spine[k + 1]) {
      assert {e.0, e.1} == {spine[k], spine[k + 1]};
    } else {
      assert {e.0, e.1} == {spine[0], spine[|spine| - 1]};
    }
  }

  /** Appending a placement that crosses no placed edge on its page keeps
      the placed edges crossing-free. */
  lemma NoCrossingAppend(spine: seq<int>, added: seq<Placement>, x: Placement)
    requires NoCrossing(spine, added)
    requires forall a :: a in added && a.page == x.page ==> !Crosses(spine, a.edge, x.edge)
    ensures NoCrossing(spine, added + [x])
  {
    var r := added + [x];
    forall i, j | 0 <= i < j < |r| && r[i].page == r[j].page
      ensures !Crosses(spine, r[i].edge, r[j].edge)
    {
      if j < |added| {
        assert r[i] == added[i] && r[j] == added[j];
      } else {
        assert r[i] in added;
      }
    }
  }

  /** After placing `x`, the placements still available (those `Blocks`
      did not remove) cross no placed edge on their page. */
  lemma CompatibleAfter(spine: seq<int>, avail: seq<Placement>, avail': seq<Placement>,
                        added: seq<Placement>, x: Placement)
    requires NoDup(spine)
    requires Compatible(spine, avail, added)
    requires x.edge.0 in spine && x.edge.1 in spine && x.edge.0 < x.edge.1
    requires forall y :: y in avail' ==> y in avail && !Blocks(spine, x.edge, x.page, y)
    requires forall y :: y in avail ==> y.edge.0 in spine && y.edge.1 in spine && y.edge.0 < y.edge.1
    ensures Compatible(spine, avail', added + [x])
  {
    assert Compatible(spine, avail', added);
    assert Compatible(spine, avail', [x]) by {
      forall y | y in avail' && y.page == x.page
        ensures !Crosses(spine, x.edge, y.edge)
      {
        UnblockedUncrossed(spine, x, y);
      }
    }
    CompatibleJoin(spine, avail', added, [x]);
  }

  lemma CompatibleJoin(spine: seq<int>, avail: seq<Placement>, a: seq<Placement>, b: seq<Placement>)
    requires Compatible(spine, avail, a) && Compatible(spine, avail, b)
    ensures Compatible(spine, avail, a + b)
  {
  }

  /** A placement that the placed edge does not block does not cross it. */
  lemma UnblockedUncrossed(spine: seq<int>, x: Placement, y: Placement)
    requires NoDup(spine)
    requires x.edge.0 in spine && x.edge.1 in spine && x.edge.0 < x.edge.1
    requires y.edge.0 in spine && y.edge.1 in spine && y.edge.0 < y.edge.1
    requires y.page == x.page && !Blocks(spine, x.edge, x.page, y)
    ensures !Crosses(spine, x.edge, y.edge)
  {
    BlocksIffCrosses(spine, x.edge, x.page, y);
  }

  /** The invariant after a placement, stated on the parts of the new
      state rather than on `PlaceEdge`. */
  lemma InvAfterPlace(st: Embedding, x: Placement, r: Embedding, n: int, spine: seq<int>, edges: seq<Edge>)
    requires SearchInv(st, n, spine, edges)
    requires x in st.available && x.edge in st.remaining
    requires r.numPages == n && r.spine == spine && WellFormed(r)
    requires r.added == st.added + [x]
    requires multiset(st.remaining) == multiset(r.remaining) + multiset{x.edge}
    requires forall y :: y in r.available ==> y in st.available && !Blocks(spine, x.edge, x.page, y)
    ensures SearchInv(r, n, spine, edges)
    ensures |r.remaining| == |st.remaining| - 1
  {
    assert EdgesOf(r.added) == EdgesOf(st.added) + [x.edge];
    assert |r.remaining| == |multiset(r.remaining)|;
    assert PlacedOnPages(r.added, n, spine);
    NoCrossingAppend(spine, st.added, x);
    CompatibleAfter(spine, st.available, r.available, st.added, x);
  }

  /** Placing an available placement of a remaining edge succeeds, keeps the
      invariant, and leaves one remaining edge fewer. */
  lemma PlaceInv(st: Embedding, x: Placement, n: int, spine: seq<int>, edges: seq<Edge>)
    requires SearchInv(st, n, spine, edges)
    requires x in st.available && x.edge in st.remaining
    ensures PlaceEdge(st, x.edge.0, x.edge.1, x.page).0 == Placed
    ensures SearchInv(PlaceEdge(st, x.edge.0, x.edge.1, x.page).1, n, spine, edges)
    ensures |PlaceEdge(st, x.edge.0, x.edge.1, x.page).1.remaining| == |st.remaining| - 1
  {
    assert Placement((x.edge.0, x.edge.1), x.page) == x;
    var r := PlaceEdge(st, x.edge.0, x.edge.1, x.page).1;
    InvAfterPlace(st, x, r, n, spine, edges);
  }

  /** The children of a state: one per available page of its first
      remaining edge, in the order of the available list, each the state
      after `place_edge` on that page. */
  function Children(st: Embedding, ghost n: int, ghost spine: seq<int>, ghost edges: seq<Edge>)
    : (r: seq<Embedding>)
    requires SearchInv(st, n, spine, edges)
    requires |st.remaining| > 0
    ensures forall c :: c in r ==> SearchInv(c, n, spine, edges)
    ensures forall c :: c in r ==> |c.remaining| == |st.remaining| - 1
    ensures forall c :: c in r ==>
      exists q :: 1 <= q <= n && c.added == st.added + [Placement(st.remaining[0], q)]
  {
    var e := st.remaining[0];
    var options := GetAvailableEdges(st.available, e);
    var r := seq(|options|, i requires 0 <= i < |options| =>
      PlaceEdge(st, options[i].edge.0, options[i].edge.1, options[i].page).1);
    forall c | c in r
      ensures SearchInv(c, n, spine, edges) && |c.remaining| == |st.remaining| - 1
      ensures exists q :: 1 <= q <= n && c.added == st.added + [Placement(e, q)]
    {
      var i :| 0 <= i < |r| && r[i] == c;
      ChildInv(st, options[i], n, spine, edges);
    }
    r
  }

  /** One child: placing an available page of the first remaining edge. */
  lemma ChildInv(st: Embedding, x: Placement, n: int, spine: seq<int>, edges: seq<Edge>)
    requires SearchInv(st, n, spine, edges)
    requires |st.remaining| > 0
    requires x in GetAvailableEdges(st.available, st.remaining[0])
    ensures var c := PlaceEdge(st, x.edge.0, x.edge.1, x.page).1;
      && SearchInv(c, n, spine, edges) && |c.remaining| == |st.remaining| - 1
      && 1 <= x.page <= n && c.added == st.added + [Placement(st.remaining[0], x.page)]
  {
    assert x.edge == st.remaining[0];
    assert x.edge in st.remaining;
    PlaceInv(st, x, n, spine, edges);
    assert (x.edge.0, x.edge.1) == x.edge;
  }

  /** One pass of the `while` loop over `frontier[i..]`, with `next`
      holding the children collected so far. */
  function ExpandLevel(frontier: seq<Embedding>, i: nat, next: seq<Embedding>,
                       ghost m: nat, ghost n: int, ghost spine: seq<int>, ghost edges: seq<Edge>)
    : (r: LevelOutcome)
    requires i <= |frontier|
    requires forall st :: st in frontier ==> SearchInv(st, n, spine, edges) && |st.remaining| == m
    requires forall c :: c in next ==> SearchInv(c, n, spine, edges) && |c.remaining| == m - 1
    ensures r.Found? ==> r.state in frontier && |r.state.remaining| == 0
    ensures r.Next? && i < |frontier| ==> m > 0
    ensures r.Next? ==> forall c :: c in r.frontier ==>
      SearchInv(c, n, spine, edges) && |c.remaining| == m - 1
    decreases |frontier| - i
  {
    if i == |frontier| then Next(next)
    else
      var st := frontier[i];
      assert st in frontier;
      if IsGraphPlaced(st) then Found(st)
      else if !IsPossibleToEmbed(st) then ExpandLevel(frontier, i + 1, next, m, n, spine, edges)
      else
        var children := Children(st, n, spine, edges);
        ExpandLevel(frontier, i + 1, next + children, m, n, spine, edges)
  }

  /** The `while len(embeddings) > 0` loop, with `m` the common number of
      remaining edges of the frontier's states; it drops by one per level. */
  function SearchFrom(frontier: seq<Embedding>, ghost m: nat,
                      ghost n: int, ghost spine: seq<int>, ghost edges: seq<Edge>)
    : (r: Option<Embedding>)
    requires forall st :: st in frontier ==> SearchInv(st, n, spine, edges) && |st.remaining| == m
    ensures r.Some? ==> SearchInv(r.value, n, spine, edges) && |r.value.remaining| == 0
    decreases m
  {
    if |frontier| == 0 then None
    else
      match ExpandLevel(frontier, 0, [], m, n, spine, edges)
      case Found(st) => Some(st)
      case Next(children) => SearchFrom(children, m - 1, n, spine, edges)
  }

  /** `st` is a finished `n`-page book embedding of `edges` along `spine`:
      no remaining edges, the spine and page count kept, every input edge
      placed exactly once (as a multiset), every edge on a page `1..n` (or
      a free edge on page 1) between two spine labels, and no two edges on
      one page crossing. */
  ghost predicate IsBookEmbedding(st: Embedding, n: int, spine: seq<int>, edges: seq<Edge>)
  {
    && st.remaining == []
    && st.spine == spine && st.numPages == n
    && multiset(EdgesOf(st.added)) == multiset(edges)
    && PlacedOnPages(st.added, n, spine)
    && NoCrossing(spine, st.added)
  }

  /** `find_n_page_embedding_with_spine(n, edges, spine)`: what it returns
      is a book embedding; `None` stands for the `-1` return. */
  function FindNPageEmbeddingWithSpine(n: int, edges: seq<Edge>, spine: seq<int>)
    : (r: Option<Embedding>)
    requires ValidSpine(spine) && |spine| >= 1
    ensures r.Some? ==> IsBookEmbedding(r.value, n, spine, edges)
  {
    StartInv(n, edges, spine);
    var first := PlaceFreeEdges(NewEmbedding(n, edges, spine)).value;
    FinishedIsEmbedding(SearchFrom([first], |first.remaining|, n, spine, edges), n, spine, edges);
    SearchFrom([first], |first.remaining|, n, spine, edges)
  }

  /** The state after `place_free_edges` on the initial state starts the
      search with the invariant. */
  lemma StartInv(n: int, edges: seq<Edge>, spine: seq<int>)
    requires ValidSpine(spine) && |spine| >= 1
    ensures PlaceFreeEdges(NewEmbedding(n, edges, spine)).Some?
    ensures SearchInv(PlaceFreeEdges(NewEmbedding(n, edges, spine)).value, n, spine, edges)
  {
    var init := NewEmbedding(n, edges, spine);
    InitialInv(n, edges, spine);
    var first := PlaceFreeEdges(init).value;
    FreeInv(init, first, n, spine, edges);
  }

  /** A finished state of the search is a book embedding. */
  lemma FinishedIsEmbedding(r: Option<Embedding>, n: int, spine: seq<int>, edges: seq<Edge>)
    requires r.Some? ==> SearchInv(r.value, n, spine, edges) && |r.value.remaining| == 0
    ensures r.Some? ==> IsBookEmbedding(r.value, n, spine, edges)
  {
    if r.Some? {
      assert multiset(r.value.remaining) == multiset{};
    }
  }

  /** Every spine is a permutation of its labels `1..|spine|`, and none is
      empty. */
  predicate ValidSpines(spines: seq<seq<int>>)
  {
    forall i :: 0 <= i < |spines| ==> ValidSpine(spines[i]) && |spines[i]| >= 1
  }

  /** No spine admits an `n`-page embedding by the search. */
  predicate AllSpinesFail(n: int, edges: seq<Edge>, spines: seq<seq<int>>)
    requires ValidSpines(spines)
  {
    forall i :: 0 <= i < |spines| ==> FindNPageEmbeddingWithSpine(n, edges, spines[i]).None?
  }

  /** The first success, at spine `k`, is what `find_n_page_embedding`
      returns. */
  lemma FoundAt(n: int, edges: seq<Edge>, spines: seq<seq<int>>, k: int, graph: Option<Embedding>)
    requires ValidSpines(spines) && 0 <= k < |spines|
    requires forall j :: 0 <= j < k ==> FindNPageEmbeddingWithSpine(n, edges, spines[j]).None?
    requires graph == FindNPageEmbeddingWithSpine(n, edges, spines[k]) && graph.Some?
    ensures !AllSpinesFail(n, edges, spines)
    ensures exists i :: (0 <= i < |spines|
      && graph == FindNPageEmbeddingWithSpine(n, edges, spines[i])
      && IsBookEmbedding(graph.value, n, spines[i], edges)
      && forall j :: 0 <= j < i ==> FindNPageEmbeddingWithSpine(n, edges, spines[j]).None?)
  {
    assert IsBookEmbedding(graph.value, n, spines[k], edges);
  }

  lemma FailsStep(n: int, edges: seq<Edge>, spines: seq<seq<int>>, k: int)
    requires ValidSpines(spines) && 0 <= k < |spines|
    requires forall j :: 0 <= j < k ==> FindNPageEmbeddingWithSpine(n, edges, spines[j]).None?
    requires FindNPageEmbeddingWithSpine(n, edges, spines[k]).None?
    ensures forall j :: 0 <= j < k + 1 ==> FindNPageEmbeddingWithSpine(n, edges, spines[j]).None?
  {
  }

  /** `find_n_page_embedding(n, edges, spines)`: tries the spines in order
      and returns the first success, an `n`-page book embedding along that
      spine; `None` (the source's `-1`) exactly when every spine fails. */
  method FindNPageEmbedding(n: int, edges: seq<Edge>, spines: seq<seq<int>>)
    returns (r: Option<Embedding>)
    requires ValidSpines(spines)
    ensures r.None? <==> AllSpinesFail(n, edges, spines)
    ensures r.Some? ==> exists i :: (0 <= i < |spines|
      && r == FindNPageEmbeddingWithSpine(n, edges, spines[i])
      && IsBookEmbedding(r.value, n, spines[i], edges)
      && forall j :: 0 <= j < i ==> FindNPageEmbeddingWithSpine(n, edges, spines[j]).None?)
  {
    var k := 0;
    while k < |spines|
      invariant 0 <= k <= |spines|
      invariant forall j :: 0 <= j < k ==> FindNPageEmbeddingWithSpine(n, edges, spines[j]).None?
    {
      var graph := FindNPageEmbeddingWithSpine(n, edges, spines[k]);
      if graph.Some? {
        FoundAt(n, edges, spines, k, graph);
        return graph;
      }
      FailsStep(n, edges, spines, k);
      k := k + 1;
    }
    return None;
  }

  /** `find_book_embedding` with its unbounded page loop cut off after
      `fuel` page counts: it tries `n, n + 1, ...` pages over all spines and
      returns the first success, so a returned embedding uses the fewest
      pages among those tried. */
  method FindBookEmbedding(n: int, edges: seq<Edge>, spines: seq<seq<int>>, fuel: nat)
    returns (r: Option<Embedding>)
    requires ValidSpines(spines)
    ensures r.Some? ==> n <= r.value.numPages < n + fuel
    ensures r.Some? ==> exists i :: 0 <= i < |spines| && IsBookEmbedding(r.value, r.value.numPages, spines[i], edges)
    ensures r.Some? ==> forall p :: n <= p < r.value.numPages ==> AllSpinesFail(p, edges, spines)
    ensures r.None? ==> forall p :: n <= p < n + fuel ==> AllSpinesFail(p, edges, spines)
  {
    var pages := n;
    while pages < n + fuel
      invariant n <= pages <= n + fuel
      invariant forall p :: n <= p < pages ==> AllSpinesFail(p, edges, spines)
    {
      var graph := FindNPageEmbedding(pages, edges, spines);
      if graph.Some? {
        ghost var i :| 0 <= i < |spines| && IsBookEmbedding(graph.value, pages, spines[i], edges);
        return graph;
      }
      forall p | n <= p < pages + 1
        ensures AllSpinesFail(p, edges, spines)
      {
        if p == pages {
          assert graph.None?;
        }
      }
      pages := pages + 1;
    }
    return None;
  }

  /** Free edges go to page 1 whatever the page count, so a single edge
      between spine neighbours is embedded even with no pages. */
  lemma ZeroPageEmbedding()
    ensures var r := FindNPageEmbeddingWithSpine(0, [(1, 2)], [1, 2]);
      r.Some? && r.value.numPages == 0 && r.value.added == [Placement((1, 2), 1)]
  {
    var st := PlaceFreeEdges(NewEmbedding(0, [(1, 2)], [1, 2])).value;
    assert st.remaining == [];
  }

  /** With no pages, only free edges can be placed: every edge of a
      zero-page embedding joins spine neighbours or the spine's two ends. */
  lemma ZeroPagesOnlyFree(st: Embedding, n: int, spine: seq<int>, edges: seq<Edge>)
    requires n <= 0
    requires IsBookEmbedding(st, n, spine, edges)
    ensures forall a :: a in st.added ==> a.page == 1 && Adjacent(spine, a.edge)
  {
  }

  /** An edge that is not free cannot sit on page 1 of a zero-page
      embedding. */
  lemma ZeroPagesRejectsChord()
    ensures !Adjacent([1, 2, 3, 4], (1, 3))
    ensures !IsBookEmbedding(Embedding(0, [1, 2, 3, 4], [Placement((1, 3), 1)], [], []),
                             0, [1, 2, 3, 4], [(1, 3)])
  {
    var spine := [1, 2, 3, 4];
    forall k | 0 <= k < |spine| - 1
      ensures (1, 3) != Orient(spine[k], spine[k + 1])
    {
    }
    assert (1, 3) != Orient(spine[0], spine[|spine| - 1]);
  }
}

=== FILE: seqs.dfy ===
/** Generic list operations that the Python code performs on its built-in
    lists: filtering, `list.index`, `list.remove`, de-duplication that keeps
    first occurrences, and `range`. */
module Seqs {

  /** A Python value that may be `None`, or a call that may raise. */
  datatype Option<T> = None | Some(value: T)

  /** The elements of `s` that `keep` accepts, in their original order. */
  function Filter<T(!new)>(s: seq<T>, keep: T -> bool): (r: seq<T>)
    ensures |r| <= |s|
    ensures forall x :: x in r <==> x in s && keep(x)
    ensures forall i :: 0 <= i < |r| ==> keep(r[i])
  {
    if |s| == 0 then []
    else (if keep(s[0]) then [s[0]] else []) + Filter(s[1..], keep)
  }

  lemma {:induction false} FilterAppend<T(!new)>(a: seq<T>, b: seq<T>, keep: T -> bool)
    ensures Filter(a + b, keep) == Filter(a, keep) + Filter(b, keep)
  {
    if |a| == 0 {
      assert a + b == b;
    } else {
      assert (a + b)[1..] == a[1..] + b;
      FilterAppend(a[1..], b, keep);
    }
  }

  /** Filtering twice is filtering once with the conjunction. */
  lemma FilterCons<T(!new)>(x: T, t: seq<T>, keep: T -> bool)
    ensures Filter([x] + t, keep) == (if keep(x) then [x] else []) + Filter(t, keep)
  {
    assert ([x] + t)[1..] == t;
  }

  lemma {:induction false} FilterFilter<T(!new)>(s: seq<T>, f: T -> bool, g: T -> bool, h: T -> bool)
    requires forall x :: x in s ==> (h(x) <==> f(x) && g(x))
    ensures Filter(Filter(s, f), g) == Filter(s, h)
  {
    if |s| != 0 {
      FilterFilter(s[1..], f, g, h);
      var head := if f(s[0]) then [s[0]] else [];
      FilterAppend(head, Filter(s[1..], f), g);
    }
  }

  /** Two filters that agree on the elements of `s` give the same list. */
  lemma {:induction false} FilterCongruent<T(!new)>(s: seq<T>, f: T -> bool, g: T -> bool)
    requires forall x :: x in s ==> (f(x) <==> g(x))
    ensures Filter(s, f) == Filter(s, g)
  {
    if |s| != 0 {
      FilterCongruent(s[1..], f, g);
    }
  }

  /** A filter that accepts every element changes nothing. */
  lemma {:induction false} FilterAll<T(!new)>(s: seq<T>, keep: T -> bool)
    requires forall x :: x in s ==> keep(x)
    ensures Filter(s, keep) == s
  {
    if |s| != 0 {
      FilterAll(s[1..], keep);
    }
  }

  lemma {:induction false} FilterMultiset<T(!new)>(s: seq<T>, keep: T -> bool)
    ensures forall x :: multiset(Filter(s, keep))[x] == if keep(x) then multiset(s)[x] else 0
  {
    if |s| != 0 {
      FilterMultiset(s[1..], keep);
      assert s == [s[0]] + s[1..];
    }
  }

  /** Python's `s.index(x)`; `|s|` stands for the ValueError of a missing `x`. */
  function IndexOf<T(==)>(s: seq<T>, x: T): (i: nat)
    ensures i <= |s|
    ensures i < |s| <==> x in s
    ensures i < |s| ==> s[i] == x
    ensures forall j :: 0 <= j < i ==> s[j] != x
  {
    if |s| == 0 then 0
    else if s[0] == x then 0
    else 1 + IndexOf(s[1..], x)
  }

  /** Python's `s.remove(x)`: drops the first occurrence only. */
  function RemoveFirst<T(==)>(s: seq<T>, x: T): (r: seq<T>)
    requires x in s
    ensures |r| == |s| - 1
    ensures multiset(r) == multiset(s) - multiset{x}
  {
    var i := IndexOf(s, x);
    assert s == s[..i] + [x] + s[i + 1..];
    s[..i] + s[i + 1..]
  }

  /** Removing the first occurrence of `x` from `a + [x] + b`, when `a`
      does not hold `x`, leaves `a + b`. */
  lemma RemoveFirstAt<T>(a: seq<T>, x: T, b: seq<T>)
    requires x !in a
    ensures RemoveFirst(a + [x] + b, x) == a + b
  {
    var s := a + [x] + b;
    IndexOfAt(a, x, b);
    assert s[..|a|] == a;
    assert s[|a| + 1..] == b;
  }

  lemma {:induction false} IndexOfAt<T>(a: seq<T>, x: T, b: seq<T>)
    requires x !in a
    ensures IndexOf(a + [x] + b, x) == |a|
  {
    var s := a + [x] + b;
    assert s[|a|] == x;
    assert forall j :: 0 <= j < |a| ==> s[j] == a[j];
  }

  /** No element occurs twice. */
  predicate NoDup<T(==)>(s: seq<T>)
  {
    forall i, j :: 0 <= i < j < |s| ==> s[i] != s[j]
  }

  /** Filtering keeps a list free of repetitions. */
  lemma {:induction false} FilterNoDup<T(!new)>(s: seq<T>, keep: T -> bool)
    requires NoDup(s)
    ensures NoDup(Filter(s, keep))
  {
    if |s| != 0 {
      FilterNoDup(s[1..], keep);
      assert s[0] !in s[1..];
    }
  }

  /** In a list without repetitions, the element at `k` is found at `k`. */
  lemma IndexOfNoDup<T>(s: seq<T>, k: int)
    requires NoDup(s) && 0 <= k < |s|
    ensures IndexOf(s, s[k]) == k
  {
    var i := IndexOf(s, s[k]);
    assert s[i] == s[k];
  }

  /** Reference definition of "the first occurrence of every element, in
      order": the element at index `i` is kept iff it does not occur before
      `i`. */
  function KeepFirst<T(==,!new)>(s: seq<T>): (r: seq<T>)
    ensures forall x :: x in r <==> x in s
    ensures NoDup(r)
  {
    if |s| == 0 then []
    else
      var p := s[..|s| - 1];
      var r := KeepFirst(p);
      if s[|s| - 1] in p then
        assert forall x :: x in s <==> x in p || x == s[|s| - 1] by {
          assert s == p + [s[|s| - 1]];
        }
        r
      else
        assert s == p + [s[|s| - 1]];
        r + [s[|s| - 1]]
  }

  /** The accumulate-if-unseen loop used both for the dictionary of
      permutations and for the edge list of a graph: it visits `rest` in
      order and appends an element unless the accumulator already holds it. */
  function AppendUnseen<T(==)>(acc: seq<T>, rest: seq<T>): (r: seq<T>)
    decreases |rest|
  {
    if |rest| == 0 then acc
    else if rest[0] in acc then AppendUnseen(acc, rest[1..])
    else AppendUnseen(acc + [rest[0]], rest[1..])
  }

  /** The loop computes the reference definition: started on an empty
      accumulator it keeps exactly the first occurrences, in order. */
  lemma {:induction false} AppendUnseenKeepsFirst<T(!new)>(s: seq<T>, i: nat)
    requires i <= |s|
    ensures AppendUnseen(KeepFirst(s[..i]), s[i..]) == KeepFirst(s)
    decreases |s| - i
  {
    if i == |s| {
      assert s[..i] == s;
    } else {
      var acc := KeepFirst(s[..i]);
      assert s[..i + 1][..i] == s[..i];
      assert s[i..][1..] == s[i + 1..];
      AppendUnseenKeepsFirst(s, i + 1);
    }
  }

  /** Removing duplicates: the elements kept, as a set, are those of `s`;
      none is repeated; and they are the first occurrences in input order. */
  function Dedup<T(==,!new)>(s: seq<T>): (r: seq<T>)
    ensures r == KeepFirst(s)
    ensures forall x :: x in r <==> x in s
    ensures NoDup(r)
  {
    AppendUnseenKeepsFirst(s, 0);
    assert s[0..] == s;
    AppendUnseen([], s)
  }

  /** A list without repetitions is its own de-duplication. */
  lemma {:induction false} KeepFirstNoDup<T(!new)>(s: seq<T>)
    requires NoDup(s)
    ensures KeepFirst(s) == s
  {
    if |s| != 0 {
      var p := s[..|s| - 1];
      KeepFirstNoDup(p);
      assert s == p + [s[|s| - 1]];
    }
  }

  /** One more row of `b` items adds `b`. */
  lemma MulSucc(k: int, b: int)
    ensures (k + 1) * b == k * b + b
  {
  }

  /** Python's `list(range(lo, hi))`. */
  function Range(lo: int, hi: int): (r: seq<int>)
    ensures |r| == if lo < hi then hi - lo else 0
    ensures forall i :: 0 <= i < |r| ==> r[i] == lo + i
    ensures forall x :: x in r <==> lo <= x < hi
    decreases hi - lo
  {
    if lo >= hi then [] else [lo] + Range(lo + 1, hi)
  }
}

=== FILE: simple_graph.dfy ===
/** The SimpleGraph class: validation and normalisation of an edge list, the
    derived vertex count, and the complete and complete-bipartite generators. */
module SimpleGraph {
  import opened Seqs

  /** An edge as a pair of vertex labels. */
  type Edge = (int, int)

  /** A Python value as the validator sees it: an `int`, or anything else
      (a float, a string, a bool, ...). */
  datatype Value = Int(i: int) | NonInt

  /** An element of the edge list given to the constructor: a tuple of values,
      or some other object. */
  datatype RawEdge = Tuple(items: seq<Value>) | NonTuple

  /** The three exceptions `verify_edge_set` raises. */
  datatype GraphError = NotPair | NotInteger | NotNatural

  datatype Result<T> = Ok(value: T) | Err(error: GraphError)

  datatype Graph = Graph(edges: seq<Edge>, numEdges: int, numVertices: int, vertices: seq<int>)

  /** The checks made on one element, in the order the source makes them. */
  function CheckEdge(e: RawEdge): (r: Result<Edge>)
    ensures r == Err(NotPair) <==> !(e.Tuple? && |e.items| == 2)
    ensures r == Err(NotInteger) <==>
      e.Tuple? && |e.items| == 2 && !(e.items[0].Int? && e.items[1].Int?)
    ensures r == Err(NotNatural) <==>
      e.Tuple? && |e.items| == 2 && e.items[0].Int? && e.items[1].Int?
      && (e.items[0].i < 1 || e.items[1].i < 1)
    ensures r.Ok? ==> r.value.0 >= 1 && r.value.1 >= 1
    ensures r.Ok? ==> e == Tuple([Int(r.value.0), Int(r.value.1)])
  {
    if !e.Tuple? || |e.items| != 2 then Err(NotPair)
    else
      var a := e.items[0];
      var b := e.items[1];
      if !a.Int? || !b.Int? then Err(NotInteger)
      else if a.i < 1 || b.i < 1 then Err(NotNatural)
      else
        assert e.items == [a, b];
        Ok((a.i, b.i))
  }

  /** The edge with its smaller endpoint first. */
  function Orient(a: int, b: int): (e: Edge)
    ensures e.0 <= e.1
    ensures e == (a, b) || e == (b, a)
  {
    if a < b then (a, b) else (b, a)
  }

  /** Reference definition of the normalised edges, before de-duplication:
      every non-loop input edge, oriented, in input order. */
  function OrientedNonLoops(pairs: seq<Edge>): (r: seq<Edge>)
    ensures forall e :: e in r ==> e.0 < e.1
    ensures forall e :: e in r <==> exists p :: p in pairs && p.0 != p.1 && e == Orient(p.0, p.1)
  {
    if |pairs| == 0 then []
    else
      var p := pairs[0];
      var rest := OrientedNonLoops(pairs[1..]);
      assert pairs == [p] + pairs[1..];
      if p.0 == p.1 then rest else [Orient(p.0, p.1)] + rest
  }

  /** The input element is the edge `e`, in either orientation. */
  predicate Joins(x: RawEdge, e: Edge)
  {
    x == Tuple([Int(e.0), Int(e.1)]) || x == Tuple([Int(e.1), Int(e.0)])
  }

  /** The validated pairs, or the error of the first element that fails. */
  function CheckAll(raw: seq<RawEdge>): (r: Result<seq<Edge>>)
    ensures r.Ok? <==> forall i :: 0 <= i < |raw| ==> CheckEdge(raw[i]).Ok?
    ensures r.Ok? ==> (|r.value| == |raw|
      && forall i :: 0 <= i < |raw| ==> CheckEdge(raw[i]) == Ok(r.value[i]))
    ensures r.Err? ==> exists i :: (0 <= i < |raw| && CheckEdge(raw[i]) == Err(r.error)
      && forall j :: 0 <= j < i ==> CheckEdge(raw[j]).Ok?)
  {
    if |raw| == 0 then Ok([])
    else match CheckEdge(raw[0])
      case Err(err) => Err(err)
      case Ok(e) =>
        match CheckAll(raw[1..])
        case Err(err) =>
          assert forall i :: 1 <= i < |raw| ==> raw[1..][i - 1] == raw[i];
          Err(err)
        case Ok(es) =>
          assert forall i :: 1 <= i < |raw| ==> raw[1..][i - 1] == raw[i];
          Ok([e] + es)
  }

  /** The loop of `verify_edge_set`: checks each element in turn, skips
      loops, orients the edge and appends it unless an equal edge was already
      appended. */
  function VerifyLoop(acc: seq<Edge>, raw: seq<RawEdge>): (r: Result<seq<Edge>>)
    decreases |raw|
    ensures r.Ok? <==> CheckAll(raw).Ok?
    ensures r.Err? ==> r.error == CheckAll(raw).error
    ensures r.Ok? ==> r.value == AppendUnseen(acc, OrientedNonLoops(CheckAll(raw).value))
  {
    if |raw| == 0 then Ok(acc)
    else match CheckEdge(raw[0])
      case Err(err) => Err(err)
      case Ok(p) =>
        var r :=
          if p.0 == p.1 then VerifyLoop(acc, raw[1..])
          else
            var e := Orient(p.0, p.1);
            if e in acc then VerifyLoop(acc, raw[1..]) else VerifyLoop(acc + [e], raw[1..]);
        assert r.Ok? ==> [p] + CheckAll(raw[1..]).value == CheckAll(raw).value;
        r
  }

  /** `verify_edge_set`: raises on the first malformed element; otherwise
      the stored edges are ordered, loop-free, free of repetitions, equal as a
      set to the oriented non-loop input edges, and in first-occurrence
      order. */
  function VerifyEdgeSet(raw: seq<RawEdge>): (r: Result<seq<Edge>>)
    ensures r.Err? <==> exists i :: 0 <= i < |raw| && CheckEdge(raw[i]).Err?
    ensures r.Err? ==> exists i :: (0 <= i < |raw| && CheckEdge(raw[i]) == Err(r.error)
      && forall j :: 0 <= j < i ==> CheckEdge(raw[j]).Ok?)
    ensures r.Ok? ==> r.value == KeepFirst(OrientedNonLoops(CheckAll(raw).value))
    ensures r.Ok? ==> NoDup(r.value)
    ensures r.Ok? ==> forall e :: e in r.value ==> 1 <= e.0 < e.1
    ensures r.Ok? ==> forall e :: e in r.value <==>
      e.0 < e.1 && exists i :: 0 <= i < |raw| && Joins(raw[i], e)
  {
    var r := VerifyLoop([], raw);
    if r.Ok? then
      var pairs := CheckAll(raw).value;
      AppendUnseenKeepsFirst(OrientedNonLoops(pairs), 0);
      assert OrientedNonLoops(pairs)[0..] == OrientedNonLoops(pairs);
      NormalisedMembership(raw, pairs);
      r
    else r
  }

  /** An oriented non-loop edge of the validated input is exactly an ordered
      pair of naturals that some input element joins. */
  lemma NormalisedMembership(raw: seq<RawEdge>, pairs: seq<Edge>)
    requires CheckAll(raw) == Ok(pairs)
    ensures forall e :: e in OrientedNonLoops(pairs) ==> 1 <= e.0
    ensures forall e :: e in OrientedNonLoops(pairs) <==>
      e.0 < e.1 && exists i :: 0 <= i < |raw| && Joins(raw[i], e)
  {
    forall e | e in OrientedNonLoops(pairs)
      ensures 1 <= e.0 && exists i :: 0 <= i < |raw| && Joins(raw[i], e)
    {
      NormalisedIsJoined(raw, pairs, e);
    }
    forall e: Edge | e.0 < e.1 && exists i :: 0 <= i < |raw| && Joins(raw[i], e)
      ensures e in OrientedNonLoops(pairs)
    {
      var i :| 0 <= i < |raw| && Joins(raw[i], e);
      JoinedIsNormalised(raw, pairs, e, i);
    }
  }

  lemma NormalisedIsJoined(raw: seq<RawEdge>, pairs: seq<Edge>, e: Edge)
    requires CheckAll(raw) == Ok(pairs)
    requires e in OrientedNonLoops(pairs)
    ensures 1 <= e.0 && exists i :: 0 <= i < |raw| && Joins(raw[i], e)
  {
    var p :| p in pairs && p.0 != p.1 && e == Orient(p.0, p.1);
    var i :| 0 <= i < |pairs| && pairs[i] == p;
    var c := CheckEdge(raw[i]);
    assert c == Ok(p);
    assert raw[i] == Tuple([Int(p.0), Int(p.1)]);
    if p.0 < p.1 {
      assert e == p;
      assert raw[i] == Tuple([Int(e.0), Int(e.1)]);
    } else {
      assert e == (p.1, p.0);
      assert raw[i] == Tuple([Int(e.1), Int(e.0)]);
    }
  }

  lemma JoinedIsNormalised(raw: seq<RawEdge>, pairs: seq<Edge>, e: Edge, i: int)
    requires CheckAll(raw) == Ok(pairs)
    requires e.0 < e.1 && 0 <= i < |raw| && Joins(raw[i], e)
    ensures e in OrientedNonLoops(pairs)
  {
    assert CheckEdge(raw[i]) == Ok(pairs[i]);
    assert pairs[i] in pairs;
    assert e == Orient(pairs[i].0, pairs[i].1);
  }

  /** The largest endpoint, or 0 for no edges. */
  function HighestVertex(edges: seq<Edge>): (h: int)
    ensures h >= 0
    ensures forall e :: e in edges ==> e.0 <= h && e.1 <= h
    ensures h == 0 || exists e :: e in edges && (h == e.0 || h == e.1)
  {
    if |edges| == 0 then 0
    else
      var e := edges[|edges| - 1];
      var h := HighestVertex(edges[..|edges| - 1]);
      assert edges == edges[..|edges| - 1] + [e];
      var h1 := if e.0 > h then e.0 else h;
      if e.1 > h1 then e.1 else h1
  }

  /** The constructor `SimpleGraph(edge_set)`. */
  function NewGraph(raw: seq<RawEdge>): (r: Result<Graph>)
    ensures r.Err? <==> VerifyEdgeSet(raw).Err?
    ensures r.Err? ==> r.error == VerifyEdgeSet(raw).error
    ensures r.Ok? ==> r.value.edges == VerifyEdgeSet(raw).value
    ensures r.Ok? ==> r.value.numEdges == |r.value.edges|
    ensures r.Ok? ==> r.value.numVertices >= 0
    ensures r.Ok? ==> forall e :: e in r.value.edges ==> e.1 <= r.value.numVertices
    ensures r.Ok? ==> (r.value.numVertices == 0 || exists e :: e in r.value.edges && e.1 == r.value.numVertices)
    ensures r.Ok? ==> (r.value.numVertices == 0 <==> |r.value.edges| == 0)
    ensures r.Ok? ==> |r.value.vertices| == r.value.numVertices
    ensures r.Ok? ==> forall i :: 0 <= i < |r.value.vertices| ==> r.value.vertices[i] == i + 1
  {
    match VerifyEdgeSet(raw)
    case Err(err) => Err(err)
    case Ok(edges) => Ok(MakeGraph(edges))
  }

  /** The attributes the constructor derives from a verified edge list: the
      edge count, the number of vertices (the largest endpoint, 0 when there
      are no edges) and the vertex list `1..n`. */
  function MakeGraph(edges: seq<Edge>): (g: Graph)
    requires forall e :: e in edges ==> 1 <= e.0 < e.1
    ensures g.edges == edges && g.numEdges == |edges|
    ensures g.numVertices >= 0
    ensures forall e :: e in edges ==> e.1 <= g.numVertices
    ensures g.numVertices == 0 || exists e :: e in edges && e.1 == g.numVertices
    ensures g.numVertices == 0 <==> |edges| == 0
    ensures |g.vertices| == g.numVertices
    ensures forall i :: 0 <= i < |g.vertices| ==> g.vertices[i] == i + 1
  {
    var h := HighestVertex(edges);
    assert |edges| > 0 ==> edges[0] in edges;
    Graph(edges, |edges|, h, Range(1, h + 1))
  }

  // ---------------------------------------------------------------------
  // Generators

  /** The pairs `(x, y)` for `y` in `ys`, in order. */
  function ProductRow(x: int, ys: seq<int>): (r: seq<Edge>)
    ensures |r| == |ys|
    ensures forall j :: 0 <= j < |r| ==> r[j] == (x, ys[j])
    ensures forall e :: e in r <==> e.0 == x && e.1 in ys
  {
    if |ys| == 0 then []
    else
      assert ys == [ys[0]] + ys[1..];
      [(x, ys[0])] + ProductRow(x, ys[1..])
  }

  /** Python's `itertools.product(xs, ys)`: row-major pairs. */
  function Product(xs: seq<int>, ys: seq<int>): (r: seq<Edge>)
    ensures |r| == |xs| * |ys|
    ensures forall e :: e in r <==> e.0 in xs && e.1 in ys
  {
    if |xs| == 0 then []
    else
      var row := ProductRow(xs[0], ys);
      var rest := Product(xs[1..], ys);
      ProductCons(xs, ys, row, rest);
      row + rest
  }

  /** The first row followed by the product of the other rows is the
      whole product. */
  lemma ProductCons(xs: seq<int>, ys: seq<int>, row: seq<Edge>, rest: seq<Edge>)
    requires |xs| > 0
    requires |row| == |ys| && forall e :: e in row <==> e.0 == xs[0] && e.1 in ys
    requires |rest| == (|xs| - 1) * |ys|
    requires forall e :: e in rest <==> e.0 in xs[1..] && e.1 in ys
    ensures |row + rest| == |xs| * |ys|
    ensures forall e :: e in row + rest <==> e.0 in xs && e.1 in ys
  {
    MulSucc(|xs| - 1, |ys|);
    assert xs == [xs[0]] + xs[1..];
  }

  predicate Increasing(xs: seq<int>)
  {
    forall i, j :: 0 <= i < j < |xs| ==> xs[i] < xs[j]
  }

  /** Strict lexicographic order on edges. */
  predicate LexLess(a: Edge, b: Edge)
  {
    a.0 < b.0 || (a.0 == b.0 && a.1 < b.1)
  }

  predicate LexSorted(s: seq<Edge>)
  {
    forall i, j :: 0 <= i < j < |s| ==> LexLess(s[i], s[j])
  }

  lemma LexSortedNoDup(s: seq<Edge>)
    requires LexSorted(s)
    ensures NoDup(s)
  {
  }

  /** The pairs `(u, v), (u, v+1), ..., (u, hi)`. */
  function Row(u: int, v: int, hi: int): (r: seq<Edge>)
    ensures |r| == if v <= hi then hi - v + 1 else 0
    ensures forall i :: 0 <= i < |r| ==> r[i] == (u, v + i)
    decreases hi - v
  {
    if v > hi then [] else [(u, v)] + Row(u, v + 1, hi)
  }

  /** The number of pairs `x < y` drawn from `k` labels, counted the way
      the nested loops produce them: `k - 1` pairs start at the first label,
      and the rest are the pairs of the remaining `k - 1`. */
  function Tri(k: int): nat
    decreases k
  {
    if k <= 1 then 0 else Tri(k - 1) + (k - 1)
  }

  /** The closed form `k(k-1)/2`. */
  lemma {:induction false} TriClosed(k: int)
    ensures Tri(k) == if k > 0 then k * (k - 1) / 2 else 0
    decreases k
  {
    if k > 1 {
      TriClosed(k - 1);
      assert k * (k - 1) == (k - 1) * (k - 2) + 2 * (k - 1);
    }
  }

  /** The pairs `(x, y)` with `u <= x < y <= hi`, in the order of the two
      nested loops `for x in range(u, hi): for y in range(x + 1, hi + 1)`. */
  function PairsFrom(u: int, hi: int): (r: seq<Edge>)
    requires u <= hi + 1
    ensures |r| == Tri(hi - u + 1)
    ensures forall e :: e in r <==> u <= e.0 < e.1 <= hi
    decreases hi - u
  {
    if u >= hi then []
    else
      var row := Row(u, u + 1, hi);
      var rest := PairsFrom(u + 1, hi);
      assert forall e :: e in row <==> e.0 == u && u < e.1 <= hi by {
        forall e | e in row ensures e.0 == u && u < e.1 <= hi {
          var i :| 0 <= i < |row| && row[i] == e;
        }
        forall e: Edge | e.0 == u && u < e.1 <= hi ensures e in row {
          assert row[e.1 - u - 1] == e;
        }
      }
      row + rest
  }

  /** The nested loops produce the pairs in lexicographic order. */
  lemma {:induction false} PairsFromSorted(u: int, hi: int)
    requires u <= hi + 1
    ensures LexSorted(PairsFrom(u, hi))
    decreases hi - u
  {
    if u < hi {
      var row := Row(u, u + 1, hi);
      var rest := PairsFrom(u + 1, hi);
      PairsFromSorted(u + 1, hi);
      forall x, y | x in row && y in rest
        ensures LexLess(x, y)
      {
        var i :| 0 <= i < |row| && row[i] == x;
      }
      LexSortedAppend(row, rest);
    }
  }

  lemma {:induction false} LexSortedAppend(a: seq<Edge>, b: seq<Edge>)
    requires LexSorted(a) && LexSorted(b)
    requires forall x, y :: x in a && y in b ==> LexLess(x, y)
    ensures LexSorted(a + b)
  {
    forall i, j | 0 <= i < j < |a + b| ensures LexLess((a + b)[i], (a + b)[j]) {
      if j < |a| {
      } else if i >= |a| {
        assert (a + b)[i] == b[i - |a|] && (a + b)[j] == b[j - |a|];
      } else {
        assert (a + b)[i] in a && (a + b)[j] in b;
      }
    }
  }

  /** The product of two increasing lists is lexicographically sorted. */
  lemma {:induction false} ProductSorted(xs: seq<int>, ys: seq<int>)
    requires Increasing(xs) && Increasing(ys)
    ensures LexSorted(Product(xs, ys))
  {
    if |xs| != 0 {
      var row := ProductRow(xs[0], ys);
      ProductSorted(xs[1..], ys);
      forall x, y | x in row && y in Product(xs[1..], ys) ensures LexLess(x, y) {
        var j :| 0 <= j < |xs[1..]| && xs[1..][j] == y.0;
        assert xs[j + 1] == y.0;
      }
      LexSortedAppend(row, Product(xs[1..], ys));
    }
  }

  lemma RangeIncreasing(lo: int, hi: int)
    ensures Increasing(Range(lo, hi))
  {
  }

  /** The edge list written as the Python list of int 2-tuples it stands for. */
  function AsRaw(edges: seq<Edge>): (raw: seq<RawEdge>)
    ensures |raw| == |edges|
    ensures forall i :: 0 <= i < |edges| ==> raw[i] == Tuple([Int(edges[i].0), Int(edges[i].1)])
  {
    seq(|edges|, i requires 0 <= i < |edges| => Tuple([Int(edges[i].0), Int(edges[i].1)]))
  }

  lemma {:induction false} OrientedNonLoopsOrdered(edges: seq<Edge>)
    requires forall e :: e in edges ==> e.0 < e.1
    ensures OrientedNonLoops(edges) == edges
  {
    if |edges| != 0 {
      assert edges[0] in edges;
      assert forall e :: e in edges[1..] ==> e in edges;
      OrientedNonLoopsOrdered(edges[1..]);
      assert edges == [edges[0]] + edges[1..];
    }
  }

  /** An edge list that is already normalised passes through the
      constructor unchanged. */
  lemma NormalisedInput(edges: seq<Edge>)
    requires forall e :: e in edges ==> 1 <= e.0 < e.1
    requires NoDup(edges)
    ensures VerifyEdgeSet(AsRaw(edges)) == Ok(edges)
  {
    var raw := AsRaw(edges);
    forall i | 0 <= i < |raw| ensures CheckEdge(raw[i]) == Ok(edges[i]) {
      assert edges[i] in edges;
    }
    var c := CheckAll(raw);
    assert c.Ok?;
    assert c.value == edges;
    OrientedNonLoopsOrdered(edges);
    KeepFirstNoDup(edges);
  }

  /** The filter `element[0] < element[1]` of `complete_graph`. */
  predicate IsOrdered(e: Edge)
  {
    e.0 < e.1
  }

  /** One row of the filtered square product: the pairs `(u, y)` with
      `y` from `v` to `n` and `u < y`. */
  lemma {:induction false} FilteredRow(u: int, v: int, n: int)
    ensures Filter(ProductRow(u, Range(v, n + 1)), IsOrdered)
         == Row(u, if v > u then v else u + 1, n)
    decreases n + 1 - v
  {
    if v <= n {
      FilteredRowHead(u, v, n);
      FilteredRow(u, v + 1, n);
      if u < v {
        assert Row(u, v, n) == [(u, v)] + Row(u, v + 1, n);
      } else {
        assert (if v + 1 > u then v + 1 else u + 1) == u + 1;
      }
    }
  }

  /** The first pair of a row is kept exactly when it is ordered. */
  lemma FilteredRowHead(u: int, v: int, n: int)
    requires v <= n
    ensures Filter(ProductRow(u, Range(v, n + 1)), IsOrdered)
         == (if u < v then [(u, v)] else []) + Filter(ProductRow(u, Range(v + 1, n + 1)), IsOrdered)
  {
    var ys := Range(v, n + 1);
    var row := ProductRow(u, ys);
    var tail := ProductRow(u, Range(v + 1, n + 1));
    assert ys[1..] == Range(v + 1, n + 1);
    assert row == [(u, v)] + tail by {
      assert row[0] == (u, v);
      assert row[1..] == tail;
      assert row == [row[0]] + row[1..];
    }
    FilterCons((u, v), tail, IsOrdered);
  }

  /** The filtered square product from row `u` on is `PairsFrom(u, n)`. */
  lemma {:induction false} FilteredSquare(u: int, n: int)
    requires 1 <= u <= n + 1
    ensures Filter(Product(Range(u, n + 1), Range(1, n + 1)), IsOrdered)
         == PairsFrom(u, n)
    decreases n + 1 - u
  {
    if u <= n {
      var row := ProductRow(u, Range(1, n + 1));
      assert Range(u, n + 1)[1..] == Range(u + 1, n + 1);
      FilteredRow(u, 1, n);
      FilteredSquare(u + 1, n);
      FilterAppend(row, Product(Range(u + 1, n + 1), Range(1, n + 1)), IsOrdered);
    }
  }

  /** `SimpleGraph.complete_graph(n)`: the product of `1..n` with itself,
      filtered to `i < j`, then passed through the constructor. The result is
      exactly the `n(n-1)/2` pairs `i < j` of `1..n`, in lexicographic order. */
  function CompleteGraph(n: int): (r: Result<Graph>)
    ensures r.Ok?
    ensures |r.value.edges| == if n > 0 then n * (n - 1) / 2 else 0
    ensures forall e :: e in r.value.edges <==> 1 <= e.0 < e.1 <= n
    ensures LexSorted(r.value.edges)
    ensures r.value.numVertices == if n >= 2 then n else 0
  {
    var edges := Filter(Product(Range(1, n + 1), Range(1, n + 1)), IsOrdered);
    CompleteEdges(n);
    StoredUnchanged(edges);
    CompleteGraphOf(n, edges, MakeGraph(edges));
    NewGraph(AsRaw(edges))
  }

  /** The graph the constructor builds from the complete edge list. */
  lemma CompleteGraphOf(n: int, edges: seq<Edge>, g: Graph)
    requires |edges| == (if n > 0 then n * (n - 1) / 2 else 0)
    requires forall e :: e in edges <==> 1 <= e.0 < e.1 <= n
    requires LexSorted(edges)
    requires g == MakeGraph(edges)
    ensures |g.edges| == (if n > 0 then n * (n - 1) / 2 else 0)
    ensures forall e :: e in g.edges <==> 1 <= e.0 < e.1 <= n
    ensures LexSorted(g.edges)
    ensures g.numVertices == if n >= 2 then n else 0
  {
    CompleteVertices(n, g);
  }

  /** The constructor stores a list that `verify_edge_set` returns as it
      is. */
  lemma StoredUnchanged(edges: seq<Edge>)
    requires VerifyEdgeSet(AsRaw(edges)) == Ok(edges)
    ensures NewGraph(AsRaw(edges)) == Ok(MakeGraph(edges))
  {
  }

  /** The filtered square product is the sorted list of pairs `i < j` of
      `1..n`, and the constructor keeps it as it is. */
  lemma CompleteEdges(n: int)
    ensures var edges := Filter(Product(Range(1, n + 1), Range(1, n + 1)), IsOrdered);
      && VerifyEdgeSet(AsRaw(edges)) == Ok(edges)
      && |edges| == (if n > 0 then n * (n - 1) / 2 else 0)
      && (forall e :: e in edges <==> 1 <= e.0 < e.1 <= n)
      && LexSorted(edges)
  {
    var edges := Filter(Product(Range(1, n + 1), Range(1, n + 1)), IsOrdered);
    TriClosed(n);
    if n >= 0 {
      FilteredSquare(1, n);
      PairsFromSorted(1, n);
      LexSortedNoDup(edges);
    } else {
      assert |Range(1, n + 1)| == 0;
    }
    NormalisedInput(edges);
  }

  lemma CompleteVertices(n: int, g: Graph)
    requires forall e :: e in g.edges <==> 1 <= e.0 < e.1 <= n
    requires forall e :: e in g.edges ==> e.1 <= g.numVertices
    requires g.numVertices == 0 || exists e :: e in g.edges && e.1 == g.numVertices
    ensures g.numVertices == if n >= 2 then n else 0
  {
    if n >= 2 {
      assert (1, n) in g.edges;
    }
  }

  lemma BipartiteNormalised(n: int, m: int)
    ensures VerifyEdgeSet(AsRaw(Product(Range(1, n + 1), Range(n + 1, n + m + 1))))
         == Ok(Product(Range(1, n + 1), Range(n + 1, n + m + 1)))
  {
    var edges := Product(Range(1, n + 1), Range(n + 1, n + m + 1));
    RangeIncreasing(1, n + 1);
    RangeIncreasing(n + 1, n + m + 1);
    ProductSorted(Range(1, n + 1), Range(n + 1, n + m + 1));
    LexSortedNoDup(edges);
    NormalisedInput(edges);
  }

  /** `SimpleGraph.complete_bipartite_graph(n, m)`: every pair `(a, b)` with
      `a` in `1..n` and `b` in `n+1..n+m`, row by row; no edge lies within
      one side and every edge is already ordered, so the constructor keeps
      the list as it is. */
  function CompleteBipartiteGraph(n: int, m: int): (r: Result<Graph>)
    ensures r.Ok?
    ensures |r.value.edges| == if n > 0 && m > 0 then n * m else 0
    ensures forall e :: e in r.value.edges <==> 1 <= e.0 <= n < e.1 <= n + m
    ensures r.value.edges == Product(Range(1, n + 1), Range(n + 1, n + m + 1))
    ensures r.value.numVertices == if n > 0 && m > 0 then n + m else 0
  {
    var edges := Product(Range(1, n + 1), Range(n + 1, n + m + 1));
    BipartiteNormalised(n, m);
    BipartiteCount(n, m);
    BipartiteMembers(n, m);
    var r := NewGraph(AsRaw(edges));
    BipartiteVertices(n, m, r.value);
    r
  }

  lemma BipartiteCount(n: int, m: int)
    ensures |Product(Range(1, n + 1), Range(n + 1, n + m + 1))| == if n > 0 && m > 0 then n * m else 0
  {
    var xs := Range(1, n + 1);
    var ys := Range(n + 1, n + m + 1);
    if n > 0 && m > 0 {
      assert |xs| == n && |ys| == m;
    } else {
      assert |xs| == 0 || |ys| == 0;
    }
  }

  lemma BipartiteMembers(n: int, m: int)
    ensures var edges := Product(Range(1, n + 1), Range(n + 1, n + m + 1));
      forall e :: e in edges <==> 1 <= e.0 <= n < e.1 <= n + m
  {
  }

  lemma BipartiteVertices(n: int, m: int, g: Graph)
    requires forall e :: e in g.edges <==> 1 <= e.0 <= n < e.1 <= n + m
    requires forall e :: e in g.edges ==> e.1 <= g.numVertices
    requires g.numVertices == 0 || exists e :: e in g.edges && e.1 == g.numVertices
    ensures g.numVertices == if n > 0 && m > 0 then n + m else 0
  {
    if n > 0 && m > 0 {
      assert (1, n + m) in g.edges;
    }
  }
}
=== FILE: symmetries.dfy ===
/** The `remove_*_elements` reductions of a list of permutation strings, and
    the symmetry relations they are meant to respect: a string and its
    reversal (`Flip`), a string and its rotations (`Rotation`), and a string
    and all rotations of it and of its reversal, the dihedral group
    (`Dihedral`). `Orbit` is the dihedral reduction done by deleting the
    whole orbit at once. */
module Symmetries {
  import opened Seqs
  import opened Permutations

  // ---------------------------------------------------------------------
  // Index algebra of rotations and reflections

  /** `a` reduced into `0..n - 1`, for `a` at most one period away. */
  function Wrap(a: int, n: int): (p: int)
    requires -n <= a < 2 * n
    ensures n > 0 ==> 0 <= p < n
  {
    if a < 0 then a + n else if a < n then a else a - n
  }

  /** The source index of position `k` in an image: `c + k`, or `c - k`
      for a reflection, modulo `n`. */
  function SourceIndex(n: int, c: int, f: bool, k: int): (p: int)
    requires 0 <= c < n && 0 <= k < n
    ensures 0 <= p < n
  {
    Wrap(if f then c - k else c + k, n)
  }

  lemma SourceIndexCompose(n: int, c1: int, f1: bool, c2: int, f2: bool, k: int)
    requires 0 <= c1 < n && 0 <= c2 < n && 0 <= k < n
    ensures SourceIndex(n, c1, f1, SourceIndex(n, c2, f2, k)) == SourceIndex(n, SourceIndex(n, c1, f1, c2), f1 != f2, k)
  {
  }

  /** The dihedral image of `x` with offset `c`, reflected when `f`. */
  function Image(x: string, c: int, f: bool): (y: string)
    requires 0 <= c < |x|
    ensures |y| == |x|
    ensures forall k :: 0 <= k < |x| ==> y[k] == x[SourceIndex(|x|, c, f, k)]
  {
    seq(|x|, k requires 0 <= k < |x| => x[SourceIndex(|x|, c, f, k)])
  }

  /** Images compose like the dihedral group: offsets add (or subtract,
      after a reflection) and reflections cancel in pairs. */
  lemma ImageCompose(x: string, c1: int, f1: bool, c2: int, f2: bool)
    requires 0 <= c1 < |x| && 0 <= c2 < |x|
    ensures Image(Image(x, c1, f1), c2, f2) == Image(x, SourceIndex(|x|, c1, f1, c2), f1 != f2)
  {
    var n := |x|;
    forall k | 0 <= k < n
      ensures Image(Image(x, c1, f1), c2, f2)[k] == Image(x, SourceIndex(n, c1, f1, c2), f1 != f2)[k]
    {
      SourceIndexCompose(n, c1, f1, c2, f2, k);
    }
  }

  lemma ImageIdentity(x: string)
    requires |x| > 0
    ensures Image(x, 0, false) == x
  {
  }

  /** Every image is undone by an image of the same kind. */
  lemma ImageInverse(x: string, c: int, f: bool)
    requires 0 <= c < |x|
    ensures var c' := if f then c else Wrap(|x| - c, |x|);
      0 <= c' < |x| && Image(Image(x, c, f), c', f) == x
  {
    var c' := if f then c else Wrap(|x| - c, |x|);
    ImageCompose(x, c, f, c', f);
    ImageIdentity(x);
  }

  /** Right rotation by `j` is the image with offset `-j`. */
  lemma RotImage(x: string, j: int)
    requires 0 <= j < |x|
    ensures Rot(x, j) == Image(x, Wrap(|x| - j, |x|), false)
  {
    forall k | 0 <= k < |x|
      ensures Rot(x, j)[k] == Image(x, Wrap(|x| - j, |x|), false)[k]
    {
      RotAt(x, j, k);
    }
  }

  /** The reversal of right rotation `j` is the reflection with offset
      `|x| - 1 - j`. */
  lemma FlipImage(x: string, j: int)
    requires 0 <= j < |x|
    ensures Reverse(Rot(x, j)) == Image(x, |x| - 1 - j, true)
  {
    forall k | 0 <= k < |x|
      ensures Reverse(Rot(x, j))[k] == Image(x, |x| - 1 - j, true)[k]
    {
      ReverseAt(Rot(x, j), k);
      RotAt(x, j, |x| - 1 - k);
    }
  }

  /** On a string without repeated characters, different images are
      different strings; a rotation and a reflection differ as soon as the
      string has three characters. */
  lemma ImageDistinct(x: string, c1: int, f1: bool, c2: int, f2: bool)
    requires NoDup(x) && 0 <= c1 < |x| && 0 <= c2 < |x|
    requires f1 == f2 || |x| >= 3
    requires Image(x, c1, f1) == Image(x, c2, f2)
    ensures c1 == c2 && f1 == f2
  {
    var n := |x|;
    assert x[c1] == Image(x, c1, f1)[0] == Image(x, c2, f2)[0] == x[c2];
    if n >= 3 {
      assert x[SourceIndex(n, c1, f1, 1)] == x[SourceIndex(n, c2, f2, 1)] by {
        assert Image(x, c1, f1)[1] == Image(x, c2, f2)[1];
      }
    }
  }

  lemma ReverseReverse(x: string)
    ensures Reverse(Reverse(x)) == x
  {
  }

  // ---------------------------------------------------------------------
  // The symmetry relations

  datatype Symmetry = Flip | Rotation | Dihedral | Orbit

  /** The right rotations `0..|x| - 1` of `x`. */
  function RotImages(x: string): (r: seq<string>)
    ensures |r| == |x|
    ensures forall j :: 0 <= j < |x| ==> r[j] == Rot(x, j)
  {
    seq(|x|, j requires 0 <= j < |x| => Rot(x, j))
  }

  /** The reversals of the right rotations `0..|x| - 1` of `x`. */
  function FlipImages(x: string): (r: seq<string>)
    ensures |r| == |x|
    ensures forall j :: 0 <= j < |x| ==> r[j] == Reverse(Rot(x, j))
  {
    seq(|x|, j requires 0 <= j < |x| => Reverse(Rot(x, j)))
  }

  /** `y` is `x` or one of the copies of `x` that the reduction for `sym`
      is meant to remove. */
  predicate Related(sym: Symmetry, x: string, y: string)
  {
    y == x || match sym
      case Flip => y == Reverse(x)
      case Rotation => y in RotImages(x)
      case Dihedral => y in RotImages(x) || y in FlipImages(x)
      case Orbit => y in RotImages(x) || y in FlipImages(x)
  }

  /** `y` is an image of `x`, a rotation when `rotOnly`. */
  ghost predicate ImageOf(x: string, y: string, rotOnly: bool)
  {
    exists c, f :: 0 <= c < |x| && (rotOnly ==> !f) && y == Image(x, c, f)
  }

  /** Apart from reversal, the relations are "is an image of". */
  lemma RelatedImage(sym: Symmetry, x: string, y: string)
    requires sym != Flip
    ensures Related(sym, x, y) <==> y == x || ImageOf(x, y, sym == Rotation)
  {
    if Related(sym, x, y) && y != x {
      RelatedToImage(sym, x, y);
    }
    if ImageOf(x, y, sym == Rotation) {
      ImageToRelated(sym, x, y);
    }
  }

  lemma RelatedToImage(sym: Symmetry, x: string, y: string)
    requires sym != Flip && Related(sym, x, y) && y != x
    ensures ImageOf(x, y, sym == Rotation)
  {
    var n := |x|;
    if y in RotImages(x) {
      var j :| 0 <= j < n && y == RotImages(x)[j];
      RotImage(x, j);
      assert y == Image(x, Wrap(n - j, n), false);
    } else {
      var j :| 0 <= j < n && y == FlipImages(x)[j];
      FlipImage(x, j);
      assert y == Image(x, n - 1 - j, true);
    }
  }

  lemma ImageToRelated(sym: Symmetry, x: string, y: string)
    requires sym != Flip && ImageOf(x, y, sym == Rotation)
    ensures Related(sym, x, y)
  {
    var n := |x|;
    var c, f :| 0 <= c < n && (sym == Rotation ==> !f) && y == Image(x, c, f);
    if f {
      FlipImage(x, n - 1 - c);
      assert FlipImages(x)[n - 1 - c] == y;
    } else {
      var j := Wrap(n - c, n);
      RotImage(x, j);
      assert RotImages(x)[j] == y;
    }
  }

  lemma RelatedSymmetric(sym: Symmetry, x: string, y: string)
    requires Related(sym, x, y)
    ensures Related(sym, y, x)
  {
    if y == x {
    } else if sym == Flip {
      ReverseReverse(x);
    } else {
      var rotOnly := sym == Rotation;
      RelatedImage(sym, x, y);
      var c, f :| 0 <= c < |x| && (rotOnly ==> !f) && y == Image(x, c, f);
      ImageInverse(x, c, f);
      RelatedImage(sym, y, x);
    }
  }

  lemma RelatedTransitive(sym: Symmetry, x: string, y: string, z: string)
    requires Related(sym, x, y) && Related(sym, y, z)
    ensures Related(sym, x, z)
  {
    if y == x || z == y {
    } else if sym == Flip {
      ReverseReverse(x);
    } else {
      var rotOnly := sym == Rotation;
      RelatedImage(sym, x, y);
      RelatedImage(sym, y, z);
      var c1, f1 :| 0 <= c1 < |x| && (rotOnly ==> !f1) && y == Image(x, c1, f1);
      var c2, f2 :| 0 <= c2 < |y| && (rotOnly ==> !f2) && z == Image(y, c2, f2);
      ImageCompose(x, c1, f1, c2, f2);
      assert ImageOf(x, z, rotOnly);
      RelatedImage(sym, x, z);
    }
  }

  // ---------------------------------------------------------------------
  // One deletion step on a complete orbit

  /** The copy of `x` rotated `j` steps right, reversed when `f`. */
  function Copy(x: string, j: int, f: bool): string
    requires 0 <= j < |x|
  {
    if f then Reverse(Rot(x, j)) else Rot(x, j)
  }

  /** On a string without repeated characters, the copies are pairwise
      different; a rotation and a reversed rotation differ as soon as the
      string has three characters. */
  lemma CopyDistinct(x: string, j1: int, f1: bool, j2: int, f2: bool)
    requires NoDup(x) && 0 <= j1 < |x| && 0 <= j2 < |x|
    requires f1 == f2 || |x| >= 3
    requires Copy(x, j1, f1) == Copy(x, j2, f2)
    ensures j1 == j2 && f1 == f2
  {
    var n := |x|;
    var c1 := if f1 then n - 1 - j1 else Wrap(n - j1, n);
    var c2 := if f2 then n - 1 - j2 else Wrap(n - j2, n);
    if f1 { FlipImage(x, j1); } else { RotImage(x, j1); }
    if f2 { FlipImage(x, j2); } else { RotImage(x, j2); }
    ImageDistinct(x, c1, f1, c2, f2);
  }

  /** The keys `remove_*_elements` keeps when it processes `x`: `x` itself
      and every key not related to it. */
  function Keep(sym: Symmetry, x: string): string -> bool
  {
    (y: string) => y == x || !Related(sym, x, y)
  }

  /** Deleting a key list that holds exactly the relatives of `x` other
      than `x` keeps what `Keep` keeps. */
  lemma OutsideKeep(d: seq<string>, keys: seq<string>, sym: Symmetry, x: string)
    requires forall y :: y in keys <==> y != x && Related(sym, x, y)
    ensures Filter(d, NotAmong(keys)) == Filter(d, Keep(sym, x))
  {
    FilterCongruent(d, NotAmong(keys), Keep(sym, x));
  }

  /** `find_and_remove_flip` deletes the reversal of `x`, which is all
      that `Flip` relates to `x`, unless `x` reads the same backwards. */
  lemma FlipStep(x: string, d: seq<string>)
    requires Reverse(x) != x
    ensures FindAndRemoveFlip(x, d) == Filter(d, Keep(Flip, x))
  {
    FilterCongruent(d, NotKey(Reverse(x)), Keep(Flip, x));
  }

  /** The rotations `1..|x| - 1` are the rotations of `x` other than `x`. */
  lemma RotKeys(x: string, y: string)
    requires NoDup(x) && |x| >= 1
    ensures y in Rots(x, 1, |x|) <==> y != x && Related(Rotation, x, y)
  {
    var n := |x|;
    RotsHas(x, 1, n, y);
    assert Rot(x, 0) == x;
    if y in Rots(x, 1, n) {
      var j :| 1 <= j < n && y == Rot(x, j);
      assert RotImages(x)[j] == y;
      if y == x {
        CopyDistinct(x, j, false, 0, false);
      }
    }
    if y != x && Related(Rotation, x, y) {
      var j :| 0 <= j < n && RotImages(x)[j] == y;
      assert 1 <= j < n && y == Rot(x, j);
    }
  }

  /** With all rotations of `x` present, the loop of
      `find_and_remove_rotations` never stops early. */
  lemma RotationFullRun(x: string, d: seq<string>, t: int)
    requires NoDup(x) && |x| >= 1
    requires forall j :: 1 <= j < |x| ==> Rot(x, j) in d
    requires RotationRun(x, d, t)
    ensures t == Steps(x)
  {
    if t < Steps(x) {
      var y := Rot(x, t + 1);
      assert !RotationFound(x, d, t + 1);
      RotsHas(x, 1, t + 1, y);
      var j :| 1 <= j < t + 1 && y == Rot(x, j);
      CopyDistinct(x, j, false, t + 1, false);
    }
  }

  /** `find_and_remove_rotations` on a complete rotation orbit deletes
      every rotation of `x` except `x` itself, and nothing else. */
  lemma RotationStep(x: string, d: seq<string>)
    requires NoDup(x) && |x| >= 1
    requires forall j :: 1 <= j < |x| ==> Rot(x, j) in d
    ensures FindAndRemoveRotations(x, d) == Filter(d, Keep(Rotation, x))
  {
    var r := FindAndRemoveRotations(x, d);
    var t :| RotationRun(x, d, t) && r == Filter(d, NotAmong(Rots(x, 1, t + 1)));
    RotationFullRun(x, d, t);
    forall y {
      RotKeys(x, y);
    }
    OutsideKeep(d, Rots(x, 1, |x|), Rotation, x);
  }

  /** The keys of the dihedral loop, run to the end, are the rotations and
      reversed rotations of `x` other than `x`. */
  lemma DihedralKeys(x: string, y: string)
    requires NoDup(x) && |x| >= 3
    ensures y in PairKeys(Reverse(x), RotList(x), FlipList(x), Steps(x)) <==> y != x && Related(Dihedral, x, y)
  {
    PairKeysHas(Reverse(x), RotList(x), FlipList(x), Steps(x), y);
    if y in PairKeys(Reverse(x), RotList(x), FlipList(x), Steps(x)) {
      DihedralKeySound(x, y);
    }
    if y != x && Related(Dihedral, x, y) {
      DihedralKeyComplete(x, y);
    }
  }

  /** Every key the dihedral loop may delete is another copy of `x`. */
  lemma DihedralKeySound(x: string, y: string)
    requires NoDup(x) && |x| >= 3
    requires y == Reverse(x) || exists i :: 0 <= i < Steps(x) && (y == RotList(x)[i] || y == FlipList(x)[i])
    ensures y != x && Related(Dihedral, x, y)
  {
    var a, b := RotList(x), FlipList(x);
    assert Rot(x, 0) == x;
    var j, f;
    if y == Reverse(x) {
      j, f := 0, true;
    } else {
      var i :| 0 <= i < Steps(x) && (y == a[i] || y == b[i]);
      j, f := i + 1, y != a[i];
    }
    assert y == Copy(x, j, f);
    assert Related(Dihedral, x, y) by {
      if f { assert FlipImages(x)[j] == y; } else { assert RotImages(x)[j] == y; }
    }
    CopyDiffer(x, j, f, 0, false);
  }

  /** Every other copy of `x` is among the keys of the dihedral loop. */
  lemma DihedralKeyComplete(x: string, y: string)
    requires NoDup(x) && |x| >= 3
    requires y != x && Related(Dihedral, x, y)
    ensures y == Reverse(x) || exists i :: 0 <= i < Steps(x) && (y == RotList(x)[i] || y == FlipList(x)[i])
  {
    var a, b := RotList(x), FlipList(x);
    assert Rot(x, 0) == x;
    if y in RotImages(x) {
      var j :| 0 <= j < |x| && RotImages(x)[j] == y;
      assert y == a[j - 1];
    } else {
      var j :| 0 <= j < |x| && FlipImages(x)[j] == y;
      if j > 0 {
        assert y == b[j - 1];
      }
    }
  }

  /** The reversed rotation of iteration `j` is no key of an earlier
      iteration `i`. */
  lemma EarlierKeysDiffer(x: string, j: int, i: int)
    requires NoDup(x) && |x| >= 3 && 0 <= i < j < Steps(x)
    ensures FlipList(x)[j] != RotList(x)[i] && FlipList(x)[j] != FlipList(x)[i]
  {
    assert FlipList(x)[j] == Copy(x, j + 1, true);
    assert RotList(x)[i] == Copy(x, i + 1, false);
    assert FlipList(x)[i] == Copy(x, i + 1, true);
    CopyDiffer(x, j + 1, true, i + 1, false);
    CopyDiffer(x, j + 1, true, i + 1, true);
  }

  /** With the whole orbit present, iteration `j` of the dihedral loop
      finds its reversed rotation. */
  lemma DihedralFound(x: string, d: seq<string>, j: int)
    requires NoDup(x) && |x| >= 3 && 0 <= j < Steps(x)
    requires forall k :: 0 <= k < |x| ==> Rot(x, k) in d && Reverse(Rot(x, k)) in d
    ensures PairFound(Reverse(x), RotList(x), FlipList(x), d, j)
  {
    var a, b := RotList(x), FlipList(x);
    var y := b[j];
    assert y == Copy(x, j + 1, true);
    assert y in d;
    assert y != Reverse(x) && y != a[j] by {
      assert Rot(x, 0) == x;
      CopyDiffer(x, j + 1, true, 0, true);
      CopyDiffer(x, j + 1, true, j + 1, false);
    }
    assert forall i :: 0 <= i < j ==> y != a[i] && y != b[i] by {
      forall i | 0 <= i < j
        ensures y != a[i] && y != b[i]
      {
        EarlierKeysDiffer(x, j, i);
      }
    }
    PairKeysHas(Reverse(x), a, b, j, y);
  }

  lemma CopyDiffer(x: string, j1: int, f1: bool, j2: int, f2: bool)
    requires NoDup(x) && 0 <= j1 < |x| && 0 <= j2 < |x|
    requires f1 == f2 || |x| >= 3
    requires j1 != j2 || f1 != f2
    ensures Copy(x, j1, f1) != Copy(x, j2, f2)
  {
    if Copy(x, j1, f1) == Copy(x, j2, f2) {
      CopyDistinct(x, j1, f1, j2, f2);
    }
  }

  /** `find_and_remove_dihedrals` on a complete dihedral orbit of a line of
      three or more distinct characters deletes all `2|x| - 1` rotations
      and reversed rotations of `x` except `x` itself, and nothing else. */
  lemma DihedralStep(x: string, d: seq<string>)
    requires NoDup(x) && |x| >= 3
    requires forall k :: 0 <= k < |x| ==> Rot(x, k) in d && Reverse(Rot(x, k)) in d
    ensures FindAndRemoveDihedrals(x, d) == Filter(d, Keep(Dihedral, x))
  {
    var a, b := RotList(x), FlipList(x);
    forall j | 0 <= j < |a|
      ensures PairFound(Reverse(x), a, b, d, j)
    {
      DihedralFound(x, d, j);
    }
    PairStopFull(Reverse(x), a, b, d, 0);
    assert PairDeleted(Reverse(x), a, b, Steps(x)) == PairKeys(Reverse(x), a, b, Steps(x));
    forall y {
      DihedralKeys(x, y);
    }
    OutsideKeep(d, PairKeys(Reverse(x), a, b, Steps(x)), Dihedral, x);
  }

  // ---------------------------------------------------------------------
  // remove_flip_elements, remove_rotation_elements, remove_dihedral_elements

  /** The deletion performed for a key `x` still in the dictionary:
      `find_and_remove_flip`, `find_and_remove_rotations` or
      `find_and_remove_dihedrals`; `Orbit` deletes every relative of `x`
      at once. */
  function Reduce(sym: Symmetry, x: string, d: seq<string>): (r: seq<string>)
    ensures SubList(r, d)
  {
    match sym
    case Flip => FindAndRemoveFlip(x, d)
    case Rotation => FindAndRemoveRotations(x, d)
    case Dihedral => FindAndRemoveDihedrals(x, d)
    case Orbit =>
      FilterSubList(d, Keep(Orbit, x));
      Filter(d, Keep(Orbit, x))
  }

  /** The loop over the snapshot `keys` of the dictionary: a key still
      present is processed, a deleted one is skipped. */
  function ReduceLoop(sym: Symmetry, keys: seq<string>, d: seq<string>): (r: seq<string>)
    ensures SubList(r, d)
    decreases |keys|
  {
    SubListRefl(d);
    if |keys| == 0 then d
    else
      var d1 := if keys[0] in d then Reduce(sym, keys[0], d) else d;
      var r := ReduceLoop(sym, keys[1..], d1);
      SubListTrans(r, d1, d);
      r
  }

  /** `remove_flip_elements`, `remove_rotation_elements` and
      `remove_dihedral_elements` (and the whole-orbit variant): the
      surviving keys of the dictionary built from `perms`, in insertion
      order, without repetitions. */
  function RemoveElements(sym: Symmetry, perms: seq<string>): (r: seq<string>)
    ensures SubList(r, KeepFirst(perms))
    ensures NoDup(r)
    ensures forall x :: x in r ==> x in perms
  {
    var d := StorePermsInDict(perms);
    var r := ReduceLoop(sym, d, d);
    FilterNoDup(d, Kept(r));
    r
  }

  // ---------------------------------------------------------------------
  // What the reductions keep

  /** The hypotheses under which the deletion for `sym` removes exactly
      the relatives of the processed key: no key reads the same backwards
      (`Flip`); keys of distinct characters, with the dictionary closed
      under one right rotation (`Rotation`) and also under reversal, on
      keys of three characters or more (`Dihedral`). */
  predicate Admissible(sym: Symmetry, d0: seq<string>)
  {
    match sym
    case Flip => forall x :: x in d0 ==> Reverse(x) != x
    case Rotation => forall x :: x in d0 ==> NoDup(x) && |x| >= 1 && RotR(x) in d0
    case Dihedral => forall x :: x in d0 ==> NoDup(x) && |x| >= 3 && RotR(x) in d0 && Reverse(x) in d0
    case Orbit => true
  }

  /** A dictionary closed under one right rotation (and reversal) holds
      every rotation (and reversed rotation) of each of its keys. */
  lemma {:induction false} Closed(sym: Symmetry, d0: seq<string>, x: string, j: int)
    requires sym == Rotation || sym == Dihedral
    requires Admissible(sym, d0) && x in d0 && 0 <= j < |x|
    ensures Rot(x, j) in d0
    ensures sym == Dihedral ==> Reverse(Rot(x, j)) in d0
  {
    if j == 0 {
      assert Rot(x, 0) == x;
    } else {
      Closed(sym, d0, x, j - 1);
      RotStep(x, j - 1);
    }
  }

  /** The deletion for an admissible `sym`, applied to a key whose
      relatives are all present, keeps exactly what `Keep` keeps. */
  lemma ReduceStep(sym: Symmetry, d0: seq<string>, x: string, d: seq<string>)
    requires Admissible(sym, d0) && x in d0
    requires forall y :: y in d0 && Related(sym, x, y) ==> y in d
    ensures Reduce(sym, x, d) == Filter(d, Keep(sym, x))
  {
    match sym
    case Flip =>
      FlipStep(x, d);
    case Rotation =>
      forall j | 1 <= j < |x|
        ensures Rot(x, j) in d
      {
        Closed(sym, d0, x, j);
        assert RotImages(x)[j] == Rot(x, j);
      }
      RotationStep(x, d);
    case Dihedral =>
      forall k | 0 <= k < |x|
        ensures Rot(x, k) in d && Reverse(Rot(x, k)) in d
      {
        Closed(sym, d0, x, k);
        assert RotImages(x)[k] == Rot(x, k);
        assert FlipImages(x)[k] == Reverse(Rot(x, k));
      }
      DihedralStep(x, d);
    case Orbit =>
  }

  /** `y` is the first key of `d0` in its class. */
  predicate FirstOfClass(sym: Symmetry, d0: seq<string>, y: string)
  {
    forall i :: 0 <= i < IndexOf(d0, y) ==> !Related(sym, d0[i], y)
  }

  function FirstAt(sym: Symmetry, d0: seq<string>): string -> bool
  {
    (y: string) => FirstOfClass(sym, d0, y)
  }

  /** Before the key at index `k` is visited, `y` is still in the
      dictionary iff it is the first of its class or no key visited so far
      is related to it. */
  predicate Pending(sym: Symmetry, d0: seq<string>, k: int, y: string)
  {
    FirstOfClass(sym, d0, y) || forall i :: 0 <= i < k && i < |d0| ==> !Related(sym, d0[i], y)
  }

  function PendingAt(sym: Symmetry, d0: seq<string>, k: int): string -> bool
  {
    (y: string) => Pending(sym, d0, k, y)
  }

  /** Visiting a key that is first of its class keeps its pending
      relatives only if they are the key itself. */
  lemma PendingFirst(sym: Symmetry, d0: seq<string>, k: int, y: string)
    requires NoDup(d0) && 0 <= k < |d0| && y in d0
    requires FirstOfClass(sym, d0, d0[k])
    ensures Pending(sym, d0, k + 1, y) <==> Pending(sym, d0, k, y) && Keep(sym, d0[k])(y)
  {
    var x := d0[k];
    IndexOfNoDup(d0, k);
    if Related(sym, x, y) && y != x {
      var m := IndexOf(d0, y);
      if m < k {
        RelatedSymmetric(sym, x, y);
        assert false;
      }
      assert k < IndexOf(d0, y) && Related(sym, d0[k], y);
    }
  }

  /** Visiting a key that is not first of its class changes nothing: it
      was already deleted, and so were its relatives. */
  lemma PendingLater(sym: Symmetry, d0: seq<string>, k: int, y: string)
    requires NoDup(d0) && 0 <= k < |d0|
    requires !FirstOfClass(sym, d0, d0[k])
    ensures !Pending(sym, d0, k, d0[k])
    ensures Pending(sym, d0, k + 1, y) <==> Pending(sym, d0, k, y)
  {
    var x := d0[k];
    IndexOfNoDup(d0, k);
    var i :| 0 <= i < k && Related(sym, d0[i], x);
    assert !Pending(sym, d0, k, x);
    assert Related(sym, x, y) ==> Related(sym, d0[i], y) by {
      if Related(sym, x, y) {
        RelatedTransitive(sym, d0[i], x, y);
      }
    }
    var earlier := forall i' :: 0 <= i' < k && i' < |d0| ==> !Related(sym, d0[i'], y);
    var later := forall i' :: 0 <= i' < k + 1 && i' < |d0| ==> !Related(sym, d0[i'], y);
    assert earlier ==> later by {
      if earlier {
        forall i' | 0 <= i' < k + 1 && i' < |d0|
          ensures !Related(sym, d0[i'], y)
        {
          if i' == k {
            assert !Related(sym, d0[i], y);
          }
        }
      }
    }
  }

  /** The relatives of a first-of-class key are still pending when it is
      visited. */
  lemma RelativesPending(sym: Symmetry, d0: seq<string>, k: int, y: string)
    requires NoDup(d0) && 0 <= k < |d0|
    requires FirstOfClass(sym, d0, d0[k]) && Related(sym, d0[k], y)
    ensures Pending(sym, d0, k, y)
  {
    var x := d0[k];
    IndexOfNoDup(d0, k);
    forall i | 0 <= i < k
      ensures !Related(sym, d0[i], y)
    {
      if Related(sym, d0[i], y) {
        RelatedSymmetric(sym, x, y);
        RelatedTransitive(sym, d0[i], y, x);
      }
    }
  }

  /** One iteration of the loop moves the dictionary from the pending keys
      before index `k` to those before `k + 1`. */
  lemma ReduceIteration(sym: Symmetry, d0: seq<string>, k: int, d: seq<string>)
    requires NoDup(d0) && Admissible(sym, d0) && 0 <= k < |d0|
    requires d == Filter(d0, PendingAt(sym, d0, k))
    ensures (if d0[k] in d then Reduce(sym, d0[k], d) else d) == Filter(d0, PendingAt(sym, d0, k + 1))
  {
    var x := d0[k];
    if FirstOfClass(sym, d0, x) {
      assert Pending(sym, d0, k, x);
      forall y | y in d0 && Related(sym, x, y)
        ensures y in d
      {
        RelativesPending(sym, d0, k, y);
      }
      ReduceStep(sym, d0, x, d);
      forall y | y in d0
        ensures Pending(sym, d0, k + 1, y) <==> Pending(sym, d0, k, y) && Keep(sym, x)(y)
      {
        PendingFirst(sym, d0, k, y);
      }
      FilterFilter(d0, PendingAt(sym, d0, k), Keep(sym, x), PendingAt(sym, d0, k + 1));
    } else {
      forall y | y in d0
        ensures Pending(sym, d0, k + 1, y) <==> Pending(sym, d0, k, y)
      {
        PendingLater(sym, d0, k, y);
      }
      PendingLater(sym, d0, k, x);
      FilterCongruent(d0, PendingAt(sym, d0, k), PendingAt(sym, d0, k + 1));
    }
  }

  /** The loop from index `k` on ends with the first key of each class. */
  lemma {:induction false} ReduceLoopSpec(sym: Symmetry, d0: seq<string>, k: int, d: seq<string>)
    requires NoDup(d0) && Admissible(sym, d0) && 0 <= k <= |d0|
    requires d == Filter(d0, PendingAt(sym, d0, k))
    ensures ReduceLoop(sym, d0[k..], d) == Filter(d0, FirstAt(sym, d0))
    decreases |d0| - k
  {
    if k == |d0| {
      forall y | y in d0
        ensures Pending(sym, d0, k, y) <==> FirstOfClass(sym, d0, y)
      {
        var m := IndexOf(d0, y);
        assert Related(sym, d0[m], y);
      }
      FilterCongruent(d0, PendingAt(sym, d0, k), FirstAt(sym, d0));
    } else {
      assert d0[k..][1..] == d0[k + 1..];
      ReduceIteration(sym, d0, k, d);
      ReduceLoopSpec(sym, d0, k + 1, if d0[k] in d then Reduce(sym, d0[k], d) else d);
    }
  }

  /** On an admissible dictionary each reduction keeps, in insertion
      order, exactly the first-inserted key of each class. */
  lemma RemoveElementsSpec(sym: Symmetry, perms: seq<string>)
    requires Admissible(sym, KeepFirst(perms))
    ensures RemoveElements(sym, perms) == Filter(KeepFirst(perms), FirstAt(sym, KeepFirst(perms)))
  {
    var d0 := KeepFirst(perms);
    forall y | y in d0
      ensures Pending(sym, d0, 0, y)
    {
    }
    FilterAll(d0, PendingAt(sym, d0, 0));
    assert d0[0..] == d0;
    ReduceLoopSpec(sym, d0, 0, d0);
  }

  /** No two keys kept by a reduction on an admissible dictionary are
      related. */
  lemma KeptApart(sym: Symmetry, perms: seq<string>, x: string, y: string)
    requires Admissible(sym, KeepFirst(perms))
    requires x in RemoveElements(sym, perms) && y in RemoveElements(sym, perms)
    requires Related(sym, x, y)
    ensures x == y
  {
    var d0 := KeepFirst(perms);
    RemoveElementsSpec(sym, perms);
    FirstApart(sym, d0, x, y);
  }

  lemma FirstApart(sym: Symmetry, d0: seq<string>, x: string, y: string)
    requires x in d0 && y in d0
    requires FirstOfClass(sym, d0, x) && FirstOfClass(sym, d0, y)
    requires Related(sym, x, y)
    ensures x == y
  {
    RelatedSymmetric(sym, x, y);
  }

  /** The first index `i >= lo` of a key related to `y`, or `|d0|`. */
  function FirstRelated(sym: Symmetry, d0: seq<string>, y: string, lo: nat): (i: nat)
    requires lo <= |d0|
    ensures lo <= i <= |d0|
    ensures i < |d0| ==> Related(sym, d0[i], y)
    ensures forall j :: lo <= j < i ==> !Related(sym, d0[j], y)
    decreases |d0| - lo
  {
    if lo == |d0| || Related(sym, d0[lo], y) then lo else FirstRelated(sym, d0, y, lo + 1)
  }

  /** In a dictionary without repetitions, the first key related to a key
      `y` of it is the first of its class. */
  lemma FirstRelatedIsFirst(sym: Symmetry, d0: seq<string>, y: string)
    requires NoDup(d0) && y in d0
    ensures var i := FirstRelated(sym, d0, y, 0);
      i < |d0| && Related(sym, d0[i], y) && FirstOfClass(sym, d0, d0[i])
  {
    var m := IndexOf(d0, y);
    assert Related(sym, d0[m], y);
    var i := FirstRelated(sym, d0, y, 0);
    var x := d0[i];
    IndexOfNoDup(d0, i);
    forall j | 0 <= j < i
      ensures !Related(sym, d0[j], x)
    {
      if Related(sym, d0[j], x) {
        RelatedTransitive(sym, d0[j], x, y);
      }
    }
  }

  /** Every key of the input has a relative among the kept keys: the
      first-inserted key of its class. */
  lemma Covered(sym: Symmetry, perms: seq<string>, y: string)
    requires Admissible(sym, KeepFirst(perms)) && y in perms
    ensures exists x :: x in RemoveElements(sym, perms) && Related(sym, x, y)
  {
    RemoveElementsSpec(sym, perms);
    FirstKeptRelated(sym, KeepFirst(perms), RemoveElements(sym, perms), y);
  }

  /** The first-of-class filter of a dictionary without repetitions keeps
      a relative of each of its keys. */
  lemma FirstKeptRelated(sym: Symmetry, d0: seq<string>, kept: seq<string>, y: string)
    requires NoDup(d0) && y in d0
    requires kept == Filter(d0, FirstAt(sym, d0))
    ensures exists x :: x in kept && Related(sym, x, y)
  {
    FirstRelatedIsFirst(sym, d0, y);
    var x := d0[FirstRelated(sym, d0, y, 0)];
    assert x in kept;
  }

  /** The whole-orbit reduction keeps the first-inserted key of every
      class for every input, so a non-empty input keeps at least one key. */
  lemma OrbitKeepsFirst(perms: seq<string>)
    ensures RemoveElements(Orbit, perms) == Filter(KeepFirst(perms), FirstAt(Orbit, KeepFirst(perms)))
    ensures forall y :: y in perms ==> exists x :: x in RemoveElements(Orbit, perms) && Related(Orbit, x, y)
    ensures |perms| > 0 ==> |RemoveElements(Orbit, perms)| > 0
  {
    RemoveElementsSpec(Orbit, perms);
    forall y | y in perms
      ensures exists x :: x in RemoveElements(Orbit, perms) && Related(Orbit, x, y)
    {
      Covered(Orbit, perms, y);
    }
    if |perms| > 0 {
      assert perms[0] in perms;
    }
  }

  // ---------------------------------------------------------------------
  // Where find_and_remove_dihedrals falls short

  /** The reversed line is always among the keys `find_and_remove_dihedrals`
      deletes. */
  lemma DihedralsDeleteFlip(x: string, d: seq<string>)
    ensures Reverse(x) !in FindAndRemoveDihedrals(x, d)
  {
    var a, b := RotList(x), FlipList(x);
    var t := PairStop(Reverse(x), a, b, d, 0);
    PairKeysHas(Reverse(x), a, b, t, Reverse(x));
  }

  /** A line of at most two characters deletes itself: for one character
      it is its own reversal; for two, its one rotation reversed is the line
      again, found at the first iteration. */
  lemma ShortLineDeletesItself(x: string, d: seq<string>)
    requires |x| <= 2
    ensures x !in FindAndRemoveDihedrals(x, d)
  {
    var a, b := RotList(x), FlipList(x);
    if Reverse(x) == x {
      DihedralsDeleteFlip(x, d);
    } else if x in d {
      assert |x| == 2 && Rot(x, 1) == Reverse(x) && b[0] == x;
      assert PairFound(Reverse(x), a, b, d, 0);
      var t := PairStop(Reverse(x), a, b, d, 0);
      assert t == 1;
      PairKeysHas(Reverse(x), a, b, t, x);
    }
  }

  lemma ShapesOfTwo(x: string)
    requires |x| == 2
    ensures Rot(x, 1) == [x[1], x[0]] && Reverse(x) == [x[1], x[0]]
  {
    RotAt(x, 1, 0);
    RotAt(x, 1, 1);
  }

  lemma ShapesOfThree(x: string)
    requires |x| == 3
    ensures Reverse(x) == [x[2], x[1], x[0]]
    ensures Rot(x, 1) == [x[2], x[0], x[1]]
    ensures Rot(x, 2) == [x[1], x[2], x[0]]
  {
    RotAt(x, 1, 0);
    RotAt(x, 1, 1);
    RotAt(x, 1, 2);
    RotAt(x, 2, 0);
    RotAt(x, 2, 1);
    RotAt(x, 2, 2);
  }

  lemma FilterPair(u: string, v: string, keep: string -> bool)
    ensures Filter([u, v], keep) == (if keep(u) then [u] else []) + (if keep(v) then [v] else [])
  {
    assert [u, v][1..] == [v];
    assert [v][1..] == [];
  }

  /** Of two different related keys, only the first is first of its
      class. */
  lemma PairClass(sym: Symmetry, u: string, v: string)
    requires u != v && Related(sym, u, v)
    ensures Filter([u, v], FirstAt(sym, [u, v])) == [u]
  {
    assert IndexOf([u, v], u) == 0;
    assert IndexOf([u, v], v) == 1;
    assert !FirstOfClass(sym, [u, v], v);
    FilterPair(u, v, FirstAt(sym, [u, v]));
  }

  /** A loop over two keys whose deletions change nothing leaves the
      dictionary as it was. */
  lemma LoopPairFixed(sym: Symmetry, u: string, v: string, d: seq<string>)
    requires Reduce(sym, u, d) == d && Reduce(sym, v, d) == d
    ensures ReduceLoop(sym, [u, v], d) == d
  {
    assert [u, v][1..] == [v];
    assert [v][1..] == [];
    assert ReduceLoop(sym, [u, v], d) == ReduceLoop(sym, [v], d);
    assert ReduceLoop(sym, [v], d) == ReduceLoop(sym, [], d);
  }

  /** Reducing `["12", "21"]` leaves nothing: both keys are deleted while
      processing the first. */
  lemma DihedralEmptiesPair()
    ensures RemoveElements(Dihedral, ["12", "21"]) == []
  {
    var perms := ["12", "21"];
    KeepFirstNoDup(perms);
    ShapesOfTwo("12");
    var d1 := FindAndRemoveDihedrals("12", perms);
    ShortLineDeletesItself("12", perms);
    DihedralsDeleteFlip("12", perms);
    assert forall z :: z in d1 ==> z in perms;
    assert d1 == [] by {
      assert forall z :: z !in d1;
    }
    assert [ "12", "21"][1..] == ["21"];
    assert ReduceLoop(Dihedral, perms, perms) == ReduceLoop(Dihedral, ["21"], d1);
  }

  lemma RelatedTwo()
    ensures Related(Orbit, "12", "21")
  {
    ShapesOfTwo("12");
    assert RotImages("12")[1] == "21";
  }

  /** The whole-orbit reduction keeps `"12"` from `["12", "21"]`. */
  lemma OrbitKeepsPair()
    ensures RemoveElements(Orbit, ["12", "21"]) == ["12"]
  {
    var perms := ["12", "21"];
    KeepFirstNoDup(perms);
    RemoveElementsSpec(Orbit, perms);
    RelatedTwo();
    PairClass(Orbit, "12", "21");
  }

  /** A missing reversed rotation ends the loop of
      `find_and_remove_dihedrals` at once, whatever else is present. */
  lemma DihedralsStopEarly(x: string, d: seq<string>)
    requires |x| >= 2
    requires Reverse(x) !in d && Rot(x, 1) !in d && Reverse(Rot(x, 1)) !in d
    ensures FindAndRemoveDihedrals(x, d) == d
  {
    var a, b := RotList(x), FlipList(x);
    assert !PairFound(Reverse(x), a, b, d, 0);
    assert PairDeleted(Reverse(x), a, b, 0) == [Reverse(x), Rot(x, 1)];
    FilterAll(d, NotAmong([Reverse(x), Rot(x, 1)]));
  }

  lemma RelatedThree(sym: Symmetry)
    requires sym == Dihedral || sym == Orbit
    ensures Related(sym, "123", "132")
  {
    ShapesOfThree("123");
    ShapesOfThree("231");
    assert FlipImages("123")[2] == "132";
  }

  lemma StopsOnPair(x: string)
    requires x == "123" || x == "132"
    ensures FindAndRemoveDihedrals(x, ["123", "132"]) == ["123", "132"]
  {
    ShapesOfThree(x);
    ShapesOfThree(Rot(x, 1));
    DihedralsStopEarly(x, ["123", "132"]);
  }

  /** `"132"`, the reversal of `"123"` rotated twice, survives next to
      `"123"`: the loop stops at the first missing reversed rotation
      instead of skipping it. */
  lemma DihedralKeepsRelatedPair()
    ensures Related(Dihedral, "123", "132")
    ensures RemoveElements(Dihedral, ["123", "132"]) == ["123", "132"]
  {
    var perms := ["123", "132"];
    KeepFirstNoDup(perms);
    RelatedThree(Dihedral);
    StopsOnPair("123");
    StopsOnPair("132");
    LoopPairFixed(Dihedral, "123", "132", perms);
  }

  /** The whole-orbit reduction keeps only `"123"` from `["123", "132"]`. */
  lemma OrbitSeparatesPair()
    ensures RemoveElements(Orbit, ["123", "132"]) == ["123"]
  {
    var perms := ["123", "132"];
    KeepFirstNoDup(perms);
    RemoveElementsSpec(Orbit, perms);
    RelatedThree(Orbit);
    PairClass(Orbit, "123", "132");
  }
}
